=== FILE: README.md ===
# Bloxlink role binds, modelled in Dafny

Bloxlink links Discord members to Roblox accounts. A Discord server (a *guild*) keeps a list of
*binds*. A bind is one policy record: it has criteria (a category, an entity id and, for groups, rank
conditions), the roles to grant, the roles to remove, and an optional nickname template. This
project models the bind engine of `bloxlink_lib`. The model has seven parts:

- **The bind record** (`Binds`, `Base`): the group conditions and their construction checks, the
  criteria, the entity factory, and the post-init of `GuildBind`. Bind equality compares criteria
  only.
- **The legacy (V3) converters and migration** (`Conversions`, `Migration`): `from_V3` and
  `from_V3_group_rolebind`. The walk `migrate_old_binds` performs over a guild's legacy fields, and
  the whole-document traversal of `test/guildbind_classmethods.py`.
- **The repository** (`Repository`, `Guilds`):
  - the guild record and its post-init;
  - the database as a map from guild id to stored document;
  - `migrate_old_binds` and `get_binds`, with the duplicate-free extend and the verified/unverified
    polyfill.
- **The evaluator** (`Evaluator`): `satisfies_for`, which decides whether a member satisfies a bind.
  It also computes which roles to add, which rank roles the guild is missing, and which to revoke.
- **The nickname** (`Priority`, `Templates`):
  - `calculate_highest_role`;
  - the stable priority sort of `get_nickname_template`;
  - the template language of `parse_template`.
- **Roblox groups and users** (`Groups`, `LegacyGroups`, `Users`):
  - both `RobloxGroup` classes, with their sync state machines;
  - the group URL parser;
  - the user's sync scopes, the response merge and the age label;
  - the account-lookup decisions.
- **Coercive sets** (`Sets`, `SetScenarios`): `CoerciveSet`/`SnowflakeSet` and the behaviour their
  unit tests fix.

`Wrappers`, `Exceptions`, `Text` and `Utils` hold the Python behaviour the model needs:
- `Option`/`Result`;
- the raised exceptions as one datatype;
- `int()`, `str()`, `split`, `replace`, `upper`/`lower` and `strip`;
- slicing;
- `find`;
- a list comprehension whose element function may raise.

Network calls, database reads and clocks are parameters. A fetch that can raise is a
`Result`.

The bind records (`GroupBindData`, `BindCriteria`, `BindData`, `GuildBind`) are written as pydantic
models: they use pydantic's `Field`, aliases and `model_post_init`. The `BaseModel` they extend in
`bloxlink_lib/models/base.py` is an attrs class. The model follows the pydantic reading the records
are written for.

Where the repository's own descriptions and its code disagree, the model follows the code:
- `get_nickname_template` sorts binds without a highest role *first*: their key is `math.inf` and
  the sort is descending.
- It then takes the first bind's nickname, or the guild template when that nickname is empty. It
  does not search further for a bind that has a nickname.
- A group condition of `0` (minimum, maximum or roleset) counts as unset, because every check tests
  truthiness.
- `get_binds` does not write the synthesised verified/unverified binds back to the database.
- It applies the id filter only when a category is also given.
- It skips synthesis only when a verified bind already exists.
- `calculate_highest_role` does not memoise a role as written (see Findings).

## Model

| member | source | states |
|---|---|---|
| Binds.TypeName | bloxlink_lib/models/binds.py:24 | the stored literal of each category; "group" exactly for group binds, and exactly badge and gamepass are the categories with no entity implementation |
| Binds.CheckGroupBindData | bloxlink_lib/models/binds.py:63-71 | the intended checks (see Findings): group conditions are accepted exactly when they are consistent (both bounds or neither, a roleset excludes a range, everyone excludes every other condition); a lone bound raises ValidationError with the range message, a roleset with a range the exclusivity message, otherwise everyone with others the everyone message; accepted conditions are unchanged |
| Binds.CheckGroupBindDataAsWritten | bloxlink_lib/models/binds.py:63-71 | as written: the same conditions are accepted and refused, and every refusal is pydantic_core's TypeError, since ValidationError cannot be built from one message |
| Binds.LoneBoundRaisesTypeError | bloxlink_lib/models/binds.py:64-65 | a lone minimum raises TypeError as written and ValidationError with the range message as intended; both versions accept exactly the same conditions |
| Binds.ZeroBoundIsUnset | bloxlink_lib/models/binds.py:64-71 | a minimum, maximum or roleset of 0 is accepted or refused exactly as an unset one |
| Binds.BoundsScenarios | bloxlink_lib/models/binds.py:64-71 | with the intended checks: a lone non-zero minimum or maximum is refused with the range message, a pair is accepted, everyone with guest is refused with the everyone message |
| Binds.CriteriaEntityId | bloxlink_lib/models/binds.py:120 | the entity factory receives the criteria id as an int id, or no id when the criteria carry none |
| Binds.NewGuildBind | bloxlink_lib/models/binds.py:119-124 | inconsistent conditions raise their check's error; otherwise construction fails exactly for badge and gamepass (NotImplementedError) and for a group bind without conditions; a built bind keeps every given field, has no highest role, has an entity and a subtype exactly when it is a group bind, and its subtype is full_group exactly when dynamicRoles is set |
| Binds.PlainBindConstructs | bloxlink_lib/models/binds.py:119-124 | a verified or unverified bind is always constructible, with the given roles and nothing derived |
| Binds.SameCriteriaSameBind | bloxlink_lib/models/binds.py:433-434 | two binds built from the same criteria are equal, whatever their nicknames, roles, removed roles and data |
| Base.IdText | bloxlink_lib/models/base.py:44-46 | an int id renders as text that int() reads back as the id; a str id renders as itself; no id renders as "None" |
| Base.CreateEntity | bloxlink_lib/models/base.py:49-83 | raises NotImplementedError exactly for asset, badge and gamepass; gives an unsynced group entity exactly for "group"; gives None for any other category |
| Base.Labelled | bloxlink_lib/models/base.py:46 | an entity label is its head followed by " (<id>)" |
| Base.NamedOr | bloxlink_lib/models/base.py:44-46 | a set name appears in bold, otherwise the placeholder; the label starts with "**" exactly when the name is set, and always ends with " (<id>)" |
| Base.EntityLabel | bloxlink_lib/models/base.py:44-46 | str(entity): ends with " (<id>)", is bold exactly when named, and otherwise shows "*(Unknown Roblox Entity)*" |
| Base.EntityLabelShowsName | bloxlink_lib/models/base.py:45 | a named entity's label shows the name right after the bold marker |
| Conversions.V3Type | bloxlink_lib/models/binds.py:135-157 | groupIDs, assets, badges and gamePasses map one-to-one onto group, catalogAsset, badge and gamepass |
| Conversions.CriteriaId | bloxlink_lib/models/binds.py:78 | a legacy id key is accepted exactly when int() accepts it, and becomes that int; otherwise the int field's validation error |
| Conversions.DisplayName | bloxlink_lib/models/binds.py:147 | the explicit display name is accepted exactly when present; a missing one is the str field's validation error |
| Conversions.NoneIfEmpty | bloxlink_lib/models/binds.py:144 | `nickname or None`: set exactly when the nickname is non-empty, and then unchanged |
| Conversions.FromV3 | bloxlink_lib/models/binds.py:127-170 | a non-integer id fails validation; a whole-group entry converts exactly when it has a group name, an asset entry exactly when it has a display name; badges and gamePasses always fail, with NotImplementedError once validation passes; a converted bind has the section's category and the id, keeps removeRoles (see Left out, Conversions.FromV3), keeps a non-empty nickname, and is a full-group bind with no roles (whole group) or keeps the entry's roles and display name (asset) |
| Conversions.RankConditions | bloxlink_lib/models/binds.py:180-188 | "all" is everyone, "0" is guest, any other key is the roleset int() reads from it, and a key int() refuses raises ValueError; the conditions made are consistent |
| Conversions.FromV3Rank | bloxlink_lib/models/binds.py:178-199 | a rank entry converts exactly when its key and the group id are integer literals (or the key is "all"/"0"); the bind is a role bind on that group with the key's conditions and the entry's nickname (kept even when empty), roles and removeRoles |
| Conversions.FromV3Range | bloxlink_lib/models/binds.py:201-214 | a range converts exactly when low, high and the group id are present and low and high are both zero or both non-zero; a missing value fails int validation, a lone zero bound fails the range check; the bind is a role bind with min=low and max=high |
| Conversions.WholeGroupFixtures | tests/unit/fixtures/binds.py:137-185 | the fixture's groups "1" and "100" convert to the full-group binds on groups 1 and 100 the fixture expects |
| Conversions.RankKeyFixtures | test/guildbind_classmethods.py:10-37 | the legacy keys "all", "0", "150" and "-1" become everyone, guest, roleset 150 and roleset -1 |
| Evaluator.Plain | bloxlink_lib/models/binds.py:237-239 | a verdict whose add, missing and revoke sets are all empty |
| Evaluator.RoleWithId | bloxlink_lib/models/binds.py:269-270 | `guild_roles[id]`: a guild role with that id, or None exactly when no role has it |
| Evaluator.RoleNamed | bloxlink_lib/models/binds.py:278 | the first guild role with the name, or None exactly when no role has it |
| Evaluator.StaleAmongMembership | bloxlink_lib/models/binds.py:267-273 | a role is collected for one roleset exactly when the member holds it and it is stale for that roleset |
| Evaluator.StaleRolesMembership | bloxlink_lib/models/binds.py:265-273 | a full-group bind revokes exactly the held roles whose guild role is named like some roleset of the group other than the user's own |
| Evaluator.OwnRolesetNeverRevokes | bloxlink_lib/models/binds.py:271 | the user's own roleset never causes a revocation |
| Evaluator.HeldRolesMembership | bloxlink_lib/models/binds.py:246-248 | the held-role filter fails exactly when some bind role is not an integer literal, and then with ValueError; otherwise it holds exactly the held roles among the bind's roles |
| Evaluator.Abs | bloxlink_lib/models/binds.py:300 | abs(): the value or its negation, never negative |
| Evaluator.CollectHeld | bloxlink_lib/models/binds.py:246-248 | the loop computes exactly the held-role set, or the first int() failure |
| Evaluator.CollectStale | bloxlink_lib/models/binds.py:265-273 | the nested loop computes exactly the stale-role set described by StaleRolesMembership |
| Evaluator.GroupSatisfies | bloxlink_lib/models/binds.py:257-311 | the early-returning group branch computes exactly the group verdict the lemmas below characterise |
| Evaluator.SatisfiesFor | bloxlink_lib/models/binds.py:229-318 | with the ownership of the asset the bind names (see Findings, binds.py:313-316): satisfies_for computes exactly the verdict the lemmas below characterise, for every bind category and both verified and unverified members |
| Evaluator.NoUserDecisions | bloxlink_lib/models/binds.py:241-250 | without a Roblox account only unverified binds match and nothing is added; a verified bind revokes exactly the bind roles the member holds (failing when one is not an integer); other binds revoke nothing |
| Evaluator.UserDecisions | bloxlink_lib/models/binds.py:252-316 | with the ownership of the asset the bind names (see Findings, binds.py:313-316): with a Roblox account verified binds match, unverified binds do not, and asset, badge and gamepass binds answer what the ownership check answers (or its error), with empty side sets |
| Evaluator.OwnsEntityAsWritten | bloxlink_lib/models/users.py:191-210 | as written: owns_asset on the entity a bind holds always raises AttributeError, since neither a missing entity nor a group has a type_number, and that error is not the RobloxAPIError the call catches |
| Evaluator.CatalogAssetBindRaises | bloxlink_lib/models/binds.py:313-316 | every catalog-asset bind constructs with no entity, so as written a verified member's ownership check raises AttributeError; the evaluator instead answers the asset's ownership |
| Evaluator.VerifiedRoleScenario | bloxlink_lib/models/binds.py:241-255 | a member holding a verified bind's role loses it when unverified, and matches with nothing revoked when verified |
| Evaluator.OutsidersGetGuestFlag | bloxlink_lib/models/binds.py:309-311 | a user outside the group matches exactly when the bind is a guest bind, gets nothing added, and keeps only the full-group revocations |
| Evaluator.EveryoneMatchesEveryRank | bloxlink_lib/models/binds.py:285-286 | an everyone bind matches every member of the group |
| Evaluator.GuestNeverMatchesMembers | bloxlink_lib/models/binds.py:288-289 | a guest bind never matches a member of the group |
| Evaluator.RolesetRule | bloxlink_lib/models/binds.py:296-304 | a positive roleset matches exactly that rank; a negative one matches exactly the ranks at least its magnitude |
| Evaluator.RangeMatchesEveryMember | bloxlink_lib/models/binds.py:291-307 | a range bind matches every member of the group, inside the range by the range check and outside it by the final fall-through |
| Evaluator.DynamicSideSets | bloxlink_lib/models/binds.py:265-283 | only full-group binds touch the side sets; for a member, exactly one of "add the first guild role named like the member's roleset" and "report that name missing" happens; the revocations are the held roles named like another roleset |
| Evaluator.ConvertedRankBinds | bloxlink_lib/models/binds.py:183-188 | the bind converted from the legacy key "all" matches every member of the group, and the one from "0" matches exactly the users outside it |
| Groups.LastWithRank | bloxlink_lib/models/groups.py:84 | the last roleset with a given rank, or None exactly when no roleset has it |
| Groups.RankMap | bloxlink_lib/models/groups.py:84 | the rolesets keyed by rank: a rank is a key exactly when some roleset has it, and the last such roleset wins |
| Groups.FormatRoleset | bloxlink_lib/models/groups.py:124-131 | an empty name gives str(id); otherwise the name, bold on request, followed by " (<id>)" on request |
| Groups.MatchAt | bloxlink_lib/models/groups.py:15 | a match of the group-URL pattern at a position captures a non-empty digit run followed by "/" |
| Groups.SearchFrom | bloxlink_lib/models/groups.py:148 | re.search: the leftmost matching position, or None exactly when the pattern matches nowhere |
| Groups.GroupIdFromInput | bloxlink_lib/models/groups.py:147-153 | the digits captured at the leftmost match, or the whole input when nothing matches |
| Groups.GroupUrlRoundTrip | bloxlink_lib/models/groups.py:74-75 | a group's own page address followed by "/" and anything gives back the group's id |
| Groups.RobloxGroup.constructor | bloxlink_lib/models/groups.py:74-75 | a new group is unsynced, knows nothing, and its address is the groups URL followed by its id |
| Groups.RobloxGroup.Sync | bloxlink_lib/models/groups.py:77-92 | a synced group is left alone; otherwise rolesets are fetched only while unknown (a failure raises and changes nothing), then the details are fetched (a failure raises after the rolesets were stored), and success stores name, description and member count and marks the group synced |
| Groups.RobloxGroup.SyncFor | bloxlink_lib/models/groups.py:94-106 | after a successful sync the user's roleset is learned from their group entry exactly when none was known and the user is in the group; a known roleset is kept |
| Groups.RobloxGroup.SyncForAsWritten | bloxlink_lib/models/groups.py:99-106 | as written, a group without a known roleset always raises after the sync and never learns the roleset |
| Groups.RobloxGroup.Label | bloxlink_lib/models/groups.py:109-111 | str(group): ends with " (<id>)", is bold exactly when named, otherwise shows "*(Unknown Group)*" |
| Groups.RobloxGroup.RolesetNameStringAsWritten | bloxlink_lib/models/groups.py:124-131 | raises before the rolesets are known; a known roleset is formatted from its record's repr; an unknown one gives str(id) |
| Groups.RobloxGroup.RolesetNameString | bloxlink_lib/models/groups.py:113-131 | raises before the rolesets are known; a known named roleset is formatted from its name; an unknown or unnamed one gives str(id) |
| Groups.RolesetNameStringShowsRepr | bloxlink_lib/models/groups.py:124-131 | for every known roleset the as-written label is the record's repr and differs from the intended label |
| Groups.GetGroup | bloxlink_lib/models/groups.py:134-162 | the group is built from the URL's captured id (or the raw input) and synced; it succeeds exactly when both fetches do, and is then synced; a fetch failure is the error |
| LegacyGroups.LastWithRank | bot_utils/models/groups.py:40 | the last role record with a given rank, or None exactly when none has it |
| LegacyGroups.RankNames | bot_utils/models/groups.py:40 | rank to stripped name: a rank is a key exactly when some record has it, and the last such record's stripped name wins |
| LegacyGroups.LegacyRobloxGroup.constructor | bot_utils/models/groups.py:29-30 | a new group is unsynced, knows nothing, and its address is the groups URL followed by its id |
| LegacyGroups.LegacyRobloxGroup.Sync | bot_utils/models/groups.py:32-50 | a synced group is left alone; rolesets are fetched only while unknown; details are fetched only while one is missing, and only that fetch can mark the group synced |
| LegacyGroups.LegacyRobloxGroup.Label | bot_utils/models/groups.py:52-54 | str(group): ends with " (<id>)", is bold exactly when named, otherwise shows "*(Unknown Group)*" |
| LegacyGroups.LegacyRobloxGroup.RolesetNameString | bot_utils/models/groups.py:56-74 | raises before the rolesets are known; a known non-empty name is formatted; an unknown or empty one gives str(id) |
| LegacyGroups.SyncWithDetailsKnown | bot_utils/models/groups.py:42-50 | a group whose details are already known stays unsynced after a sync that fetches its rolesets |
| LegacyGroups.GetGroup | bot_utils/models/groups.py:77-105 | the group is built from the URL's captured id (or the raw input) and synced; it succeeds exactly when both fetches do; a fetch failure is the error |
| Guilds.ConvertBinds | bloxlink_lib/models/guilds.py:13 | the converter succeeds exactly when every stored bind constructs, giving them in order; otherwise the error of a stored bind that fails |
| Guilds.ImplicitBind | bloxlink_lib/models/guilds.py:46 | the bind a set verified or unverified role makes is exactly what GuildBind(criteria={"type": t}, roles=[role]) constructs |
| Guilds.ImplicitBinds | bloxlink_lib/models/guilds.py:43-49 | one bind per set role, verified before unverified, each of its own category |
| Guilds.GuildData.constructor | bloxlink_lib/models/guilds.py:12-49 | every field as given, and the binds are the converted ones followed by the implicit binds |
| Guilds.GuildData.PostInit | bloxlink_lib/models/guilds.py:43-49 | the post-init appends exactly the implicit binds of the set roles, verified first |
| Guilds.Load | bloxlink_lib/models/guilds.py:13 | a failed conversion is the load's error; otherwise a fresh guild with the converted binds followed by the implicit ones |
| Guilds.PostInitScenarios | bloxlink_lib/models/guilds.py:43-49 | with no role set the binds are the stored ones; with both set, the verified bind and then the unverified bind are appended; with only the unverified role set, only its bind is appended |
| Guilds.Defaults | bloxlink_lib/models/guilds.py:15-41 | the declared defaults: both roles enabled under the names "Verified" and "Unverified", no roles set, the "{smart-name}" template, and no legacy document |
| Migration.GroupBinds | test/guildbind_classmethods.py:123-130 | one group's legacy binds convert to one role bind per rank key, in order, followed by one per range; success exactly when every conversion succeeds |
| Migration.GroupBindsSteps | test/guildbind_classmethods.py:123-130 | the rank keys' first error wins over the ranges' error; otherwise both lists are joined |
| Migration.GroupsSectionShape | test/guildbind_classmethods.py:123-130 | a converted groups section holds one bind per rank key and range, each a role bind on a group |
| Migration.EntityKind | bloxlink_lib/models/binds.py:755 | "assets", "badges" and "gamePasses" name their legacy kind; every other section name is skipped |
| Migration.EntitySectionConversion | bloxlink_lib/models/binds.py:754-761 | an entity section converts exactly when every entry does, to one bind per entry, in order, each from_V3 of that entry with the section's category; otherwise the first failing entry's error |
| Migration.GroupSlices | bloxlink_lib/models/binds.py:762-775 | in a converted groups section, each group's rank and range binds form one block, at the offset of the rank keys and ranges of the groups before it |
| Migration.GroupsSectionConversion | bloxlink_lib/models/binds.py:762-775 | a groups section converts exactly when every group does, to one role bind per rank key and range, each group's binds as one block in order; otherwise the first failing group's error |
| Migration.SectionBinds | bloxlink_lib/models/binds.py:753-775 | the intended walk of one section: a section of another name gives nothing; an entity section and the groups section convert as the two conversion lemmas above state (contents, order, and the first failing entry's or group's error) |
| Migration.Migrated | bloxlink_lib/models/binds.py:742-775 | success exactly when the whole-group entries and every section convert; the list starts with one full-group bind per groupIDs entry, in order, and the rest is the sections' binds; a whole-group failure is the error, else the sections' error |
| Migration.MigratedInDocumentOrder | bloxlink_lib/models/binds.py:750-775 | every section's binds sit in the migrated list after the whole-group binds and the binds of the sections before it, and before those of the sections after it |
| Migration.MigratedFirstFailingSection | bloxlink_lib/models/binds.py:753-775 | once the whole-group binds convert, the first failing section decides the error, whatever follows it |
| Utils.FlatMapAllAppend | bloxlink_lib/models/binds.py:753-775 | a walk over two runs of sections: the first run's error, else the second's, else both results joined in order |
| Utils.FlatMapAllAt | bloxlink_lib/models/binds.py:753-775 | in a successful walk each element's binds sit after those of the elements before it and before those of the elements after it |
| Migration.CollectSection | bloxlink_lib/models/binds.py:754-775 | the per-section loop appends exactly that section's binds to the output, or fails with its error |
| Migration.CollectSections | bloxlink_lib/models/binds.py:753-775 | the loop over the sections appends exactly their binds in order, or fails with the first error |
| Migration.CollectMigrated | bloxlink_lib/models/binds.py:750-775 | the two conversion loops produce exactly the migrated binds |
| Migration.SectionBindsAsWritten | bloxlink_lib/models/binds.py:762-775 | as written, the groups section converts nothing |
| Migration.GroupRankBindDropped | bloxlink_lib/models/binds.py:762-768 | a groups section with one rank bind: as written nothing is collected, the intended walk collects that bind |
| Migration.SectionEntries | test/guildbind_classmethods.py:107-109 | `rolebinds.get(name, {})`: the entries of the first section with that name, or none |
| Migration.GroupsOf | test/guildbind_classmethods.py:106 | `rolebinds.get("groups", {})`: the groups of the first groups section, or none |
| Migration.AppendGroups | test/guildbind_classmethods.py:123-130 | the groups loop appends each group's rank binds and then its range binds, or fails with the first error |
| Migration.ConvertOldToNew | test/guildbind_classmethods.py:99-132 | the traversal returns exactly the whole-group, asset, badge, gamepass and group binds in that order, or the first error |
| Migration.TraversalParts | test/guildbind_classmethods.py:111-130 | the traversal succeeds exactly when each of its five parts does, and is then their concatenation in order |
| Migration.EmptyDocumentConvertsToNothing | test/guildbind_classmethods.py:103-104 | a document without legacy fields converts to the empty list |
| Migration.TraversalLength | test/guildbind_classmethods.py:111-130 | a successful traversal yields one bind per whole group, entity entry, rank key and range |
| Migration.TraversalNeedsNoBadges | test/guildbind_classmethods.py:117-121 | a document converts only when its badges and gamePasses sections are empty |
| Migration.ConvertedKinds | test/guildbind_classmethods.py:111-121 | every bind converted from a section has that section's category; whole-group ones are full-group binds |
| Repository.MergeNewAppendsOnlyNew | bloxlink_lib/models/binds.py:780 | the extend keeps the existing binds as an unchanged prefix, and each appended bind is an incoming one equal to no bind before it |
| Repository.MergeNewCovers | bloxlink_lib/models/binds.py:780 | after the extend every existing bind is still there and every incoming bind has an equal one present |
| Repository.MergeNewNothingNew | bloxlink_lib/models/binds.py:780 | when every incoming bind is already present the list is unchanged |
| Repository.MergeNewIdempotent | bloxlink_lib/models/binds.py:780 | extending a second time with the same batch adds nothing |
| Repository.MergeInto | bloxlink_lib/models/binds.py:780 | the in-place extend leaves exactly the merged list, touching no other field |
| Repository.PolyfillFor | bloxlink_lib/models/binds.py:531-544 | one guild role gives at most one bind, on its id: a verified bind exactly when verified roles are enabled and the name matches, otherwise an unverified bind exactly when those are enabled and that name matches |
| Repository.PolyfillShape | bloxlink_lib/models/binds.py:529-544 | the polyfill gives at most one bind per role, each a verified or unverified bind on a role named like that category's role, with that category enabled |
| Repository.PolyfillComplete | bloxlink_lib/models/binds.py:531-537 | every role named like the verified role gets its verified bind when verified roles are enabled |
| Repository.PolyfillInto | bloxlink_lib/models/binds.py:519-544 | the in-place loop appends exactly the polyfill's binds |
| Repository.KeepExactly | bloxlink_lib/models/binds.py:546-553 | a bind is kept exactly when it is listed and passes the category and id test |
| Repository.FilterBinds | bloxlink_lib/models/binds.py:546-553 | without a category every bind is returned (the id is ignored); with one, exactly the binds of that category, and of that id when one is asked for |
| Repository.MigrateFetchesWhatItReads | bloxlink_lib/models/binds.py:725-731 | the migration's fetch reads the stored binds and legacy fields, and the loaded binds are exactly the stored ones |
| Repository.GetBindsFetchesWhatItReads | bloxlink_lib/models/binds.py:507-516 | with both enable flags fetched, every field the polyfill reads is the stored one |
| Repository.VerifiedRoleEnabledNotFetched | bloxlink_lib/models/binds.py:507-516 | as written, the fetch always reads verifiedRoleEnabled as true, and differs from the intended fetch in that field only |
| Repository.ListingShape | bloxlink_lib/models/binds.py:519-544 | the listing keeps the loaded binds as a prefix; without guild roles, or with a verified bind present, nothing is added; every added verified bind is on a role named like the verified role, with verified roles enabled |
| Repository.DisabledVerifiedRoleStillSynthesised | bloxlink_lib/models/binds.py:519-537 | a guild that disabled its verified role and has a role named "Verified" gains a verified bind as written, and none with the flag fetched |
| Repository.Stored | bloxlink_lib/models/binds.py:782-786 | only a migration that leaves a document writes it; a failed or empty migration writes nothing |
| Repository.MigrationSkips | bloxlink_lib/models/binds.py:733-748 | a converted guild is not migrated again (without popping); a guild without legacy fields is left alone; the migration fails exactly when a converter raises |
| Repository.MigrationAppendsOnlyNew | bloxlink_lib/models/binds.py:777-786 | a migration keeps the stored binds as a prefix, appends only new binds, leaves every migrated bind present, keeps the legacy fields and marks the guild converted |
| Repository.MigrationRerunIsStable | bloxlink_lib/models/binds.py:738-786 | a migrated guild is not migrated again, and migrating its result once more with the marker cleared stores the same document |
| Repository.PopThenNothingToMigrate | bloxlink_lib/models/binds.py:733-736 | popping a converted guild drops its legacy fields and clears the marker, leaving nothing to migrate and the binds unchanged |
| Repository.Database.FetchGuildData | bloxlink_lib/database.py:87-118 | with the corrected load (see Findings, guilds.py:13): a fetch builds a fresh guild from the named fields of the stored document; every other field is at its declared default, and binds is read as the empty list, which GuildData does not declare |
| Repository.Database.FetchGuildDataAsWritten | bloxlink_lib/database.py:87-118 | as written: the fetch raises TypeError exactly when the fetched fields lack binds; otherwise it loads the guild as the corrected fetch does |
| Repository.FetchHoldsBinds | bloxlink_lib/models/guilds.py:13 | the fetch get_nickname_template makes never holds binds, so as written it always raises; the fetches of migrate_old_binds and get_binds hold binds exactly when the guild stores them, which a guild without a document does not; a migration that writes stores the binds field |
| Repository.MigrationStoresBinds | bloxlink_lib/models/binds.py:778-786 | a migration that writes binds stores the binds field, so later fetches hold it; dropping the legacy fields leaves the binds field as it was |
| Repository.Database.MigrateOldBinds | bloxlink_lib/models/binds.py:720-786 | with the corrected fetch (see Findings, guilds.py:13) and the intended groups walk (see Findings, binds.py:762-775): the database afterwards holds exactly what the migration outcome writes, and the call fails exactly with a converter's error |
| Repository.Database.GetBinds | bloxlink_lib/models/binds.py:489-553 | with the corrected fetch (see Findings, guilds.py:13) and the intended groups walk (see Findings, binds.py:762-775): the migration runs first; then the result is the filtered listing of the freshly fetched guild, and the database holds what the migration wrote |
| Priority.HighestIndexIsFirstMaximum | bloxlink_lib/models/binds.py:222-227 | max() picks no role exactly when no role is eligible; otherwise an eligible role no eligible role outranks, and the first of those at its position |
| Priority.CalculateHighestRole | bloxlink_lib/models/binds.py:218-227 | only the memo changes: a bind with roles and no memo gets the highest eligible role (or none), and any other bind is left alone |
| Priority.HighestRoleIsMaximal | bloxlink_lib/models/binds.py:221-227 | the memoised role is a guild role among the bind's roles and no eligible role is positioned above it |
| Priority.CalculateHighestRoleAsWritten | bloxlink_lib/models/binds.py:226-227 | as written, the call raises exactly when some role is eligible and otherwise leaves the bind unchanged; the memo is never set |
| Priority.HighestRoleScenario | bloxlink_lib/models/binds.py:226-227 | a bind on role 1 with a nickname and role 1 at position 5: as written the call raises, the intended call memoises that role |
| Priority.SortByPriorityCorrect | bloxlink_lib/models/binds.py:565-567 | the sort is a permutation, is ordered with the binds without a highest role first and then by position descending, and keeps the binds of each key in their original order |
| Priority.SortPotentialBinds | bloxlink_lib/models/binds.py:565-567 | the in-place sort leaves the array holding exactly the sorted candidates |
| Priority.GetNicknameTemplate | bloxlink_lib/models/binds.py:556-577 | given the guild's template, as the corrected fetch would load it (see Findings, guilds.py:13): the candidates are sorted in place; the first one's non-empty nickname, else the guild's template, is returned with that bind |
| Priority.ChosenBindRanksHighest | bloxlink_lib/models/binds.py:565-577 | the guild's template applies exactly when there are no candidates; otherwise the chosen bind is a candidate ranking at least as high as every candidate, and the earliest of its key |
| Templates.FindAll | bloxlink_lib/models/binds.py:656 | every match of `\{(.*?)\}` is free of '}' and line breaks |
| Templates.FindAllMissing | bloxlink_lib/models/binds.py:656 | a text without '{' holds no placeholder |
| Templates.SinglePlaceholder | bloxlink_lib/models/binds.py:656 | a template that is one placeholder yields exactly that placeholder |
| Templates.SmartName | bloxlink_lib/models/binds.py:626-633 | the username, or "display (@username)" when the names differ and the result fits in 32 characters |
| Templates.ReplacePlaceholders | bloxlink_lib/models/binds.py:656-712 | the placeholder loop replaces every match, in order, in the template the previous passes left |
| Templates.PlaceholderValue | bloxlink_lib/models/binds.py:657-712 | alone in a template, {allC:n} and {allL:n} become the upper- and lower-cased value of n, another modifier only loses its braces, and {n} becomes its value |
| Templates.UnknownNameLosesBraces | bloxlink_lib/models/binds.py:679-712 | an unknown placeholder without a modifier becomes its bare name |
| Templates.RobloxNameReadAsPlaceholder | bloxlink_lib/models/binds.py:664-691 | the Discord match reads the Roblox match's value, so a Roblox user named "prefix" renders {roblox-name} as "/" |
| Templates.GroupsByKey | bloxlink_lib/models/users.py:113 | the user's groups as a dict with int keys only |
| Templates.GroupRankNameAsWritten | bloxlink_lib/models/binds.py:650-651 | as written, every {group-rank-<id>} becomes "Guest" |
| Templates.GroupRankName | bloxlink_lib/models/binds.py:650-651 | the user's rank name in the group with that id, or "Guest" when the user is not in it or the id is not a number |
| Templates.ReplaceGroupRanks | bloxlink_lib/models/binds.py:649-653 | the {group-rank-<id>} loop replaces every captured id, in order, with the intended rank name |
| Templates.GroupRankLookupMisses | bloxlink_lib/models/binds.py:649-653 | a member ranked in group 7: {group-rank-7} renders "Guest" as written and the rank name as intended |
| Templates.GroupBindFor | bloxlink_lib/models/binds.py:614-620 | no group bind unless the template mentions "group-"; the bind chosen is a group bind, the highest-priority one or a candidate |
| Templates.RankNameAt | bloxlink_lib/models/binds.py:640 | `groups[id].role.name`: defined exactly when the id is a key, and one of the user's rank names; KeyError otherwise |
| Templates.GroupRankFor | bloxlink_lib/models/binds.py:635-646 | "Guest" without a {group-rank} reference or without a group bind; an error only for a group-rank template with a group bind; otherwise "Guest" or one of the user's rank names |
| Templates.GroupRankOfChosenGroupBind | bloxlink_lib/models/binds.py:637-640 | when the highest-priority bind is a group bind of a group the user is in, {group-rank} is the user's rank name in that group |
| Templates.Render | bloxlink_lib/models/binds.py:610-717 | the rendering steps with both replacement loops compute exactly the specified result, with the corrected int lookup for {group-rank-<id>} (see Findings, binds.py:649-651) |
| Templates.ParseTemplate | bloxlink_lib/models/binds.py:580-717 | with the corrected int lookup for {group-rank-<id>} (see Findings, binds.py:649-651) and the guild's template as the corrected fetch would load it (see Findings, guilds.py:13): parse_template computes exactly the specified result, and sorts the candidate list in place exactly when it chooses the template (no template given, non-zero guild id) |
| Templates.DisableNicknamingGivesNone | bloxlink_lib/models/binds.py:610-611 | "{disable-nicknaming}" yields no nickname |
| Templates.NicknameFitsLimit | bloxlink_lib/models/binds.py:714-715 | with max_length a nickname never exceeds 32 characters |
| Templates.PlainTextUnchanged | bloxlink_lib/models/binds.py:610-717 | a template with no placeholder and no group reference comes out unchanged (clipped) |
| Templates.GroupPrefixOfRank | bloxlink_lib/models/binds.py:614 | a template mentioning "group-rank" mentions "group-", so it looks up the group bind |
| Templates.CaseModifiers | bloxlink_lib/models/binds.py:701-708 | {allC:n} and {allL:n} render the upper- and lower-cased value of n |
| Users.RemoveFirst | bloxlink_lib/models/users.py:155 | list.remove: a present element loses exactly one occurrence and the rest is kept; an absent one changes nothing |
| Users.RemoveFirstAt | bloxlink_lib/models/users.py:155 | list.remove deletes exactly the first occurrence |
| Users.Prune | bloxlink_lib/models/users.py:152-158 | without cache nothing is dropped; with cache a loaded scope is removed once; the result is a sub-multiset |
| Users.CheckIncludesAsWritten | bloxlink_lib/models/users.py:142-143 | as written, a bool argument raises TypeError, None passes, and a list fails exactly when an entry is not allowed |
| Users.RequestedScopes | bloxlink_lib/models/users.py:142-158 | None asks for nothing, True for both scopes (less those loaded, with cache), False raises; a list fails on an entry that is not allowed, and otherwise asks for its entries less those loaded |
| Users.RequestedWithinValid | bloxlink_lib/models/users.py:142-158 | only "groups" and "badges" are ever asked for |
| Users.LoadedGroupsNotRequested | bloxlink_lib/models/users.py:152-155 | with cache and groups loaded, a list naming groups at most once does not ask for them |
| Users.LoadedGroupsNotRequestedForAll | bloxlink_lib/models/users.py:148-158 | with cache, sync(True) with groups loaded asks only for badges, and not even for those when they are loaded |
| Users.IncludeAllRefusedAsWritten | bloxlink_lib/models/users.py:142-150 | the documented sync(True) raises TypeError as written and is accepted as intended |
| Users.ScopeList.constructor | bloxlink_lib/models/users.py:19-20 | the module's scope list starts as ["groups", "badges"] |
| Users.ScopeList.Remove | bloxlink_lib/models/users.py:155 | remove() deletes the first occurrence from the shared list |
| Users.PruneSharedScopes | bloxlink_lib/models/users.py:148-158 | as written, the pruning mutates the shared scope list itself, which ends equal to what was requested |
| Users.SharedScopesLeak | bloxlink_lib/models/users.py:148-158 | after a first sync(True) for a user with groups loaded, a second user's sync(True) asks only for badges, where the intent is both |
| Users.Prefer | bloxlink_lib/models/users.py:169-178 | `remote or local`: the response's value when set, else the one held |
| Users.PreferIdempotent | bloxlink_lib/models/users.py:169-178 | applying the same response twice is the same as once |
| Users.PreferKeepsSet | bloxlink_lib/models/users.py:169-178 | a set local value stays set |
| Users.YearsOf | bloxlink_lib/models/users.py:222 | floor(days / 365): at least one year, and exactly the whole years in the age |
| Users.AgeString | bloxlink_lib/models/users.py:220-228 | "<n> yr(s) ago" from 365 days on, else "<n> day(s) ago"; the plural exactly when the count is 0 or above 1 |
| Users.AgeStringCount | bloxlink_lib/models/users.py:220-228 | the count an age label starts with reads back as the years or days it stands for |
| Users.MergeResponse | bloxlink_lib/models/users.py:168-178 | each of id, description, username, badges, created, avatar, profile link and groups takes the server's value when it is set (truthy) and keeps the local one otherwise; the display name is the server's, else the local one, else the merged username; the user is banned when either side says so; the age fields are kept |
| Users.AgeParsed | bloxlink_lib/models/users.py:212-228 | the age is computed only once and only from a creation date; an existing label is kept, otherwise the label of the new age is set; nothing else changes |
| Users.MergeIdempotent | bloxlink_lib/models/users.py:168-178 | merging the same response twice ends where merging it once did |
| Users.AgeParsedOnce | bloxlink_lib/models/users.py:214-215 | a second age parse changes nothing, whatever day it runs |
| Users.MergeKeepsSetFields | bloxlink_lib/models/users.py:169-178 | a username, description, id or group list the object has stays set after any merge |
| Users.RobloxUser.constructor | bloxlink_lib/models/users.py:103-125 | a new user holds only the given id and username, and is not complete |
| Users.RobloxUser.ParseAge | bloxlink_lib/models/users.py:212-228 | the state becomes the age-parsed state |
| Users.RobloxUser.Sync | bloxlink_lib/models/users.py:127-180 | with the corrected includes handling (see Findings, users.py:142 and users.py:149-158): fails exactly when the scopes are refused or the request raises; a non-OK answer changes nothing; an answer is merged and the age parsed; the object is complete once sync(True) has been called |
| Users.OwnsAsset | bloxlink_lib/models/users.py:191-210 | owned exactly when the answer is "true"; a Roblox API error counts as not owned; any other error propagates |
| Users.GetUserAccount | bloxlink_lib/models/users.py:351-387 | the guild's linked account when there is one, else the primary one; with neither, UserNotVerified exactly when errors are raised, else None |
| Users.GetUserRequest | bloxlink_lib/models/users.py:420-434 | an id with a username, or a Discord user with either, raises ValueError; otherwise the lookup goes through the linked account exactly when a user is given |
| Users.GetUserFromString | bloxlink_lib/models/users.py:490-526 | a found user has an id and a username; an all-digit target prefers the id lookup, whose not-found or API errors fall through to the username lookup; other id errors propagate |
| Users.IdLookup | bloxlink_lib/models/users.py:506-510 | skipped for a non-digit target; a not-found or API error gives no account, any other error propagates |
| Users.NameLookup | bloxlink_lib/models/users.py:513-520 | a not-found username lookup is reported with the search message; anything else passes through |
| Sets.ToInt | tests/unit/test_sets.py:128-144 | int() of an int is itself; of a sign-and-ASCII-digits string its value; of any other string None |
| Sets.ToStr | tests/unit/test_sets.py:146-153 | str() of a value never fails |
| Sets.Dedup | tests/unit/test_sets.py:119-126 | each element once, in order of first occurrence |
| Sets.KeepIn | tests/unit/test_sets.py:75-84 | the elements inside the kept set, in order |
| Sets.DropIn | tests/unit/test_sets.py:86-95 | the elements outside the dropped set, in order |
| Sets.CoerceAll | tests/unit/test_sets.py:128-144 | every value coerced in order, or None as soon as one cannot be |
| Sets.DedupOfDistinct | tests/unit/test_sets.py:119-126 | construction from distinct values keeps them in the given order |
| Sets.DistinctCardinality | tests/unit/test_sets.py:8-14 | a repeat-free list has as many elements as entries |
| Sets.CoerciveSet.Empty | tests/unit/test_sets.py:206-210 | an empty set with the given coercion |
| Sets.CoerciveSet.FromValues | tests/unit/test_sets.py:128-144 | construction raises TypeError exactly when some value cannot be coerced; otherwise the coerced values, deduplicated |
| Sets.CoerciveSet.Length | tests/unit/test_sets.py:8-14 | len() is the number of distinct elements |
| Sets.CoerciveSet.Has | tests/unit/test_sets.py:36-43 | a value is a member exactly when it coerces to an element |
| Sets.CoerciveSet.Add | tests/unit/test_sets.py:17-25 | fails exactly when the value cannot be coerced; otherwise the coerced value joins the elements, appended when new |
| Sets.CoerciveSet.Remove | tests/unit/test_sets.py:45-53 | succeeds exactly when the coerced value is present, and then removes just it; otherwise nothing changes |
| Sets.CoerciveSet.Discard | tests/unit/test_sets.py:55-63 | fails only for a value that cannot be coerced; otherwise the coerced value is absent afterwards |
| Sets.CoerciveSet.Update | tests/unit/test_sets.py:65-73 | fails exactly when some value cannot be coerced, and then changes nothing; otherwise the new coerced values are appended |
| Sets.CoerciveSet.Intersection | tests/unit/test_sets.py:75-84 | a fresh set of the common elements, in this set's order |
| Sets.CoerciveSet.Difference | tests/unit/test_sets.py:86-95 | a fresh set of this set's elements missing from the other |
| Sets.CoerciveSet.SymmetricDifference | tests/unit/test_sets.py:97-106 | a fresh set of the elements in exactly one of the two |
| Sets.CoerciveSet.Union | tests/unit/test_sets.py:108-117 | a fresh set of this set's elements followed by the other's new ones |
| Sets.SnowflakeSet | tests/unit/test_sets.py:196-204 | a coercive set of ints: fails exactly when some value is not an int or numeric string |
| SetScenarios.IntSet | tests/unit/test_sets.py:8-14 | CoerciveSet[int] over distinct ints holds them in the given order |
| SetScenarios.LengthOfFive | tests/unit/test_sets.py:8-14 | [1..5] has length 5 |
| SetScenarios.AddNew | tests/unit/test_sets.py:17-25 | adding 6 to [1..5] gives length 6 |
| SetScenarios.ContainsPresent | tests/unit/test_sets.py:36-43 | 3 is in [1..5] |
| SetScenarios.RemovePresent | tests/unit/test_sets.py:45-53 | removing 3 from [1..5] gives length 4 |
| SetScenarios.DiscardPresent | tests/unit/test_sets.py:55-63 | discarding 3 from [1..5] gives length 4 |
| SetScenarios.UpdateWithTwo | tests/unit/test_sets.py:65-73 | updating [1..5] with [6, 7] gives length 7 |
| SetScenarios.IntersectionSize | tests/unit/test_sets.py:75-84 | [1..5] and [4..8] share 2 elements |
| SetScenarios.DifferenceSize | tests/unit/test_sets.py:86-95 | [1..5] minus [4..8] has 3 elements |
| SetScenarios.SymmetricDifferenceSize | tests/unit/test_sets.py:97-106 | their symmetric difference has 6 elements |
| SetScenarios.UnionSize | tests/unit/test_sets.py:108-117 | their union has 8 elements |
| SetScenarios.Iteration | tests/unit/test_sets.py:119-126 | iteration yields 1..5 in order |
| SetScenarios.Rendering | tests/unit/test_sets.py:27-34 | str() gives "1, 2, 3, 4, 5" |
| SetScenarios.NumeralsParse | tests/unit/test_sets.py:128-135 | the strings "1".."5" coerce to 1..5 |
| SetScenarios.CoerceNumericStrings | tests/unit/test_sets.py:128-135 | CoerciveSet[int] of "1".."5" holds 1..5 |
| SetScenarios.CoerceFailures | tests/unit/test_sets.py:137-144 | letters, and numerals followed by a letter, are refused with TypeError |
| SetScenarios.StrSetsAgree | tests/unit/test_sets.py:146-153 | CoerciveSet[str] of 1..5 equals CoerciveSet[str] of "1".."5" |
| SetScenarios.SnowflakeCoerce | tests/unit/test_sets.py:196-204 | SnowflakeSet of "1".."5" holds 1..5 |
| SetScenarios.SnowflakeEmpty | tests/unit/test_sets.py:206-210 | an empty SnowflakeSet has length 0 |
| Text.ParseInt | bloxlink_lib/models/binds.py:188 | int() on ASCII text: accepts exactly an optional sign followed by ASCII digits, and a digits-only literal reads as a non-negative number |
| Text.ParseIntToString | bloxlink_lib/models/binds.py:188 | int(str(n)) == n |
| Text.Split | bloxlink_lib/models/binds.py:657-659 | split(':'): at least one part, none containing ':', and joining with ':' gives back the text |
| Text.Upper | bloxlink_lib/models/binds.py:704 | upper() on ASCII letters: same length, no lower-case letter left, other characters kept |
| Text.Lower | bloxlink_lib/models/binds.py:706 | lower() on ASCII letters: same length, no upper-case letter left, other characters kept |
| Text.Clip | bloxlink_lib/models/binds.py:715 | template[:32]: a prefix of at most 32 characters, the whole text when it fits |
| Text.Strip | bot_utils/models/groups.py:40 | strip(): a slice with no whitespace at either end and only whitespace cut |
| Utils.Find | bloxlink_lib/models/binds.py:619 | find(): the first element satisfying the predicate, or None exactly when none does |
| Utils.MapAll | bloxlink_lib/models/guilds.py:13 | a comprehension whose element function may raise: all results in order, or the first error |
| Utils.MapAllFirstFailure | bloxlink_lib/models/guilds.py:13 | the first failing element decides the error, whatever follows it |
| Utils.AppendAll | test/guildbind_classmethods.py:111-121 | an append loop extends the output by exactly the mapped values, or stops with the first error |

## Left out

- The Redis/Mongo layers and their caching: the database is one map from guild id to stored document, read by field and written by update.
- Network requests, `async`, and entity sync on the wire: each response is a parameter. The group name a template reads is a parameter too.
- `find` is imported from `bloxlink_lib/utils.py` (bloxlink_lib/models/binds.py:12), but that file defines only `async_filter`, so the import fails as written. `Utils.Find` assumes it returns the first element satisfying the predicate, or None.
- `count_binds`, `build_binds_desc` and the bind descriptions (`description_prefix`, `description_content`, `short_description`, `GuildBind.__str__`): these are display text only.
- Dates in `parse_age`: the elapsed days are a parameter, and `created` is a day number.
- The avatar fetch at the end of `sync`, and the avatar, profile-link and badge payloads beyond whether they are set.
- `roblox_user.groups` being None inside `parse_template` and `satisfies_for`: the model gives the user a group map.
- Persisting binds through `model_dump`: a stored document holds the binds themselves.
- The guild id is keyed as `str(guild_id)` in the database, and the model keys it by the int. An int id that is not an integer literal (such as "abc") is not represented.
- Legacy JSON objects are ordered lists of (key, value) pairs, and the model assumes their keys are distinct.
- `GuildData`'s settings that the bind engine does not read (age limit, auto roles, premium and the like).
- hikari types and the `RoleSerializable` converter: a role is an int id, a name and a position.
- The `print` at the end of `test/guildbind_classmethods.py`, and the `print` inside `sync_for`.
- `POP_OLD_BINDS` is a parameter of `Repository.Database.MigrateOldBinds`. `GetBinds` uses the module's value, False.
- Templates.FindAll: its contract states only that matches hold no '}' and no line break. Its agreement with `re.findall` is by definition; `FindAllMissing` and `SinglePlaceholder` exhibit it.
- Repository.MergeInto and Repository.PolyfillInto: the model does not capture aliasing between the guild object and other holders of its list.
- Priority.CalculateHighestRole: the in-place update of the bind is modelled as a new bind value.
- Priority.SortPotentialBinds: modelled on an array of bind values, so identity of the bind objects is not captured.
- The checks that construction and the URL pattern make on str ids (`RobloxGroup(id=group_id)` with a str id) are not modelled.
- The positional call `RobloxGroup(entity_id)` inside `create_entity` is treated as valid. Whether the `kw_only` class accepts it depends on the attrs version.
- `satisfies_for` calls `group.sync_for(roblox_user, sync=True)`, and `sync_for` takes no such keyword. The evaluator takes the group's state after `sync_for` as an input, as if the call were well-formed. Groups.RobloxGroup.SyncForAsWritten covers the other call mismatches.
- Text.ParseInt: Python's int() also accepts surrounding whitespace, underscores between digits and non-ASCII decimal digits. The model accepts only an optional sign followed by ASCII digits. The same narrowing holds for `\d` in Groups.MatchAt, for `str.isdigit` in Users.GetUserFromString, and for the whitespace Text.Strip removes.
- Users.RobloxUser.Sync: `includes.remove` (bloxlink_lib/models/users.py:155 and 158) also removes scopes from a list the caller passed in. The model prunes a copy, so it does not capture that change to the caller's list.
- Conversions.FromV3, Conversions.FromV3Rank and Conversions.FromV3Range: the converters pass `remove_roles=` (bloxlink_lib/models/binds.py:146, 162, 193, 205) to a field whose alias is `removeRoles` (binds.py:105). Pydantic sets an aliased field from its own name only when the model enables `populate_by_name`, and no model configuration is declared in bloxlink_lib. The model assumes that setting, so the converted binds keep the entry's removeRoles. Without it, they would keep none.
- Text.Upper and Text.Lower: Python's `upper()`/`lower()` map every Unicode cased letter, and some mappings change the length ("ß".upper() is "SS"). The model maps only the ASCII letters and keeps every other character. This narrowing reaches the `{allC:}`/`{allL:}` modifiers of Templates.PlaceholderValue and Templates.CaseModifiers, and the 32-character clip after them.
- Users.RobloxUser.Sync: the user fetches call `fetch_typed(RobloxUser, url, ...)` (bloxlink_lib/models/users.py:160-166), but bloxlink_lib/fetch.py:136 takes the URL first and the type second. As written, the class reaches URL handling and every user fetch raises before a request is sent; the same swap is at users.py:247, 270, 290, 314 and 339. The model's fetched response stands for the call with its arguments in the intended order.
- MigrateOldBinds (Repository.Database.MigrateOldBinds): uses the corrected fetch. As written, a guild without a stored binds field raises TypeError at the fetch and nothing is written (see Findings, guilds.py:13; Repository.Database.FetchGuildDataAsWritten states that fetch).
- GetBinds (Repository.Database.GetBinds): uses the corrected fetch. As written, a guild without a stored binds field raises TypeError at the migration's fetch (see Findings, guilds.py:13).
- Priority.GetNicknameTemplate and Templates.ParseTemplate: take the guild's template as a parameter. As written, the fetch of get_nickname_template names only "nicknameTemplate" and raises TypeError for every guild, before the sort. So does parse_template whenever no template is given (see Findings, guilds.py:13).
- Repository.Database.FetchGuildDataAsWritten: the TypeError's message is the one Python gives attrs' generated constructor, and its wording may differ between versions.
- Binds.CheckGroupBindDataAsWritten: the TypeError's message is pydantic_core's own and may differ between its versions.
- `tests/unit/test_bind_conversions.py` calls `from_V3` with one argument, which does not match the signature. Those tests are not modelled; the fixtures they use are (Conversions.WholeGroupFixtures).

## Findings

| source | as written | input that shows it | evidently intended | confidence | as-written member | corrected member |
|---|---|---|---|---|---|---|
| bloxlink_lib/models/binds.py:63-71 | each check raises pydantic's `ValidationError` called with one message; pydantic v2's `ValidationError` (from pydantic_core) has no constructor that takes one, so the call itself raises TypeError | `GroupBindData(min=5)`: TypeError, not the range message | refuse the conditions with an error carrying the check's message | not executed | Binds.CheckGroupBindDataAsWritten, Binds.LoneBoundRaisesTypeError | Binds.CheckGroupBindData, Binds.NewGuildBind |
| bloxlink_lib/models/binds.py:762-775 | the groups branch reads `bindings.get("binds")` on the map keyed by group id and then uses the stale `bind_data`/`group_id` of earlier loops | a roleBinds "groups" section holding group "1" with rank key "all": nothing is migrated | iterate the groups, converting each group's rank keys and ranges | not executed | Migration.SectionBindsAsWritten, Migration.GroupRankBindDropped | Migration.SectionBinds, Migration.Migrated, Repository.Database.MigrateOldBinds, Repository.Database.GetBinds |
| bloxlink_lib/models/binds.py:313-316 | a catalogAsset bind asks `roblox_user.owns_asset(self.entity)`, but `create_entity` (bloxlink_lib/models/base.py:48-84) has no case for "catalogAsset" and returns None; owns_asset then reads `asset.type_number` (users.py:204) and raises AttributeError, which its `except RobloxAPIError` does not catch | a verified member and any catalogAsset bind: AttributeError, never a match or a miss | build the asset entity for the category and answer whether the user owns it | not executed | Evaluator.OwnsEntityAsWritten, Evaluator.CatalogAssetBindRaises | Evaluator.SatisfiesFor, Evaluator.UserDecisions |
| bloxlink_lib/models/guilds.py:13 | `binds` is declared without a default, and `fetch_item` (bloxlink_lib/database.py:87-118) builds GuildData from the fetched fields that are present only, so a fetch without binds raises TypeError | `get_nickname_template(guild, [])` on any guild: it fetches only "nicknameTemplate" and raises before sorting; also `get_binds` on a guild with no stored document | read a missing binds field as the empty list | not executed | Repository.Database.FetchGuildDataAsWritten, Repository.FetchHoldsBinds | Repository.Database.FetchGuildData, Repository.Database.MigrateOldBinds, Repository.Database.GetBinds, Priority.GetNicknameTemplate, Templates.ParseTemplate |
| bloxlink_lib/models/binds.py:507-516 | "unverifiedRoleEnabled" is fetched twice and "verifiedRoleEnabled" never, so it stays at its default True | a guild with verifiedRoleEnabled false and a role named "Verified" gets a verified bind | fetch both enable flags | not executed | Repository.VerifiedRoleEnabledNotFetched, Repository.DisabledVerifiedRoleStillSynthesised | Repository.GetBindsFetchesWhatItReads, Repository.Database.GetBinds |
| bloxlink_lib/models/binds.py:226-227 | `len(list(filtered_binds))` drains the filter, so `max` receives an empty iterator and raises | a bind with roles ["1"] and a nickname, in a guild whose role 1 is at position 5: ValueError | memoise the eligible role with the highest position | not executed | Priority.CalculateHighestRoleAsWritten, Priority.HighestRoleScenario | Priority.CalculateHighestRole, Priority.HighestIndexIsFirstMaximum |
| bloxlink_lib/models/binds.py:649-651 | `roblox_user.groups.get(group_id)` uses the captured str id on a dict keyed by int | a member ranked "Admin" in group 7 with template "{group-rank-7}": renders "Guest" | look the group up by int(group_id) | not executed | Templates.GroupRankNameAsWritten, Templates.GroupRankLookupMisses | Templates.GroupRankName, Templates.ReplaceGroupRanks, Templates.Render, Templates.ParseTemplate |
| bloxlink_lib/models/users.py:142 | the includes check iterates the argument, so `includes=True` raises TypeError before line 148 can handle it | `sync(True)` | accept True as "every scope" | not executed | Users.CheckIncludesAsWritten, Users.IncludeAllRefusedAsWritten | Users.RequestedScopes, Users.RequestedWithinValid, Users.RobloxUser.Sync |
| bloxlink_lib/models/users.py:149-158 | `includes = VALID_INFO_SERVER_SCOPES` aliases the module list, and the cache pruning removes scopes from it for every later sync; this is latent, because as written line 142 raises for True before line 149 is reached | once line 142 admits True: a user with groups loaded, then a second user, each synced with `sync(True)`; the second asks only for badges | prune a copy of the list | not executed | Users.PruneSharedScopes, Users.SharedScopesLeak | Users.RequestedScopes, Users.LoadedGroupsNotRequestedForAll, Users.RobloxUser.Sync |
| bloxlink_lib/models/groups.py:99-106 | `roblox_user.sync(sync_groups=False)` passes a keyword `sync` does not accept, and the group entry has no `user_roleset` attribute | any group whose user roleset is not yet known: TypeError | sync the user, then take the entry's `role` | not executed | Groups.RobloxGroup.SyncForAsWritten | Groups.RobloxGroup.SyncFor |
| bloxlink_lib/models/groups.py:124-131 | the rolesets map holds GroupRoleset records, so the label formats the record's repr | a group whose rank 1 is a roleset named "Member": the label is "GroupRoleset(name='Member', ...)" and not "Member" | format the roleset's name | not executed | Groups.RobloxGroup.RolesetNameStringAsWritten, Groups.RolesetNameStringShowsRepr | Groups.RobloxGroup.RolesetNameString |

=== FILE: base.dfy ===
/** Roblox entities in general: the factory that picks an implementation from a bind category,
    and the head an entity renders as (bloxlink_lib/models/base.py). */
module Base {
  import opened Wrappers
  import opened Exceptions
  import opened Text

  /** An entity id as the program holds it: an int from a bind, the str a caller passed, or the
      None of a bind whose criteria carry no id. */
  datatype EntityId = IntId(n: int) | StrId(s: string) | NoId

  /** f"{id}". */
  function IdText(id: EntityId): (t: string)
    ensures id.IntId? ==> ParseInt(t) == Some(id.n)
    ensures id.StrId? ==> t == id.s
    ensures id.NoId? ==> t == "None"
  {
    match id
    case IntId(n) => ParseIntToString(n); IntToString(n)
    case StrId(s) => s
    case NoId => "None"
  }

  /** The unsynced entity create_entity hands back; only groups have an implementation. */
  datatype Entity = GroupEntity(id: EntityId)

  /** The categories whose implementation is missing: asking for them raises. */
  predicate Unimplemented(category: string) {
    category == "asset" || category == "badge" || category == "gamepass"
  }

  /** create_entity(category, entity_id). */
  function CreateEntity(category: string, id: EntityId): (r: Result<Option<Entity>, Error>)
    ensures r.Failure? <==> Unimplemented(category)
    ensures r.Failure? ==> r.error == NotImplementedError
    ensures category == "group" <==> r == Success(Some(GroupEntity(id)))
    ensures r == Success(None) <==> !Unimplemented(category) && category != "group"
  {
    if Unimplemented(category) then Failure(NotImplementedError)
    else if category == "group" then Success(Some(GroupEntity(id)))
    else Success(None)
  }

  /** "<head> (<id>)", the shape every entity label takes. */
  function Labelled(head: string, id: string): (r: string)
    ensures |r| == |head| + |id| + 3
    ensures r[..|head|] == head
    ensures r[|head|..] == " (" + id + ")"
  {
    head + " (" + id + ")"
  }

  /** A name in bold when it is set, else the given placeholder, followed by the id in parentheses. */
  function NamedOr(placeholder: string, name: Option<string>, id: EntityId): (r: string)
    requires |placeholder| >= 2 && placeholder[..2] != "**"
    ensures TruthyStr(name) ==> r == Labelled("**" + name.value + "**", IdText(id))
    ensures !TruthyStr(name) ==> r == Labelled(placeholder, IdText(id))
    ensures r[..2] == "**" <==> TruthyStr(name)
    ensures |r| > |IdText(id)| + 3 && r[|r| - |IdText(id)| - 3..] == " (" + IdText(id) + ")"
  {
    var head := if TruthyStr(name) then "**" + name.value + "**" else placeholder;
    var r := Labelled(head, IdText(id));
    assert r[..2] == head[..2];
    assert r[|r| - |IdText(id)| - 3..] == r[|head|..];
    r
  }

  /** str(RobloxEntity). */
  function EntityLabel(name: Option<string>, id: EntityId): (r: string)
    ensures |r| > |IdText(id)| + 3 && r[|r| - |IdText(id)| - 3..] == " (" + IdText(id) + ")"
    ensures r[..2] == "**" <==> TruthyStr(name)
    ensures !TruthyStr(name) ==> r == Labelled("*(Unknown Roblox Entity)*", IdText(id))
  {
    assert "*(Unknown Roblox Entity)*"[..2] == "*(";
    NamedOr("*(Unknown Roblox Entity)*", name, id)
  }

  /** A named entity's head shows the name between the bold markers. */
  lemma EntityLabelShowsName(name: string, id: EntityId)
    requires name != ""
    ensures EntityLabel(Some(name), id)[2..2 + |name|] == name
  {
    var r := EntityLabel(Some(name), id);
    assert r == Labelled("**" + name + "**", IdText(id));
    assert r[..|name| + 4] == "**" + name + "**";
    assert r[2..2 + |name|] == ("**" + name + "**")[2..2 + |name|];
  }
}

=== FILE: binds.dfy ===
/** The bind record of bloxlink_lib/models/binds.py: the group conditions and their construction
    checks, the criteria, the GuildBind record with the fields its post-init derives, and the
    criteria-only equality binds are compared by. */
module Binds {
  import opened Wrappers
  import opened Exceptions
  import opened Text
  import opened Base

  /** The bind categories VALID_BIND_TYPES admits. */
  datatype BindType = Group | CatalogAsset | Badge | Gamepass | Verified | Unverified

  /** The literal each category is stored and dispatched as. */
  function TypeName(t: BindType): (s: string)
    ensures t == Group <==> s == "group"
    ensures Unimplemented(s) <==> t == Badge || t == Gamepass
  {
    match t
    case Group => "group"
    case CatalogAsset => "catalogAsset"
    case Badge => "badge"
    case Gamepass => "gamepass"
    case Verified => "verified"
    case Unverified => "unverified"
  }

  /** A group bind either grants one role per rank name (full_group) or fixed roles (role_bind). */
  datatype Subtype = RoleBind | FullGroup

  /** GroupBindData: the conditions of a group bind. None is an unset bound; so is 0, since the
      checks and the evaluator test the values for truthiness. */
  datatype GroupBindData = GroupBindData(
    everyone: bool, guest: bool, min: Option<int>, max: Option<int>, roleset: Option<int>,
    dynamicRoles: bool)

  /** A full-group condition: dynamicRoles and nothing else. */
  const DynamicOnly: GroupBindData := GroupBindData(false, false, None, None, None, true)

  const RangeMessage: string := "Both min and max range must be set."
  const ExclusiveMessage: string := "Either a Roleset or range can be set."
  const EveryoneMessage: string := "Everyone condition cannot have any other conditions."

  /** The consistency a group condition must have, stated as three invariants: both bounds or
      neither, a roleset excludes a range, and everyone excludes every other condition. */
  predicate Consistent(g: GroupBindData) {
    && (TruthyInt(g.min) <==> TruthyInt(g.max))
    && !(TruthyInt(g.roleset) && TruthyInt(g.min))
    && (g.everyone ==> !g.guest && !TruthyInt(g.min) && !TruthyInt(g.roleset))
  }

  /** Constructing GroupBindData: the three post-init checks in their order, each raising with its
      own message. */
  function CheckGroupBindData(g: GroupBindData): (r: Result<GroupBindData, Error>)
    ensures r.Success? <==> Consistent(g)
    ensures r.Success? ==> r.value == g
    ensures TruthyInt(g.min) != TruthyInt(g.max) ==> r == Failure(ValidationError(RangeMessage))
    ensures TruthyInt(g.min) == TruthyInt(g.max) && TruthyInt(g.roleset) && TruthyInt(g.min) ==>
              r == Failure(ValidationError(ExclusiveMessage))
    ensures r.Failure? && r.error != ValidationError(RangeMessage) &&
            r.error != ValidationError(ExclusiveMessage) ==>
              g.everyone && r.error == ValidationError(EveryoneMessage)
  {
    if (TruthyInt(g.min) || TruthyInt(g.max)) && !(TruthyInt(g.min) && TruthyInt(g.max)) then
      Failure(ValidationError(RangeMessage))
    else if TruthyInt(g.roleset) && (TruthyInt(g.min) || TruthyInt(g.max)) then
      Failure(ValidationError(ExclusiveMessage))
    else if g.everyone && (g.guest || TruthyInt(g.min) || TruthyInt(g.max) || TruthyInt(g.roleset)) then
      Failure(ValidationError(EveryoneMessage))
    else
      Success(g)
  }

  /** The message of the TypeError pydantic_core raises when its ValidationError is called
      directly: that class has no constructor taking a message. */
  const NoConstructorMessage: string := "No constructor defined"

  /** The three checks as written: each calls ValidationError with one message, which cannot build
      that class, so every refusal surfaces as the TypeError of the failed call instead. */
  function CheckGroupBindDataAsWritten(g: GroupBindData): (r: Result<GroupBindData, Error>)
    ensures r.Success? <==> Consistent(g)
    ensures r.Success? ==> r.value == g
    ensures r.Failure? ==> r.error == TypeError(NoConstructorMessage)
  {
    match CheckGroupBindData(g)
    case Success(v) => Success(v)
    case Failure(_) => Failure(TypeError(NoConstructorMessage))
  }

  /** A lone minimum: refused as written with the TypeError and not with the range message the
      check intends, while both versions accept and refuse the same conditions. */
  lemma LoneBoundRaisesTypeError(lo: int)
    requires lo != 0
    ensures CheckGroupBindDataAsWritten(GroupBindData(false, false, Some(lo), None, None, false)) ==
              Failure(TypeError(NoConstructorMessage))
    ensures CheckGroupBindData(GroupBindData(false, false, Some(lo), None, None, false)) ==
              Failure(ValidationError(RangeMessage))
    ensures forall g :: CheckGroupBindDataAsWritten(g).Success? == CheckGroupBindData(g).Success?
  {
  }

  /** A bound of 0 is no bound: replacing an unset bound by 0 (or back) never changes whether
      the condition is accepted. */
  lemma ZeroBoundIsUnset(g: GroupBindData)
    ensures CheckGroupBindData(g.(min := Some(0))).Success? == CheckGroupBindData(g.(min := None)).Success?
    ensures CheckGroupBindData(g.(max := Some(0))).Success? == CheckGroupBindData(g.(max := None)).Success?
    ensures CheckGroupBindData(g.(roleset := Some(0))).Success? == CheckGroupBindData(g.(roleset := None)).Success?
  {
  }

  /** A lone non-zero bound is refused, a pair of them accepted, and everyone with guest refused. */
  lemma BoundsScenarios(lo: int, hi: int)
    requires lo != 0 && hi != 0
    ensures CheckGroupBindData(GroupBindData(false, false, Some(lo), None, None, false)) ==
              Failure(ValidationError(RangeMessage))
    ensures CheckGroupBindData(GroupBindData(false, false, None, Some(hi), None, false)) ==
              Failure(ValidationError(RangeMessage))
    ensures CheckGroupBindData(GroupBindData(false, false, Some(lo), Some(hi), None, false)).Success?
    ensures CheckGroupBindData(GroupBindData(true, true, None, None, None, false)) ==
              Failure(ValidationError(EveryoneMessage))
  {
  }

  /** BindCriteria: the category, the entity id and, for group binds, the conditions. */
  datatype BindCriteria = BindCriteria(bindType: BindType, id: Option<int>, group: Option<GroupBindData>)

  /** BindData: the display name cached when a legacy bind was converted. */
  datatype BindData = BindData(displayName: Option<string>)

  /** RoleSerializable, the fields the bind engine reads. */
  datatype Role = Role(id: int, name: string, position: int)

  /** MemberSerializable: the member being evaluated or renamed, as far as the core reads it. */
  datatype Member = Member(id: int, username: string, nickname: Option<string>, mention: string, roleIds: seq<int>)

  /** GuildBind. The persisted fields come first; entity and subtype are derived at construction
      and highestRole is memoised later. The `type` field is criteria.bindType: the post-init
      copies it and nothing writes it afterwards. */
  datatype GuildBind = GuildBind(
    nickname: Option<string>, roles: seq<string>, removeRoles: seq<string>,
    criteria: BindCriteria, data: Option<BindData>,
    entity: Option<Entity>, subtype: Option<Subtype>, highestRole: Option<Role>)
  {
    function Type(): BindType { criteria.bindType }
  }

  /** The entity id create_entity is handed for a criteria id. */
  function CriteriaEntityId(id: Option<int>): (e: EntityId)
    ensures id.Some? <==> e.IntId?
    ensures id.Some? ==> e.n == id.value
  {
    if id.Some? then IntId(id.value) else NoId
  }

  /** GuildBind(...): the group conditions are checked while the fields are validated; the post-init
      then creates the entity for the category (raising for the unimplemented ones) and, for a
      group bind, derives the subtype from dynamicRoles (raising when there are no conditions). */
  function NewGuildBind(nickname: Option<string>, roles: seq<string>, removeRoles: seq<string>,
                        criteria: BindCriteria, data: Option<BindData>): (r: Result<GuildBind, Error>)
    ensures criteria.group.Some? && !Consistent(criteria.group.value) ==>
              r == CheckGroupBindData(criteria.group.value).PropagateFailure()
    ensures (criteria.group.None? || Consistent(criteria.group.value)) ==>
              (r.Failure? <==> criteria.bindType in {Badge, Gamepass} ||
                               (criteria.bindType == Group && criteria.group.None?))
    ensures (criteria.group.None? || Consistent(criteria.group.value)) ==>
              (criteria.bindType in {Badge, Gamepass} ==> r == Failure(NotImplementedError))
    ensures r.Success? ==>
              && r.value.nickname == nickname && r.value.roles == roles
              && r.value.removeRoles == removeRoles && r.value.criteria == criteria
              && r.value.data == data && r.value.highestRole.None?
    ensures r.Success? ==>
              && (r.value.entity.Some? <==> criteria.bindType == Group)
              && (r.value.subtype.Some? <==> criteria.bindType == Group)
    ensures r.Success? && criteria.bindType == Group ==>
              && r.value.entity == Some(GroupEntity(CriteriaEntityId(criteria.id)))
              && r.value.subtype == Some(if criteria.group.value.dynamicRoles then FullGroup else RoleBind)
  {
    var _ :- if criteria.group.Some? then CheckGroupBindData(criteria.group.value) else Success(NoConditions);
    var entity :- CreateEntity(TypeName(criteria.bindType), CriteriaEntityId(criteria.id));
    if criteria.bindType == Group && criteria.group.None? then
      Failure(AttributeError("'NoneType' object has no attribute 'dynamicRoles'"))
    else
      var subtype :=
        if criteria.bindType == Group then
          Some(if criteria.group.value.dynamicRoles then FullGroup else RoleBind)
        else None;
      Success(GuildBind(nickname, roles, removeRoles, criteria, data, entity, subtype, None))
  }

  /** GroupBindData() with every field at its default. */
  const NoConditions: GroupBindData := GroupBindData(false, false, None, None, None, false)

  /** A bind of a category that needs no entity and no conditions (verified, unverified): always
      constructible, with the fields given. */
  lemma PlainBindConstructs(t: BindType, roles: seq<string>)
    requires t == Verified || t == Unverified
    ensures NewGuildBind(None, roles, [], BindCriteria(t, None, None), None) ==
              Success(GuildBind(None, roles, [], BindCriteria(t, None, None), None, None, None, None))
  {
  }

  /** GuildBind.__eq__: two binds are equal when their criteria are, whatever their roles,
      nicknames or derived fields. */
  predicate SameBind(a: GuildBind, b: GuildBind) {
    a.criteria == b.criteria
  }

  /** `b in binds` under that equality. */
  predicate ContainsBind(binds: seq<GuildBind>, b: GuildBind) {
    exists i :: 0 <= i < |binds| && SameBind(binds[i], b)
  }

  /** Binds built from the same criteria are equal even when every persisted field differs. */
  lemma SameCriteriaSameBind(n1: Option<string>, r1: seq<string>, x1: seq<string>,
                             n2: Option<string>, r2: seq<string>, x2: seq<string>,
                             criteria: BindCriteria, d1: Option<BindData>, d2: Option<BindData>)
    requires NewGuildBind(n1, r1, x1, criteria, d1).Success?
    ensures NewGuildBind(n2, r2, x2, criteria, d2).Success?
    ensures SameBind(NewGuildBind(n1, r1, x1, criteria, d1).value, NewGuildBind(n2, r2, x2, criteria, d2).value)
  {
  }
}

=== FILE: conversions.dfy ===
/** The converters from legacy (V3) bind entries to GuildBind records: GuildBind.from_V3 and
    GuildBind.from_V3_group_rolebind in bloxlink_lib/models/binds.py. A legacy entry is a JSON
    object; a missing "roles" or "removeRoles" list is the same as an empty one, since the
    converters read both with `or []`. */
module Conversions {
  import opened Wrappers
  import opened Exceptions
  import opened Text
  import opened Binds

  /** One legacy bind object: a whole-group entry has nickname, groupName and removeRoles; an
      asset/badge/gamepass or rank entry has nickname, roles, removeRoles and displayName. */
  datatype LegacyEntry = LegacyEntry(
    nickname: Option<string>, roles: seq<string>, removeRoles: seq<string>,
    displayName: Option<string>, groupName: Option<string>)

  /** One entry of a group's legacy "ranges" list. */
  datatype LegacyRange = LegacyRange(
    low: Option<int>, high: Option<int>, nickname: Option<string>, roles: seq<string>,
    removeRoles: seq<string>)

  /** A group's legacy rank bindings: "binds" maps rank keys to entries and "ranges" lists ranges
      (a missing or empty one is an empty sequence here; the traversals skip both alike). */
  datatype LegacyGroupBinds = LegacyGroupBinds(binds: seq<(string, LegacyEntry)>, ranges: seq<LegacyRange>)

  /** One section of the legacy roleBinds object, in the object's order: an asset, badge or
      gamepass section keyed by its name ("assets", "badges", "gamePasses", or any other name,
      which the traversals ignore), or the "groups" section keyed by group id. */
  datatype RoleBindSection =
    | EntitySection(name: string, entries: seq<(string, LegacyEntry)>)
    | GroupsSection(groups: seq<(string, LegacyGroupBinds)>)

  /** The legacy sections from_V3 converts. */
  datatype V3Kind = GroupIDs | Assets | Badges | GamePasses

  /** The current category of a legacy section: the plural names become singular, and assets
      become catalogAsset. */
  function V3Type(kind: V3Kind): (t: BindType)
    ensures kind == GroupIDs <==> t == Group
    ensures kind == Assets <==> t == CatalogAsset
    ensures kind == Badges <==> t == Badge
    ensures kind == GamePasses <==> t == Gamepass
  {
    match kind
    case GroupIDs => Group
    case Assets => CatalogAsset
    case Badges => Badge
    case GamePasses => Gamepass
  }

  const IntFieldMessage: string := "Input should be a valid integer"
  const StrFieldMessage: string := "Input should be a valid string"

  /** The id field of the criteria: a legacy id is a JSON key, which the int field accepts only
      when it is an integer literal. */
  function CriteriaId(id: string): (r: Result<int, Error>)
    ensures r.Success? <==> ParseInt(id).Some?
    ensures r.Success? ==> r.value == ParseInt(id).value
    ensures r.Failure? ==> r.error == ValidationError(IntFieldMessage)
  {
    match ParseInt(id)
    case Some(n) => Success(n)
    case None => Failure(ValidationError(IntFieldMessage))
  }

  /** A display name handed to BindData explicitly: a missing one is an explicit None, which the
      str field refuses. */
  function DisplayName(name: Option<string>): (r: Result<BindData, Error>)
    ensures r.Success? <==> name.Some?
    ensures r.Success? ==> r.value == BindData(name)
    ensures r.Failure? ==> r.error == ValidationError(StrFieldMessage)
  {
    if name.Some? then Success(BindData(name)) else Failure(ValidationError(StrFieldMessage))
  }

  /** `nickname or None`: an empty nickname is no nickname. */
  function NoneIfEmpty(nickname: Option<string>): (r: Option<string>)
    ensures r.Some? <==> TruthyStr(nickname)
    ensures r.Some? ==> r == nickname
  {
    if TruthyStr(nickname) then nickname else None
  }

  /** GuildBind.from_V3(kind, id, entry). */
  function FromV3(kind: V3Kind, id: string, entry: LegacyEntry): (r: Result<GuildBind, Error>)
    ensures ParseInt(id).None? ==> r == Failure(ValidationError(IntFieldMessage))
    ensures kind == GroupIDs ==>
              (r.Success? <==> ParseInt(id).Some? && entry.groupName.Some?)
    ensures kind == Assets ==>
              (r.Success? <==> ParseInt(id).Some? && entry.displayName.Some?)
    ensures kind in {Badges, GamePasses} && ParseInt(id).Some? && entry.displayName.Some? ==>
              r == Failure(NotImplementedError)
    ensures kind in {Badges, GamePasses} ==> r.Failure?
    ensures r.Success? ==>
              && r.value.criteria.bindType == V3Type(kind)
              && r.value.criteria.id == ParseInt(id)
              && r.value.removeRoles == entry.removeRoles
              && (r.value.nickname.Some? <==> TruthyStr(entry.nickname))
              && (r.value.nickname.Some? ==> r.value.nickname == entry.nickname)
    ensures r.Success? && kind == GroupIDs ==>
              && r.value.criteria.group == Some(DynamicOnly)
              && r.value.roles == []
              && r.value.data == Some(BindData(entry.groupName))
              && r.value.subtype == Some(FullGroup)
    ensures r.Success? && kind != GroupIDs ==>
              && r.value.criteria.group.None?
              && r.value.roles == entry.roles
              && r.value.data == Some(BindData(entry.displayName))
  {
    var n :- CriteriaId(id);
    if kind == GroupIDs then
      var data :- DisplayName(entry.groupName);
      NewGuildBind(NoneIfEmpty(entry.nickname), [], entry.removeRoles,
                   BindCriteria(Group, Some(n), Some(DynamicOnly)), Some(data))
    else
      var data :- DisplayName(entry.displayName);
      NewGuildBind(NoneIfEmpty(entry.nickname), entry.roles, entry.removeRoles,
                   BindCriteria(V3Type(kind), Some(n), None), Some(data))
  }

  /** The conditions a legacy rank key stands for: "all" is everyone, "0" is guest, and any other
      key is parsed as a roleset (int() raising for a non-integer key). */
  function RankConditions(rankKey: string): (r: Result<GroupBindData, Error>)
    ensures rankKey == "all" ==> r == Success(NoConditions.(everyone := true))
    ensures rankKey == "0" ==> r == Success(NoConditions.(guest := true))
    ensures rankKey != "all" && rankKey != "0" ==>
              (r.Success? <==> ParseInt(rankKey).Some?) &&
              (r.Success? ==> r.value == NoConditions.(roleset := ParseInt(rankKey)))
    ensures r.Failure? ==> r.error.ValueError?
    ensures r.Success? ==> Consistent(r.value)
  {
    if rankKey == "all" then Success(NoConditions.(everyone := true))
    else if rankKey == "0" then Success(NoConditions.(guest := true))
    else
      match ParseInt(rankKey)
      case Some(n) => Success(NoConditions.(roleset := Some(n)))
      case None => Failure(InvalidIntLiteral(rankKey))
  }

  /** GuildBind.from_V3_group_rolebind("roleset", groupId, {rankKey: entry}). The nickname is taken
      as it is: unlike from_V3 an empty one stays empty. */
  function FromV3Rank(groupId: string, rankKey: string, entry: LegacyEntry): (r: Result<GuildBind, Error>)
    ensures RankConditions(rankKey).Failure? ==> r == RankConditions(rankKey).PropagateFailure()
    ensures RankConditions(rankKey).Success? ==> (r.Success? <==> ParseInt(groupId).Some?)
    ensures r.Success? ==>
              && r.value.criteria == BindCriteria(Group, ParseInt(groupId), Some(RankConditions(rankKey).value))
              && r.value.nickname == entry.nickname
              && r.value.roles == entry.roles
              && r.value.removeRoles == entry.removeRoles
              && r.value.data.None?
              && r.value.subtype == Some(RoleBind)
  {
    var conditions :- RankConditions(rankKey);
    var n :- CriteriaId(groupId);
    NewGuildBind(entry.nickname, entry.roles, entry.removeRoles,
                 BindCriteria(Group, Some(n), Some(conditions)), None)
  }

  /** GuildBind.from_V3_group_rolebind("range", groupId, entry): low and high become min and max.
      A missing bound is an explicit None for an int field, which is refused; a bound of 0 is
      unset, so the pair must be both non-zero or both zero. */
  function FromV3Range(groupId: string, entry: LegacyRange): (r: Result<GuildBind, Error>)
    ensures entry.low.None? || entry.high.None? || ParseInt(groupId).None? ==>
              r == Failure(ValidationError(IntFieldMessage))
    ensures r.Success? <==>
              && entry.low.Some? && entry.high.Some? && ParseInt(groupId).Some?
              && (entry.low.value == 0 <==> entry.high.value == 0)
    ensures entry.low.Some? && entry.high.Some? && ParseInt(groupId).Some? &&
            (entry.low.value == 0) != (entry.high.value == 0) ==>
              r == Failure(ValidationError(RangeMessage))
    ensures r.Success? ==>
              && r.value.criteria ==
                   BindCriteria(Group, ParseInt(groupId), Some(NoConditions.(min := entry.low, max := entry.high)))
              && r.value.nickname == entry.nickname
              && r.value.roles == entry.roles
              && r.value.removeRoles == entry.removeRoles
              && r.value.subtype == Some(RoleBind)
  {
    var n :- CriteriaId(groupId);
    if entry.low.None? || entry.high.None? then Failure(ValidationError(IntFieldMessage))
    else
      NewGuildBind(entry.nickname, entry.roles, entry.removeRoles,
                   BindCriteria(Group, Some(n), Some(NoConditions.(min := entry.low, max := entry.high))), None)
  }

  /** The whole-group fixtures: group "1" and group "100" become full-group binds on groups 1 and
      100 that keep their nicknames and removeRoles. */
  lemma WholeGroupFixtures()
    ensures FromV3(GroupIDs, "1", LegacyEntry(Some("{roblox-name}-{group-rank}"), [], [], None, Some("Test Group 1")))
            == Success(GuildBind(Some("{roblox-name}-{group-rank}"), [], [], BindCriteria(Group, Some(1), Some(DynamicOnly)),
                                 Some(BindData(Some("Test Group 1"))), Some(Base.GroupEntity(Base.IntId(1))),
                                 Some(FullGroup), None))
    ensures FromV3(GroupIDs, "100", LegacyEntry(Some("{roblox-name}"), [], ["1111111111111111", "2222222222222222"],
                                                None, Some("Test Group 2")))
            == Success(GuildBind(Some("{roblox-name}"), [], ["1111111111111111", "2222222222222222"],
                                 BindCriteria(Group, Some(100), Some(DynamicOnly)),
                                 Some(BindData(Some("Test Group 2"))), Some(Base.GroupEntity(Base.IntId(100))),
                                 Some(FullGroup), None))
  {
    assert DigitsValue("1") == 1;
    assert DigitsValue("10") == 10 by { assert "10"[..1] == "1"; }
    assert DigitsValue("100") == 100 by { assert "100"[..2] == "10"; }
  }

  /** The rank keys of the legacy document: "all", "0", "150" and "-1". */
  lemma RankKeyFixtures()
    ensures RankConditions("all").value.everyone
    ensures RankConditions("0").value.guest
    ensures RankConditions("150").value.roleset == Some(150)
    ensures RankConditions("-1").value.roleset == Some(-1)
  {
    assert DigitsValue("1") == 1;
    assert DigitsValue("15") == 15 by { assert "15"[..1] == "1"; }
    assert DigitsValue("150") == 150 by { assert "150"[..2] == "15"; }
    assert "-1"[1..] == "1";
  }
}

=== FILE: evaluator.dfy ===
/** GuildBind.satisfies_for (bloxlink_lib/models/binds.py): whether a member satisfies one bind,
    and which roles to add, which rank roles the guild is missing and which roles to revoke.
    The network-backed values are inputs: the group's state after sync_for (its rolesets and the
    user's roleset), the user's group list, and the outcome of the ownership check. */
module Evaluator {
  import opened Wrappers
  import opened Exceptions
  import opened Text
  import opened Utils
  import opened Groups
  import opened Binds
  import Users
  import Base
  import Conversions

  /** The four results of satisfies_for. The sets are the SnowflakeSet/CoerciveSet values the
      source returns; only their contents are modelled. */
  datatype Verdict = Verdict(matched: bool, add: set<int>, missing: set<string>, revoke: set<int>)

  /** A verdict with every side set empty. */
  function Plain(matched: bool): (v: Verdict)
    ensures v.matched == matched && v.add == {} && v.missing == {} && v.revoke == {}
  {
    Verdict(matched, {}, {}, {})
  }

  /** What sync_for leaves on the bind's group entity: its rolesets in the order the dict holds
      them, and the roleset of the user (None when sync_for did not find one). */
  datatype GroupView = GroupView(rolesets: seq<GroupRoleset>, userRoleset: Option<GroupRoleset>)

  // ---------------------------------------------------------------- guild role lookups

  /** guild_roles[id]: the guild's roles are a dict keyed by role id, held here in its order. */
  function RoleWithId(guildRoles: seq<Role>, id: int): (r: Option<Role>)
    ensures r.Some? ==> r.value in guildRoles && r.value.id == id
    ensures r.None? <==> forall j :: 0 <= j < |guildRoles| ==> guildRoles[j].id != id
  {
    match FindIndex((g: Role) => g.id == id, guildRoles)
    case Some(i) => Some(guildRoles[i])
    case None => None
  }

  /** find(lambda r: r.name == name, guild_roles.values()): the first guild role with that name. */
  function RoleNamed(guildRoles: seq<Role>, name: string): (r: Option<Role>)
    ensures r.Some? ==> exists i :: 0 <= i < |guildRoles| && guildRoles[i] == r.value && r.value.name == name &&
                          forall j :: 0 <= j < i ==> guildRoles[j].name != name
    ensures r.None? <==> forall j :: 0 <= j < |guildRoles| ==> guildRoles[j].name != name
  {
    match FindIndex((g: Role) => g.name == name, guildRoles)
    case Some(i) => Some(guildRoles[i])
    case None => None
  }

  // ---------------------------------------------------------------- the roles to revoke

  /** A held role is stale for a roleset when the guild has a role under that id named like the
      roleset, and the roleset is not the user's own. */
  predicate Stale(guildRoles: seq<Role>, roleset: GroupRoleset, userRoleset: Option<GroupRoleset>, roleId: int) {
    var role := RoleWithId(guildRoles, roleId);
    role.Some? && role.value.name == roleset.name && Some(roleset) != userRoleset
  }

  /** The held roles (in the order held) that are stale for one roleset. */
  function StaleAmong(guildRoles: seq<Role>, roleset: GroupRoleset, userRoleset: Option<GroupRoleset>,
                      roleIds: seq<int>): set<int>
    decreases |roleIds|
  {
    if |roleIds| == 0 then {}
    else
      var last := roleIds[|roleIds| - 1];
      StaleAmong(guildRoles, roleset, userRoleset, roleIds[..|roleIds| - 1]) +
        (if Stale(guildRoles, roleset, userRoleset, last) then {last} else {})
  }

  /** The held roles that are stale for some roleset of the group. */
  function StaleRoles(guildRoles: seq<Role>, rolesets: seq<GroupRoleset>, userRoleset: Option<GroupRoleset>,
                      roleIds: seq<int>): set<int>
    decreases |rolesets|
  {
    if |rolesets| == 0 then {}
    else
      StaleRoles(guildRoles, rolesets[..|rolesets| - 1], userRoleset, roleIds) +
        StaleAmong(guildRoles, rolesets[|rolesets| - 1], userRoleset, roleIds)
  }

  lemma {:induction false} StaleAmongMembership(guildRoles: seq<Role>, roleset: GroupRoleset,
                                                userRoleset: Option<GroupRoleset>, roleIds: seq<int>, x: int)
    ensures x in StaleAmong(guildRoles, roleset, userRoleset, roleIds) <==>
              x in roleIds && Stale(guildRoles, roleset, userRoleset, x)
    decreases |roleIds|
  {
    if |roleIds| > 0 {
      var init := roleIds[..|roleIds| - 1];
      StaleAmongMembership(guildRoles, roleset, userRoleset, init, x);
      assert roleIds == init + [roleIds[|roleIds| - 1]];
    }
  }

  /** The revocations of a full-group bind: exactly the held roles that the guild names like one
      of the group's rolesets other than the user's own. */
  lemma {:induction false} StaleRolesMembership(guildRoles: seq<Role>, rolesets: seq<GroupRoleset>,
                                                userRoleset: Option<GroupRoleset>, roleIds: seq<int>, x: int)
    ensures x in StaleRoles(guildRoles, rolesets, userRoleset, roleIds) <==>
              x in roleIds && RoleWithId(guildRoles, x).Some? &&
              exists i :: 0 <= i < |rolesets| && rolesets[i].name == RoleWithId(guildRoles, x).value.name &&
                          Some(rolesets[i]) != userRoleset
    decreases |rolesets|
  {
    if |rolesets| > 0 {
      var init := rolesets[..|rolesets| - 1];
      var last := rolesets[|rolesets| - 1];
      StaleRolesMembership(guildRoles, init, userRoleset, roleIds, x);
      StaleAmongMembership(guildRoles, last, userRoleset, roleIds, x);
      if x in roleIds && RoleWithId(guildRoles, x).Some? {
        var name := RoleWithId(guildRoles, x).value.name;
        if exists i :: 0 <= i < |rolesets| && rolesets[i].name == name && Some(rolesets[i]) != userRoleset {
          var i :| 0 <= i < |rolesets| && rolesets[i].name == name && Some(rolesets[i]) != userRoleset;
          if i < |rolesets| - 1 {
            assert init[i] == rolesets[i];
          }
        }
      }
    }
  }

  /** The user's own roleset never causes a revocation. */
  lemma OwnRolesetNeverRevokes(guildRoles: seq<Role>, own: GroupRoleset, roleIds: seq<int>)
    ensures StaleRoles(guildRoles, [own], Some(own), roleIds) == {}
  {
    forall x | true
      ensures x !in StaleRoles(guildRoles, [own], Some(own), roleIds)
    {
      StaleRolesMembership(guildRoles, [own], Some(own), roleIds, x);
    }
  }

  // ---------------------------------------------------------------- the verified role, unverified

  /** The bind's roles the member holds, as the unverified path computes them: each role id is
      passed through int(), and the first that is not an integer literal raises. */
  function HeldRoles(roles: seq<string>, roleIds: seq<int>): (r: Result<set<int>, Error>)
    decreases |roles|
  {
    if |roles| == 0 then Success({})
    else
      var held :- HeldRoles(roles[..|roles| - 1], roleIds);
      var last := roles[|roles| - 1];
      match ParseInt(last)
      case None => Failure(InvalidIntLiteral(last))
      case Some(k) => Success(if k in roleIds then held + {k} else held)
  }

  /** HeldRoles fails exactly when some role id is not an integer literal, and otherwise holds the
      held ones among the bind's roles. */
  lemma {:induction false} HeldRolesMembership(roles: seq<string>, roleIds: seq<int>)
    ensures HeldRoles(roles, roleIds).Success? <==> forall i :: 0 <= i < |roles| ==> IsIntLiteral(roles[i])
    ensures HeldRoles(roles, roleIds).Failure? ==> HeldRoles(roles, roleIds).error.ValueError?
    ensures HeldRoles(roles, roleIds).Success? ==>
              forall x :: x in HeldRoles(roles, roleIds).value <==>
                            x in roleIds && exists i :: 0 <= i < |roles| && ParseInt(roles[i]) == Some(x)
    decreases |roles|
  {
    if |roles| > 0 {
      var init := roles[..|roles| - 1];
      HeldRolesMembership(init, roleIds);
      assert forall i :: 0 <= i < |init| ==> init[i] == roles[i];
      if HeldRoles(roles, roleIds).Success? {
        forall x | x in roleIds && exists i :: 0 <= i < |roles| && ParseInt(roles[i]) == Some(x)
          ensures x in HeldRoles(roles, roleIds).value
        {
          var i :| 0 <= i < |roles| && ParseInt(roles[i]) == Some(x);
          if i < |init| {
            assert ParseInt(init[i]) == Some(x);
          }
        }
      }
    }
  }

  /** A failure of a prefix is the failure of the whole list. */
  lemma {:induction false} HeldRolesPrefixFailure(roles: seq<string>, roleIds: seq<int>, n: nat)
    requires n <= |roles| && HeldRoles(roles[..n], roleIds).Failure?
    ensures HeldRoles(roles, roleIds) == HeldRoles(roles[..n], roleIds)
    decreases |roles| - n
  {
    if n < |roles| {
      assert roles[..|roles| - 1][..n] == roles[..n];
      HeldRolesPrefixFailure(roles[..|roles| - 1], roleIds, n);
    } else {
      assert roles[..n] == roles;
    }
  }

  // ---------------------------------------------------------------- group binds

  /** The roleset condition: the exact rank, or, for a negative roleset, at least its magnitude. */
  predicate RolesetMatches(roleset: int, rank: int) {
    rank == roleset || (roleset < 0 && rank >= Abs(roleset))
  }

  function Abs(n: int): (m: nat)
    ensures m == n || m == -n
  {
    if n < 0 then -n else n
  }

  const NoConditionsError: Error := AttributeError("'NoneType' object has no attribute 'dynamicRoles'")
  const NoGroupsError: Error := TypeError("argument of type 'NoneType' is not iterable")
  const NoRolesetNameError: Error := AttributeError("'NoneType' object has no attribute 'name'")
  const NoRolesetRankError: Error := AttributeError("'NoneType' object has no attribute 'rank'")

  /** The user belongs to the bind's group: its id is a key of the user's group list. */
  predicate InGroup(id: Option<int>, groups: map<int, UserGroup>) {
    id.Some? && id.value in groups
  }

  /** The rank decision for a user in the group, after the dynamic roles were handled; the rank
      is read only by the range and roleset checks. */
  function RankDecision(c: GroupBindData, userRoleset: Option<GroupRoleset>): (r: Result<bool, Error>)
  {
    if c.everyone then Success(true)
    else if c.guest then Success(false)
    else if TruthyInt(c.min) && TruthyInt(c.max) && userRoleset.None? then Failure(NoRolesetRankError)
    else if TruthyInt(c.min) && TruthyInt(c.max) && c.min.value <= userRoleset.value.rank <= c.max.value then
      Success(true)
    else if TruthyInt(c.roleset) then
      if userRoleset.None? then Failure(NoRolesetRankError)
      else Success(RolesetMatches(c.roleset.value, userRoleset.value.rank))
    else Success(true)
  }

  /** The role granted for the user's rank in a full-group bind: the guild role named like the
      roleset, or, when the guild has none, the roleset name reported missing. */
  function RankRole(guildRoles: seq<Role>, rolesetName: string): (r: (set<int>, set<string>))
  {
    match RoleNamed(guildRoles, rolesetName)
    case Some(role) => ({role.id}, {})
    case None => ({}, {rolesetName})
  }

  /** The group branch of satisfies_for for a verified user. */
  function GroupVerdict(criteria: BindCriteria, guildRoles: seq<Role>, roleIds: seq<int>,
                        groups: Option<map<int, UserGroup>>, group: GroupView): (r: Result<Verdict, Error>)
  {
    if criteria.group.None? then Failure(NoConditionsError)
    else
      var c := criteria.group.value;
      var revoke := if c.dynamicRoles then StaleRoles(guildRoles, group.rolesets, group.userRoleset, roleIds) else {};
      if groups.None? then Failure(NoGroupsError)
      else if !InGroup(criteria.id, groups.value) then Success(Verdict(c.guest, {}, {}, revoke))
      else if c.dynamicRoles && group.userRoleset.None? then Failure(NoRolesetNameError)
      else
        var sides := if c.dynamicRoles then RankRole(guildRoles, group.userRoleset.value.name) else ({}, {});
        var matched :- RankDecision(c, group.userRoleset);
        Success(Verdict(matched, sides.0, sides.1, revoke))
  }

  /** satisfies_for(guild_roles, member, roblox_user), as a function of its inputs. `owns` is the
      outcome of roblox_user.owns_asset on the asset the bind names, as the intended entity would
      give it (Users.OwnsAsset of the inventory answer); as written the bind holds no such entity
      and the call raises (OwnsEntityAsWritten). */
  function SatisfiesSpec(bind: GuildBind, guildRoles: seq<Role>, member: Member, user: Option<Users.UserState>,
                         group: GroupView, owns: Result<bool, Error>): (r: Result<Verdict, Error>)
  {
    if user.None? then
      if bind.Type() == Unverified then Success(Plain(true))
      else if bind.Type() == Verified then
        var held :- HeldRoles(bind.roles, member.roleIds);
        Success(Verdict(false, {}, {}, held))
      else Success(Plain(false))
    else
      match bind.Type()
      case Verified => Success(Plain(true))
      case Group => GroupVerdict(bind.criteria, guildRoles, member.roleIds, user.value.groups, group)
      case Badge | Gamepass | CatalogAsset =>
        var o :- owns;
        Success(Plain(o))
      case Unverified => Success(Plain(false))
  }

  /** The loop of the unverified path: the bind's roles that the member holds, each passed
      through int() in turn. */
  method CollectHeld(roles: seq<string>, roleIds: seq<int>) returns (r: Result<set<int>, Error>)
    ensures r == HeldRoles(roles, roleIds)
  {
    var ineligible: set<int> := {};
    var i := 0;
    while i < |roles|
      invariant 0 <= i <= |roles|
      invariant HeldRoles(roles[..i], roleIds) == Success(ineligible)
    {
      assert roles[..i + 1][..i] == roles[..i];
      var k := ParseInt(roles[i]);
      if k.None? {
        HeldRolesPrefixFailure(roles, roleIds, i + 1);
        return Failure(InvalidIntLiteral(roles[i]));
      }
      if k.value in roleIds {
        ineligible := ineligible + {k.value};
      }
      i := i + 1;
    }
    assert roles[..i] == roles;
    return Success(ineligible);
  }

  /** The nested loop of a full-group bind: for each roleset of the group, each role the member
      holds that is stale for it. */
  method CollectStale(guildRoles: seq<Role>, rolesets: seq<GroupRoleset>, userRoleset: Option<GroupRoleset>,
                      roleIds: seq<int>)
    returns (ineligible: set<int>)
    ensures ineligible == StaleRoles(guildRoles, rolesets, userRoleset, roleIds)
  {
    ineligible := {};
    var i := 0;
    while i < |rolesets|
      invariant 0 <= i <= |rolesets|
      invariant ineligible == StaleRoles(guildRoles, rolesets[..i], userRoleset, roleIds)
    {
      var roleset := rolesets[i];
      var j := 0;
      while j < |roleIds|
        invariant 0 <= j <= |roleIds|
        invariant ineligible == StaleRoles(guildRoles, rolesets[..i], userRoleset, roleIds) +
                                StaleAmong(guildRoles, roleset, userRoleset, roleIds[..j])
      {
        assert roleIds[..j + 1][..j] == roleIds[..j];
        var roleId := roleIds[j];
        var role := RoleWithId(guildRoles, roleId);
        if role.Some? && role.value.name == roleset.name && Some(roleset) != userRoleset {
          ineligible := ineligible + {roleId};
        }
        j := j + 1;
      }
      assert roleIds[..j] == roleIds;
      assert rolesets[..i + 1][..i] == rolesets[..i];
      i := i + 1;
    }
    assert rolesets[..i] == rolesets;
  }

  /** The group branch of satisfies_for, returning as the source does at each check. */
  method GroupSatisfies(criteria: BindCriteria, guildRoles: seq<Role>, roleIds: seq<int>,
                        groups: Option<map<int, UserGroup>>, group: GroupView)
    returns (r: Result<Verdict, Error>)
    ensures r == GroupVerdict(criteria, guildRoles, roleIds, groups, group)
  {
    if criteria.group.None? {
      return Failure(NoConditionsError);
    }
    var c := criteria.group.value;
    var ineligible: set<int> := {};
    if c.dynamicRoles {
      ineligible := CollectStale(guildRoles, group.rolesets, group.userRoleset, roleIds);
    }
    if groups.None? {
      return Failure(NoGroupsError);
    }
    if !InGroup(criteria.id, groups.value) {
      return Success(Verdict(c.guest, {}, {}, ineligible));
    }
    var additional: set<int> := {};
    var missing: set<string> := {};
    if c.dynamicRoles {
      if group.userRoleset.None? {
        return Failure(NoRolesetNameError);
      }
      var rolesetRole := RoleNamed(guildRoles, group.userRoleset.value.name);
      if rolesetRole.Some? {
        additional := additional + {rolesetRole.value.id};
      } else {
        missing := missing + {group.userRoleset.value.name};
      }
      assert additional == RankRole(guildRoles, group.userRoleset.value.name).0;
      assert missing == RankRole(guildRoles, group.userRoleset.value.name).1;
    }
    if c.everyone {
      return Success(Verdict(true, additional, missing, ineligible));
    }
    if c.guest {
      return Success(Verdict(false, additional, missing, ineligible));
    }
    if TruthyInt(c.min) && TruthyInt(c.max) {
      if group.userRoleset.None? {
        return Failure(NoRolesetRankError);
      }
      if c.min.value <= group.userRoleset.value.rank <= c.max.value {
        return Success(Verdict(true, additional, missing, ineligible));
      }
    }
    if TruthyInt(c.roleset) {
      if group.userRoleset.None? {
        return Failure(NoRolesetRankError);
      }
      var roleset := c.roleset.value;
      var rank := group.userRoleset.value.rank;
      return Success(Verdict(rank == roleset || (roleset < 0 && rank >= Abs(roleset)), additional, missing, ineligible));
    }
    return Success(Verdict(true, additional, missing, ineligible));
  }

  /** satisfies_for(guild_roles, member, roblox_user). */
  method SatisfiesFor(bind: GuildBind, guildRoles: seq<Role>, member: Member, user: Option<Users.UserState>,
                      group: GroupView, owns: Result<bool, Error>)
    returns (r: Result<Verdict, Error>)
    ensures r == SatisfiesSpec(bind, guildRoles, member, user, group, owns)
  {
    if user.None? {
      if bind.Type() == Unverified {
        return Success(Plain(true));
      }
      var ineligible: set<int> := {};
      if bind.Type() == Verified {
        var held := CollectHeld(bind.roles, member.roleIds);
        if held.Failure? {
          return Failure(held.error);
        }
        ineligible := held.value;
      }
      return Success(Verdict(false, {}, {}, ineligible));
    }
    match bind.Type()
    case Verified =>
      return Success(Plain(true));
    case Group =>
      r := GroupSatisfies(bind.criteria, guildRoles, member.roleIds, user.value.groups, group);
    case Badge | Gamepass | CatalogAsset =>
      if owns.Failure? {
        return Failure(owns.error);
      }
      return Success(Plain(owns.value));
    case Unverified =>
      return Success(Plain(false));
  }

  // ---------------------------------------------------------------- the decision table

  /** Without a Roblox user only unverified binds match; a verified bind revokes exactly the bind's
      roles the member holds (failing when one of them is not an integer), every other bind gives
      empty sets. */
  lemma NoUserDecisions(bind: GuildBind, guildRoles: seq<Role>, member: Member, group: GroupView,
                        owns: Result<bool, Error>)
    ensures var r := SatisfiesSpec(bind, guildRoles, member, None, group, owns);
      && (r.Success? ==> (r.value.matched <==> bind.Type() == Unverified) && r.value.add == {} && r.value.missing == {})
      && (bind.Type() != Verified ==> r.Success? && r.value.revoke == {})
      && (bind.Type() == Verified ==>
            (r.Success? <==> forall i :: 0 <= i < |bind.roles| ==> IsIntLiteral(bind.roles[i])))
      && (bind.Type() == Verified && r.Success? ==>
            forall x :: x in r.value.revoke <==>
                          x in member.roleIds && exists i :: 0 <= i < |bind.roles| && ParseInt(bind.roles[i]) == Some(x))
  {
    HeldRolesMembership(bind.roles, member.roleIds);
  }

  /** With a Roblox user, verified binds match, unverified binds do not, and asset-like binds
      answer what the ownership check answers; none of them touch the side sets. */
  lemma UserDecisions(bind: GuildBind, guildRoles: seq<Role>, member: Member, user: Users.UserState,
                      group: GroupView, owns: Result<bool, Error>)
    ensures var r := SatisfiesSpec(bind, guildRoles, member, Some(user), group, owns);
      && (bind.Type() == Verified ==> r == Success(Plain(true)))
      && (bind.Type() == Unverified ==> r == Success(Plain(false)))
      && (bind.Type() in {Badge, Gamepass, CatalogAsset} ==>
            (r.Success? <==> owns.Success?) && (r.Success? ==> r.value == Plain(owns.value)))
  {
  }

  const NoneTypeNumberMessage: string := "'NoneType' object has no attribute 'type_number'"
  const GroupTypeNumberMessage: string := "'RobloxGroup' object has no attribute 'type_number'"

  /** roblox_user.owns_asset(self.entity) on the entity a bind holds as written: the inventory URL
      reads asset.type_number before any request is made, and neither a missing entity nor a group
      has one; the AttributeError is not the RobloxAPIError the call catches. */
  function OwnsEntityAsWritten(entity: Option<Base.Entity>): (r: Result<bool, Error>)
    ensures r.Failure? && r.error.AttributeError?
    ensures entity.None? <==> r.error == AttributeError(NoneTypeNumberMessage)
  {
    match entity
    case None => Failure(AttributeError(NoneTypeNumberMessage))
    case Some(_) => Failure(AttributeError(GroupTypeNumberMessage))
  }

  /** A catalog-asset bind, however it is built, holds no entity, since create_entity has no case
      for its category: as written the ownership check of a verified member raises AttributeError.
      The evaluator answers the ownership of the asset the bind names instead. */
  lemma CatalogAssetBindRaises(nickname: Option<string>, roles: seq<string>, removeRoles: seq<string>,
                               id: Option<int>, data: Option<BindData>, guildRoles: seq<Role>, member: Member,
                               user: Users.UserState, group: GroupView, owns: Result<bool, Error>)
    ensures NewGuildBind(nickname, roles, removeRoles, BindCriteria(CatalogAsset, id, None), data).Success?
    ensures var bind := NewGuildBind(nickname, roles, removeRoles, BindCriteria(CatalogAsset, id, None), data).value;
            && bind.entity.None?
            && OwnsEntityAsWritten(bind.entity) == Failure(AttributeError(NoneTypeNumberMessage))
            && (owns.Success? ==> SatisfiesSpec(bind, guildRoles, member, Some(user), group, owns) == Success(Plain(owns.value)))
  {
  }

  /** The verified role both ways: a member without a Roblox account loses the verified bind's
      role they hold, a member with one keeps it and matches. */
  lemma VerifiedRoleScenario(roleId: nat, roles: seq<Role>, group: GroupView, owns: Result<bool, Error>,
                             member: Member, user: Users.UserState)
    requires roleId in member.roleIds
    ensures var bind := GuildBind(None, [NatToString(roleId)], [], BindCriteria(Verified, None, None), None, None, None, None);
      && SatisfiesSpec(bind, roles, member, None, group, owns).Success?
      && !SatisfiesSpec(bind, roles, member, None, group, owns).value.matched
      && roleId in SatisfiesSpec(bind, roles, member, None, group, owns).value.revoke
      && SatisfiesSpec(bind, roles, member, Some(user), group, owns) == Success(Plain(true))
  {
    var bind := GuildBind(None, [NatToString(roleId)], [], BindCriteria(Verified, None, None), None, None, None, None);
    ParseIntToString(roleId);
    assert IntToString(roleId) == NatToString(roleId);
    HeldRolesMembership(bind.roles, member.roleIds);
  }

  /** A user outside the group matches exactly when the bind is for guests, gets nothing added
      and keeps only the full-group revocations. */
  lemma OutsidersGetGuestFlag(criteria: BindCriteria, guildRoles: seq<Role>, roleIds: seq<int>,
                              groups: map<int, UserGroup>, group: GroupView)
    requires criteria.group.Some? && !InGroup(criteria.id, groups)
    ensures GroupVerdict(criteria, guildRoles, roleIds, Some(groups), group) ==
              Success(Verdict(criteria.group.value.guest, {}, {},
                              if criteria.group.value.dynamicRoles
                              then StaleRoles(guildRoles, group.rolesets, group.userRoleset, roleIds) else {}))
  {
  }

  /** An everyone bind matches every member of the group, whatever their rank. */
  lemma EveryoneMatchesEveryRank(criteria: BindCriteria, guildRoles: seq<Role>, roleIds: seq<int>,
                                 groups: map<int, UserGroup>, group: GroupView)
    requires criteria.group.Some? && criteria.group.value.everyone && InGroup(criteria.id, groups)
    requires criteria.group.value.dynamicRoles ==> group.userRoleset.Some?
    ensures GroupVerdict(criteria, guildRoles, roleIds, Some(groups), group).Success?
    ensures GroupVerdict(criteria, guildRoles, roleIds, Some(groups), group).value.matched
  {
  }

  /** A guest bind never matches a member of the group. */
  lemma GuestNeverMatchesMembers(criteria: BindCriteria, guildRoles: seq<Role>, roleIds: seq<int>,
                                 groups: map<int, UserGroup>, group: GroupView)
    requires criteria.group.Some? && criteria.group.value.guest && Consistent(criteria.group.value)
    requires InGroup(criteria.id, groups)
    ensures var r := GroupVerdict(criteria, guildRoles, roleIds, Some(groups), group);
      r.Success? ==> !r.value.matched
  {
  }

  /** A positive roleset matches exactly that rank; a negative one matches every rank at least its
      magnitude (so -5 matches ranks 5, 6 and 100 but not 4). */
  lemma RolesetRule(criteria: BindCriteria, guildRoles: seq<Role>, roleIds: seq<int>,
                    groups: map<int, UserGroup>, group: GroupView)
    requires criteria.group.Some? && Consistent(criteria.group.value)
    requires !criteria.group.value.everyone && !criteria.group.value.guest
    requires TruthyInt(criteria.group.value.roleset)
    requires InGroup(criteria.id, groups) && group.userRoleset.Some? && group.userRoleset.value.rank >= 0
    ensures var r := GroupVerdict(criteria, guildRoles, roleIds, Some(groups), group);
      var rs := criteria.group.value.roleset.value;
      var rank := group.userRoleset.value.rank;
      && r.Success?
      && (rs > 0 ==> (r.value.matched <==> rank == rs))
      && (rs < 0 ==> (r.value.matched <==> rank >= -rs))
  {
  }

  /** A range bind matches every member of the group: a rank inside the range matches, and a rank
      outside it falls through the remaining checks to the final `return True`. */
  lemma RangeMatchesEveryMember(criteria: BindCriteria, guildRoles: seq<Role>, roleIds: seq<int>,
                                groups: map<int, UserGroup>, group: GroupView)
    requires criteria.group.Some? && Consistent(criteria.group.value)
    requires !criteria.group.value.everyone && !criteria.group.value.guest
    requires TruthyInt(criteria.group.value.min)
    requires InGroup(criteria.id, groups) && group.userRoleset.Some?
    ensures GroupVerdict(criteria, guildRoles, roleIds, Some(groups), group) ==
              Success(Verdict(true,
                              if criteria.group.value.dynamicRoles then RankRole(guildRoles, group.userRoleset.value.name).0 else {},
                              if criteria.group.value.dynamicRoles then RankRole(guildRoles, group.userRoleset.value.name).1 else {},
                              if criteria.group.value.dynamicRoles
                              then StaleRoles(guildRoles, group.rolesets, group.userRoleset, roleIds) else {}))
  {
  }

  /** Only full-group binds touch the side sets. For a member of the group, a full-group bind adds
      the first guild role named like the member's roleset, or reports that name missing when the
      guild has no such role: exactly one of the two. Its revocations are the member's roles named
      like another roleset of the group. */
  lemma DynamicSideSets(criteria: BindCriteria, guildRoles: seq<Role>, roleIds: seq<int>,
                        groups: map<int, UserGroup>, group: GroupView)
    requires criteria.group.Some?
    ensures var r := GroupVerdict(criteria, guildRoles, roleIds, Some(groups), group);
      !criteria.group.value.dynamicRoles && r.Success? ==> r.value.add == {} && r.value.missing == {} && r.value.revoke == {}
    ensures var r := GroupVerdict(criteria, guildRoles, roleIds, Some(groups), group);
      criteria.group.value.dynamicRoles && r.Success? ==>
        forall x :: x in r.value.revoke <==>
          x in roleIds && RoleWithId(guildRoles, x).Some? &&
          exists i :: 0 <= i < |group.rolesets| && group.rolesets[i].name == RoleWithId(guildRoles, x).value.name &&
                      Some(group.rolesets[i]) != group.userRoleset
    ensures var r := GroupVerdict(criteria, guildRoles, roleIds, Some(groups), group);
      criteria.group.value.dynamicRoles && InGroup(criteria.id, groups) && group.userRoleset.Some? ==>
        var name := group.userRoleset.value.name;
        && r.Success?
        && |r.value.add| + |r.value.missing| == 1
        && (RoleNamed(guildRoles, name).Some? ==> r.value.add == {RoleNamed(guildRoles, name).value.id} && r.value.missing == {})
        && (RoleNamed(guildRoles, name).None? ==> r.value.add == {} && r.value.missing == {name})
  {
    forall x {
      StaleRolesMembership(guildRoles, group.rolesets, group.userRoleset, roleIds, x);
    }
  }

  /** The legacy rank keys keep their meaning through conversion: the bind converted from "all"
      matches every member of the group, the one converted from "0" exactly the users outside it. */
  lemma ConvertedRankBinds(groupId: string, entry: Conversions.LegacyEntry, guildRoles: seq<Role>,
                           member: Member, user: Users.UserState, group: GroupView, owns: Result<bool, Error>)
    requires ParseInt(groupId).Some? && user.groups.Some?
    ensures Conversions.FromV3Rank(groupId, "all", entry).Success?
    ensures Conversions.FromV3Rank(groupId, "0", entry).Success?
    ensures InGroup(ParseInt(groupId), user.groups.value) ==>
              SatisfiesSpec(Conversions.FromV3Rank(groupId, "all", entry).value, guildRoles, member, Some(user), group, owns)
              == Success(Plain(true))
    ensures SatisfiesSpec(Conversions.FromV3Rank(groupId, "0", entry).value, guildRoles, member, Some(user), group, owns)
            == Success(Plain(!InGroup(ParseInt(groupId), user.groups.value)))
  {
  }
}

=== FILE: exceptions.dfy ===
/** The exceptions the core raises, as one error datatype (bloxlink_lib/exceptions.py plus the
    Python built-in exceptions the core lets escape). */
module Exceptions {

  datatype Error =
    | ValidationError(message: string)   // a model's construction-time check failed
    | ValueError(message: string)
    | TypeError(message: string)
    | KeyError(message: string)
    | IndexError(message: string)
    | AttributeError(message: string)
    | NotImplementedError
    | RobloxNotFound(message: string)
    | RobloxAPIError(message: string)
    | RobloxDown
    | UserNotVerified

  /** The ValueError int() raises for text that is not an integer literal. */
  function InvalidIntLiteral(s: string): (e: Error)
    ensures e.ValueError?
  {
    ValueError("invalid literal for int() with base 10: '" + s + "'")
  }
}

=== FILE: groups.dfy ===
/** Roblox groups as bloxlink_lib/models/groups.py holds them: a RobloxGroup object that syncs
    its rolesets and details once, learns one user's roleset, and formats roleset names. */
module Groups {
  import opened Wrappers
  import opened Exceptions
  import opened Text
  import opened Base

  /** A roleset of a group: its display name, the rank owners assign and Roblox's own id. */
  datatype GroupRoleset = GroupRoleset(name: string, rank: int, id: int, memberCount: Option<int>)

  /** The details the group endpoint answers with. */
  datatype GroupInfo = GroupInfo(name: string, description: string, memberCount: int)

  /** One entry of a user's group list: the group and the user's roleset in it. */
  datatype UserGroup = UserGroup(groupId: int, role: GroupRoleset)

  const GroupUrlPrefix: string := "https://www.roblox.com/groups/"

  /** The position of the last roleset with rank k, if any. */
  function LastWithRank(roles: seq<GroupRoleset>, k: int): (r: Option<nat>)
    ensures r.Some? ==> r.value < |roles| && roles[r.value].rank == k
    ensures r.Some? ==> forall j :: r.value < j < |roles| ==> roles[j].rank != k
    ensures r.None? ==> forall j :: 0 <= j < |roles| ==> roles[j].rank != k
    decreases |roles|
  {
    if |roles| == 0 then None
    else if roles[|roles| - 1].rank == k then Some(|roles| - 1)
    else LastWithRank(roles[..|roles| - 1], k)
  }

  /** The rolesets keyed by rank; a later roleset with the same rank replaces an earlier one. */
  function RankMap(roles: seq<GroupRoleset>): (m: map<int, GroupRoleset>)
    ensures forall k :: k in m <==> LastWithRank(roles, k).Some?
    ensures forall k :: k in m ==> m[k] == roles[LastWithRank(roles, k).value]
    decreases |roles|
  {
    if |roles| == 0 then map[]
    else
      var init := roles[..|roles| - 1];
      var last := roles[|roles| - 1];
      RankMap(init)[last.rank := last]
  }

  /** "<name> (<id>)" with the name optionally in bold, or the bare id when there is no name;
      both group variants format a roleset this way. */
  function FormatRoleset(name: string, rolesetId: int, boldName: bool, includeId: bool): (r: string)
    ensures name == "" ==> r == IntToString(rolesetId)
    ensures name != "" && !includeId ==> r == (if boldName then "**" + name + "**" else name)
    ensures name != "" && includeId ==>
              r == Labelled(if boldName then "**" + name + "**" else name, IntToString(rolesetId))
  {
    if name == "" then IntToString(rolesetId)
    else
      var shown := if boldName then "**" + name + "**" else name;
      if includeId then Labelled(shown, IntToString(rolesetId)) else shown
  }

  /** attrs' repr of a GroupRoleset (string fields in single quotes, absent values as None). */
  function RolesetRepr(r: GroupRoleset): string {
    "GroupRoleset(name='" + r.name + "', rank=" + IntToString(r.rank) + ", id=" + IntToString(r.id) +
    ", memberCount=" + OptIntToString(r.memberCount) + ")"
  }

  /** The number of decimal digits starting at position i of s. */
  function DigitRun(s: string, i: nat): (k: nat)
    requires i <= |s|
    ensures i + k <= |s| && IsDigits(s[i..i + k]) == (k > 0)
    ensures i + k < |s| ==> !IsDigit(s[i + k])
    decreases |s| - i
  {
    if i == |s| || !IsDigit(s[i]) then 0
    else
      var k := DigitRun(s, i + 1);
      assert s[i..i + 1 + k] == [s[i]] + s[i + 1..i + 1 + k];
      1 + k
  }

  /** The pattern roblox.com/groups/(\d+)/ tried at position p ('.' matching any character but
      a newline); the captured digits when it matches. */
  function MatchAt(s: string, p: nat): (r: Option<string>)
    ensures r.Some? ==> IsDigits(r.value) && p + 19 + |r.value| <= |s|
    ensures r.Some? ==> s[p + 18..p + 18 + |r.value|] == r.value && s[p + 18 + |r.value|] == '/'
  {
    if p + 18 <= |s| && s[p..p + 6] == "roblox" && s[p + 6] != '\n' && s[p + 7..p + 18] == "com/groups/" then
      var k := DigitRun(s, p + 18);
      if k > 0 && p + 18 + k < |s| && s[p + 18 + k] == '/' then Some(s[p + 18..p + 18 + k]) else None
    else None
  }

  /** re.search: the leftmost position at or after p where the pattern matches. */
  function SearchFrom(s: string, p: nat): (r: Option<nat>)
    requires p <= |s|
    ensures r.Some? ==> p <= r.value <= |s| && MatchAt(s, r.value).Some?
    ensures r.Some? ==> forall q :: p <= q < r.value ==> MatchAt(s, q).None?
    ensures r.None? ==> forall q :: p <= q <= |s| ==> MatchAt(s, q).None?
    decreases |s| - p
  {
    if MatchAt(s, p).Some? then Some(p)
    else if p == |s| then None
    else SearchFrom(s, p + 1)
  }

  /** get_group's id: the digits captured from a group URL, else the whole input unchanged. */
  function GroupIdFromInput(input: string): (id: string)
    ensures SearchFrom(input, 0).None? ==> id == input
    ensures SearchFrom(input, 0).Some? ==> IsDigits(id) && Some(id) == MatchAt(input, SearchFrom(input, 0).value)
  {
    match SearchFrom(input, 0)
    case None => input
    case Some(q) => MatchAt(input, q).value
  }

  /** Text of the given length containing no "r": a place where the pattern cannot start. */
  predicate NoR(t: string) {
    forall i :: 0 <= i < |t| ==> t[i] != 'r'
  }

  lemma {:induction false} NoMatchBefore(s: string, p: nat, upto: nat)
    requires p <= upto <= |s| && NoR(s[p..upto])
    ensures forall q :: p <= q < upto ==> MatchAt(s, q).None?
  {
    forall q | p <= q < upto
      ensures MatchAt(s, q).None?
    {
      assert s[p..upto][q - p] == s[q];
      if q + 18 <= |s| {
        assert s[q..q + 6][0] == s[q];
      }
    }
  }

  /** The URL a group gets at construction, followed by "/" and anything, yields the group's id
      back when the id is a number: get_group reads the page address it publishes. */
  lemma GroupUrlRoundTrip(n: nat, rest: string)
    ensures GroupIdFromInput(GroupUrlPrefix + NatToString(n) + "/" + rest) == NatToString(n)
  {
    var digits := NatToString(n);
    var s := GroupUrlPrefix + digits + "/" + rest;
    assert |GroupUrlPrefix| == 30;
    assert s[..30] == GroupUrlPrefix;
    assert s[30..30 + |digits|] == digits;
    assert s[30 + |digits|] == '/';
    assert GroupUrlPrefix[..12] == "https://www.";
    assert s[..12] == s[..30][..12];
    assert NoR("https://www.");
    NoMatchBefore(s, 0, 12);
    assert s[12..18] == "roblox" && s[18] == '.' && s[19..30] == "com/groups/";
    var k := DigitRun(s, 30);
    DigitRunOfDigits(s, 30, |digits|);
    assert k == |digits|;
    assert MatchAt(s, 12) == Some(digits);
    assert SearchFrom(s, 12) == Some(12);
    SearchSkips(s, 0, 12);
  }

  lemma {:induction false} DigitRunOfDigits(s: string, i: nat, k: nat)
    requires i + k < |s| && IsDigits(s[i..i + k]) && !IsDigit(s[i + k])
    ensures DigitRun(s, i) == k
    decreases k
  {
    if k > 0 {
      assert s[i..i + k][0] == s[i];
      assert s[i + 1..i + k] == s[i..i + k][1..];
      DigitsTail(s[i..i + k]);
      if k > 1 {
        DigitRunOfDigits(s, i + 1, k - 1);
      } else {
        assert s[i + 1] == s[i + k];
      }
    }
  }

  lemma DigitsTail(t: string)
    requires IsDigits(t)
    ensures IsDigit(t[0]) && (|t| > 1 ==> IsDigits(t[1..]))
  {
  }

  lemma {:induction false} SearchSkips(s: string, p: nat, q: nat)
    requires p <= q <= |s|
    requires forall q' :: p <= q' < q ==> MatchAt(s, q').None?
    ensures SearchFrom(s, p) == SearchFrom(s, q)
    decreases q - p
  {
    if p < q {
      SearchSkips(s, p + 1, q);
    }
  }

  class RobloxGroup {
    const id: EntityId
    var name: Option<string>
    var description: Option<string>
    var synced: bool
    var url: Option<string>
    var memberCount: Option<int>
    /** rank -> roleset, once fetched. */
    var rolesets: Option<map<int, GroupRoleset>>
    /** The roleset of the user this group was last synced for. */
    var userRoleset: Option<GroupRoleset>

    /** RobloxGroup(id=...) followed by its post-init, which derives the page address. */
    constructor (id: EntityId)
      ensures this.id == id && name.None? && description.None? && !synced
      ensures memberCount.None? && rolesets.None? && userRoleset.None?
      ensures url == Some(GroupUrlPrefix + IdText(id))
    {
      this.id := id;
      name := None;
      description := None;
      synced := false;
      url := Some(GroupUrlPrefix + IdText(id));
      memberCount := None;
      rolesets := None;
      userRoleset := None;
    }

    /** sync(): nothing once synced; the rolesets are fetched only while unknown, then the details;
        a failing request propagates and leaves the group unsynced. */
    method Sync(fetchRoles: Result<seq<GroupRoleset>, Error>, fetchInfo: Result<GroupInfo, Error>)
      returns (err: Option<Error>)
      modifies this
      ensures old(synced) ==> err.None? && unchanged(this)
      ensures !old(synced) && old(rolesets).None? && fetchRoles.Failure? ==>
                err == Some(fetchRoles.error) && unchanged(this)
      ensures !old(synced) && (old(rolesets).Some? || fetchRoles.Success?) ==>
                rolesets == (if old(rolesets).Some? then old(rolesets) else Some(RankMap(fetchRoles.value)))
      ensures !old(synced) && (old(rolesets).Some? || fetchRoles.Success?) && fetchInfo.Failure? ==>
                err == Some(fetchInfo.error) && !synced && name == old(name) &&
                description == old(description) && memberCount == old(memberCount)
      ensures !old(synced) && (old(rolesets).Some? || fetchRoles.Success?) && fetchInfo.Success? ==>
                err.None? && synced && name == Some(fetchInfo.value.name) &&
                description == Some(fetchInfo.value.description) &&
                memberCount == Some(fetchInfo.value.memberCount)
      ensures url == old(url) && userRoleset == old(userRoleset)
    {
      if synced {
        return None;
      }
      if rolesets.None? {
        if fetchRoles.Failure? {
          return Some(fetchRoles.error);
        }
        rolesets := Some(RankMap(fetchRoles.value));
      }
      if fetchInfo.Failure? {
        return Some(fetchInfo.error);
      }
      name := Some(fetchInfo.value.name);
      description := Some(fetchInfo.value.description);
      memberCount := Some(fetchInfo.value.memberCount);
      synced := true;
      err := None;
    }

    /** sync_for(user): sync, then take the user's roleset from their group list, but only while no
        roleset is known yet. The user's group list is keyed by int, so a group whose id is a
        str never finds its entry. */
    method SyncFor(userGroups: map<int, UserGroup>, fetchRoles: Result<seq<GroupRoleset>, Error>,
                   fetchInfo: Result<GroupInfo, Error>)
      returns (err: Option<Error>)
      modifies this
      ensures old(userRoleset).Some? ==> userRoleset == old(userRoleset)
      ensures err.None? && old(userRoleset).None? && id.IntId? && id.n in userGroups ==>
                userRoleset == Some(userGroups[id.n].role)
      ensures err.None? && old(userRoleset).None? && !(id.IntId? && id.n in userGroups) ==>
                userRoleset.None?
      ensures err.Some? ==> userRoleset == old(userRoleset)
      ensures url == old(url)
    {
      err := Sync(fetchRoles, fetchInfo);
      if err.Some? {
        return;
      }
      if userRoleset.None? && id.IntId? && id.n in userGroups {
        userRoleset := Some(userGroups[id.n].role);
      }
    }

    /** sync_for(user) as written: after the sync, a group with no known roleset calls the user's
        sync with a keyword it does not accept (sync_groups), which raises TypeError, and the
        entry it then reads has no user_roleset attribute; the roleset is never learned. */
    method SyncForAsWritten(userGroups: map<int, UserGroup>, fetchRoles: Result<seq<GroupRoleset>, Error>,
                            fetchInfo: Result<GroupInfo, Error>)
      returns (err: Option<Error>)
      modifies this
      ensures userRoleset == old(userRoleset)
      ensures old(userRoleset).None? ==> err.Some?
    {
      err := Sync(fetchRoles, fetchInfo);
      if err.Some? {
        return;
      }
      if userRoleset.None? {
        err := Some(TypeError("sync() got an unexpected keyword argument 'sync_groups'"));
      }
    }

    /** str(group). */
    function Label(): (r: string)
      reads this
      ensures |r| > |IdText(id)| + 3 && r[|r| - |IdText(id)| - 3..] == " (" + IdText(id) + ")"
      ensures r[..2] == "**" <==> TruthyStr(name)
      ensures !TruthyStr(name) ==> r == Labelled("*(Unknown Group)*", IdText(id))
    {
      assert "*(Unknown Group)*"[..2] == "*(";
      NamedOr("*(Unknown Group)*", name, id)
    }

    /** roleset_name_string as written: the rolesets map holds GroupRoleset records, so a known
        roleset is rendered by its record's repr; before the first sync the map is None and the
        lookup raises. */
    function RolesetNameStringAsWritten(rolesetId: int, boldName: bool, includeId: bool): (r: Result<string, Error>)
      reads this
      ensures rolesets.None? <==> r.Failure?
      ensures rolesets.Some? && rolesetId in rolesets.value ==>
                r == Success(FormatRoleset(RolesetRepr(rolesets.value[rolesetId]), rolesetId, boldName, includeId))
      ensures rolesets.Some? && rolesetId !in rolesets.value ==> r == Success(IntToString(rolesetId))
    {
      if rolesets.None? then Failure(AttributeError("'NoneType' object has no attribute 'get'"))
      else if rolesetId in rolesets.value then
        Success(FormatRoleset(RolesetRepr(rolesets.value[rolesetId]), rolesetId, boldName, includeId))
      else Success(IntToString(rolesetId))
    }

    /** roleset_name_string as the docstring and the older variant intend: the roleset's name,
        with str(id) as the fallback when it is unknown or unnamed. */
    function RolesetNameString(rolesetId: int, boldName: bool, includeId: bool): (r: Result<string, Error>)
      reads this
      ensures rolesets.None? <==> r.Failure?
      ensures rolesets.Some? && (rolesetId !in rolesets.value || rolesets.value[rolesetId].name == "") ==>
                r == Success(IntToString(rolesetId))
      ensures rolesets.Some? && rolesetId in rolesets.value && rolesets.value[rolesetId].name != "" ==>
                r == Success(FormatRoleset(rolesets.value[rolesetId].name, rolesetId, boldName, includeId))
    {
      if rolesets.None? then Failure(AttributeError("'NoneType' object has no attribute 'get'"))
      else if rolesetId in rolesets.value then
        Success(FormatRoleset(rolesets.value[rolesetId].name, rolesetId, boldName, includeId))
      else Success(IntToString(rolesetId))
    }
  }

  /** Whatever a roleset is called, the as-written label never shows its name alone: it always
      starts with the record's repr. */
  lemma RolesetNameStringShowsRepr(g: RobloxGroup, rolesetId: int)
    requires g.rolesets.Some? && rolesetId in g.rolesets.value
    ensures g.RolesetNameStringAsWritten(rolesetId, false, false) == Success(RolesetRepr(g.rolesets.value[rolesetId]))
    ensures g.RolesetNameString(rolesetId, false, false) != g.RolesetNameStringAsWritten(rolesetId, false, false)
  {
    ReprIsNeither(g.rolesets.value[rolesetId], rolesetId);
  }

  /** A roleset's repr is neither its name nor any roleset id's text: it is longer than the name and
      starts with a letter. */
  lemma ReprIsNeither(r: GroupRoleset, rolesetId: int)
    ensures RolesetRepr(r) != r.name && RolesetRepr(r) != IntToString(rolesetId)
  {
    var repr := RolesetRepr(r);
    assert repr[0] == 'G';
    assert |repr| > |r.name|;
    var text := IntToString(rolesetId);
    if rolesetId >= 0 {
      assert text[0] in text;
    }
  }

  /** get_group(id_or_url): a group built from the URL's digits or the raw input, then synced;
      a RobloxAPIError from the sync becomes RobloxNotFound, other errors propagate. */
  method GetGroup(input: EntityId, fetchRoles: Result<seq<GroupRoleset>, Error>, fetchInfo: Result<GroupInfo, Error>)
    returns (r: Result<RobloxGroup, Error>)
    ensures r.Success? ==> fresh(r.value) && r.value.id == StrId(GroupIdFromInput(IdText(input))) && r.value.synced
    ensures r.Success? <==> fetchRoles.Success? && fetchInfo.Success?
    ensures r.Failure? && fetchRoles.Failure? ==>
              r.error == (if fetchRoles.error.RobloxAPIError? then RobloxNotFound("This group does not exist.") else fetchRoles.error)
    ensures r.Failure? && fetchRoles.Success? ==>
              r.error == (if fetchInfo.error.RobloxAPIError? then RobloxNotFound("This group does not exist.") else fetchInfo.error)
  {
    var group := new RobloxGroup(StrId(GroupIdFromInput(IdText(input))));
    var err := group.Sync(fetchRoles, fetchInfo);
    if err.None? {
      r := Success(group);
    } else if err.value.RobloxAPIError? {
      r := Failure(RobloxNotFound("This group does not exist."));
    } else {
      r := Failure(err.value);
    }
  }
}

=== FILE: guilds.dfy ===
/** GuildData (bloxlink_lib/models/guilds.py): a guild's stored settings, with the binds converter
    and the post-init that turns the legacy single-role settings into binds. The settings that the
    bind engine does not read (age limit, auto roles, premium, and the like) are not modelled. */
module Guilds {
  import opened Wrappers
  import opened Exceptions
  import opened Text
  import opened Binds
  import opened Conversions
  import opened Utils

  /** A bind as the database stores it: the keyword arguments of GuildBind(**b). */
  datatype StoredBind = StoredBind(
    nickname: Option<string>, roles: seq<string>, removeRoles: seq<string>,
    criteria: BindCriteria, data: Option<BindData>)

  function FromStored(b: StoredBind): (r: Result<GuildBind, Error>) {
    NewGuildBind(b.nickname, b.roles, b.removeRoles, b.criteria, b.data)
  }

  /** The binds converter: one GuildBind per stored bind, in order; the first stored bind that
      cannot be constructed makes the whole conversion raise with its error. */
  function ConvertBinds(stored: seq<StoredBind>): (r: Result<seq<GuildBind>, Error>)
    ensures r.Success? <==> forall i :: 0 <= i < |stored| ==> FromStored(stored[i]).Success?
    ensures r.Success? ==> |r.value| == |stored| &&
                           forall i :: 0 <= i < |stored| ==> r.value[i] == FromStored(stored[i]).value
    ensures r.Failure? ==> exists i :: 0 <= i < |stored| && FromStored(stored[i]) == Failure(r.error)
  {
    MapAll(FromStored, stored)
  }

  /** GuildBind(criteria={"type": t}, roles=[roleId]): the bind the post-init and get_binds make
      for a verified or unverified role. */
  function ImplicitBind(t: BindType, roleId: string): (b: GuildBind)
    requires t == Verified || t == Unverified
    ensures Success(b) == NewGuildBind(None, [roleId], [], BindCriteria(t, None, None), None)
    ensures b.Type() == t && b.roles == [roleId]
  {
    PlainBindConstructs(t, [roleId]);
    GuildBind(None, [roleId], [], BindCriteria(t, None, None), None, None, None, None)
  }

  /** The binds a set verified or unverified role contributes, verified first. */
  function ImplicitBinds(verifiedRole: Option<string>, unverifiedRole: Option<string>): (bs: seq<GuildBind>)
    ensures |bs| == (if TruthyStr(verifiedRole) then 1 else 0) + (if TruthyStr(unverifiedRole) then 1 else 0)
    ensures TruthyStr(verifiedRole) ==> bs[0] == ImplicitBind(Verified, verifiedRole.value)
    ensures TruthyStr(unverifiedRole) ==> bs[|bs| - 1] == ImplicitBind(Unverified, unverifiedRole.value)
    ensures forall i :: 0 <= i < |bs| ==> bs[i].Type() in {Verified, Unverified}
  {
    (if TruthyStr(verifiedRole) then [ImplicitBind(Verified, verifiedRole.value)] else []) +
    (if TruthyStr(unverifiedRole) then [ImplicitBind(Unverified, unverifiedRole.value)] else [])
  }

  class GuildData {
    const id: int
    var binds: seq<GuildBind>
    var verifiedRoleEnabled: bool
    var verifiedRoleName: Option<string>
    var verifiedRole: Option<string>
    var unverifiedRoleEnabled: bool
    var unverifiedRoleName: Option<string>
    var unverifiedRole: Option<string>
    var nicknameTemplate: string
    /** The legacy fields: None until a legacy document is stored, and again once dropped. */
    var roleBinds: Option<seq<RoleBindSection>>
    var groupIDs: Option<seq<(string, LegacyEntry)>>
    var convertedBinds: bool

    /** GuildData(id, binds, ...) with the declared defaults, once the converter has run, followed
        by the post-init: a set verified role, then a set unverified role, each appends its bind
        after the stored ones. */
    constructor (id: int, binds: seq<GuildBind>,
                 verifiedRoleEnabled: bool := true, verifiedRoleName: Option<string> := Some("Verified"),
                 verifiedRole: Option<string> := None,
                 unverifiedRoleEnabled: bool := true, unverifiedRoleName: Option<string> := Some("Unverified"),
                 unverifiedRole: Option<string> := None,
                 nicknameTemplate: string := "{smart-name}",
                 roleBinds: Option<seq<RoleBindSection>> := None, groupIDs: Option<seq<(string, LegacyEntry)>> := None,
                 convertedBinds: bool := false)
      ensures this.binds == binds + ImplicitBinds(verifiedRole, unverifiedRole)
      ensures this.id == id && this.verifiedRoleEnabled == verifiedRoleEnabled
      ensures this.verifiedRoleName == verifiedRoleName && this.verifiedRole == verifiedRole
      ensures this.unverifiedRoleEnabled == unverifiedRoleEnabled
      ensures this.unverifiedRoleName == unverifiedRoleName && this.unverifiedRole == unverifiedRole
      ensures this.nicknameTemplate == nicknameTemplate
      ensures this.roleBinds == roleBinds && this.groupIDs == groupIDs && this.convertedBinds == convertedBinds
    {
      this.id := id;
      this.binds := binds;
      this.verifiedRoleEnabled := verifiedRoleEnabled;
      this.verifiedRoleName := verifiedRoleName;
      this.verifiedRole := verifiedRole;
      this.unverifiedRoleEnabled := unverifiedRoleEnabled;
      this.unverifiedRoleName := unverifiedRoleName;
      this.unverifiedRole := unverifiedRole;
      this.nicknameTemplate := nicknameTemplate;
      this.roleBinds := roleBinds;
      this.groupIDs := groupIDs;
      this.convertedBinds := convertedBinds;
      new;
      PostInit();
    }

    /** The post-init: a set verified role, then a set unverified role, each appends its bind. */
    method PostInit()
      modifies this`binds
      ensures binds == old(binds) + ImplicitBinds(verifiedRole, unverifiedRole)
    {
      if TruthyStr(verifiedRole) {
        binds := binds + [ImplicitBind(Verified, verifiedRole.value)];
      }
      if TruthyStr(unverifiedRole) {
        binds := binds + [ImplicitBind(Unverified, unverifiedRole.value)];
      }
    }
  }

  /** Loading a guild's record: the binds converter, then the constructor. */
  method Load(id: int, stored: seq<StoredBind>, verifiedRole: Option<string>, unverifiedRole: Option<string>)
    returns (r: Result<GuildData, Error>)
    ensures ConvertBinds(stored).Failure? ==> r == Failure(ConvertBinds(stored).error)
    ensures ConvertBinds(stored).Success? ==>
              r.Success? && fresh(r.value) &&
              r.value.binds == ConvertBinds(stored).value + ImplicitBinds(verifiedRole, unverifiedRole)
  {
    var converted := ConvertBinds(stored);
    if converted.Failure? {
      return Failure(converted.error);
    }
    var g := new GuildData(id, converted.value, verifiedRole := verifiedRole, unverifiedRole := unverifiedRole);
    return Success(g);
  }

  /** The post-init keeps the stored binds as an unchanged prefix and appends at most the two
      implicit binds, verified before unverified; with neither role set the binds are exactly the
      stored ones. */
  method PostInitScenarios(stored: seq<GuildBind>, v: string, u: string)
    returns (neither: seq<GuildBind>, both: seq<GuildBind>, onlyUnverified: seq<GuildBind>)
    requires v != "" && u != ""
    ensures neither == stored
    ensures both == stored + [ImplicitBind(Verified, v), ImplicitBind(Unverified, u)]
    ensures onlyUnverified == stored + [ImplicitBind(Unverified, u)]
  {
    var g1 := new GuildData(1, stored);
    var g2 := new GuildData(1, stored, verifiedRole := Some(v), unverifiedRole := Some(u));
    var g3 := new GuildData(1, stored, unverifiedRole := Some(u));
    neither, both, onlyUnverified := g1.binds, g2.binds, g3.binds;
  }

  /** The declared defaults: both roles enabled under their default names, no roles, the smart
      name template, and no legacy document converted yet. */
  method Defaults(id: int, binds: seq<GuildBind>) returns (g: GuildData)
    ensures g.id == id && g.binds == binds
    ensures g.verifiedRoleEnabled && g.unverifiedRoleEnabled
    ensures g.verifiedRoleName == Some("Verified") && g.unverifiedRoleName == Some("Unverified")
    ensures g.verifiedRole.None? && g.unverifiedRole.None?
    ensures g.nicknameTemplate == "{smart-name}"
    ensures g.roleBinds.None? && g.groupIDs.None? && !g.convertedBinds
  {
    g := new GuildData(id, binds);
  }
}

=== FILE: legacy_groups.dfy ===
/** The older RobloxGroup of bot_utils/models/groups.py: rolesets are plain names (stripped), the
    details are fetched only while one of them is unknown, and the group counts as synced only
    once it has both. */
module LegacyGroups {
  import opened Wrappers
  import opened Exceptions
  import opened Text
  import opened Base
  import Groups

  /** One entry of the roles endpoint's "roles" list. */
  datatype RoleRecord = RoleRecord(name: string, rank: int)

  /** The group endpoint's body, read with .get: a missing key gives None. */
  datatype InfoRecord = InfoRecord(name: Option<string>, description: Option<string>, memberCount: Option<int>)

  /** The position of the last record with rank k, if any. */
  function LastWithRank(roles: seq<RoleRecord>, k: int): (r: Option<nat>)
    ensures r.Some? ==> r.value < |roles| && roles[r.value].rank == k
    ensures r.Some? ==> forall j :: r.value < j < |roles| ==> roles[j].rank != k
    ensures r.None? ==> forall j :: 0 <= j < |roles| ==> roles[j].rank != k
    decreases |roles|
  {
    if |roles| == 0 then None
    else if roles[|roles| - 1].rank == k then Some(|roles| - 1)
    else LastWithRank(roles[..|roles| - 1], k)
  }

  /** rank -> stripped name; the last record with a rank decides its name. */
  function RankNames(roles: seq<RoleRecord>): (m: map<int, string>)
    ensures forall k :: k in m <==> LastWithRank(roles, k).Some?
    ensures forall k :: k in m ==> m[k] == Strip(roles[LastWithRank(roles, k).value].name)
    decreases |roles|
  {
    if |roles| == 0 then map[]
    else
      var last := roles[|roles| - 1];
      RankNames(roles[..|roles| - 1])[last.rank := Strip(last.name)]
  }

  class LegacyRobloxGroup {
    const id: EntityId
    var name: Option<string>
    var description: Option<string>
    var synced: bool
    var url: Option<string>
    var memberCount: Option<int>
    var rolesets: Option<map<int, string>>

    constructor (id: EntityId)
      ensures this.id == id && name.None? && description.None? && !synced
      ensures memberCount.None? && rolesets.None?
      ensures url == Some(Groups.GroupUrlPrefix + IdText(id))
    {
      this.id := id;
      name := None;
      description := None;
      synced := false;
      url := Some(Groups.GroupUrlPrefix + IdText(id));
      memberCount := None;
      rolesets := None;
    }

    /** Whether sync() still has details to ask for. */
    predicate DetailsMissing()
      reads this
    {
      name.None? || description.None? || memberCount.None?
    }

    /** sync(): nothing once synced; rolesets fetched while unknown; details fetched while one of
        them is unknown, and only then, with rolesets known, does the group become synced. */
    method Sync(fetchRoles: Result<seq<RoleRecord>, Error>, fetchInfo: Result<InfoRecord, Error>)
      returns (err: Option<Error>)
      modifies this
      ensures old(synced) ==> err.None? && unchanged(this)
      ensures !old(synced) && old(rolesets).None? && fetchRoles.Failure? ==>
                err == Some(fetchRoles.error) && unchanged(this)
      ensures !old(synced) && (old(rolesets).Some? || fetchRoles.Success?) ==>
                rolesets == (if old(rolesets).Some? then old(rolesets) else Some(RankNames(fetchRoles.value)))
      ensures !old(synced) && (old(rolesets).Some? || fetchRoles.Success?) && !old(DetailsMissing()) ==>
                err.None? && !synced && name == old(name) && description == old(description) &&
                memberCount == old(memberCount)
      ensures !old(synced) && (old(rolesets).Some? || fetchRoles.Success?) && old(DetailsMissing()) &&
              fetchInfo.Failure? ==>
                err == Some(fetchInfo.error) && !synced && name == old(name) &&
                description == old(description) && memberCount == old(memberCount)
      ensures !old(synced) && (old(rolesets).Some? || fetchRoles.Success?) && old(DetailsMissing()) &&
              fetchInfo.Success? ==>
                err.None? && synced && name == fetchInfo.value.name &&
                description == fetchInfo.value.description && memberCount == fetchInfo.value.memberCount
      ensures url == old(url)
    {
      if synced {
        return None;
      }
      if rolesets.None? {
        if fetchRoles.Failure? {
          return Some(fetchRoles.error);
        }
        rolesets := Some(RankNames(fetchRoles.value));
      }
      if DetailsMissing() {
        if fetchInfo.Failure? {
          return Some(fetchInfo.error);
        }
        name := fetchInfo.value.name;
        description := fetchInfo.value.description;
        memberCount := fetchInfo.value.memberCount;
        if rolesets.Some? {
          synced := true;
        }
      }
      err := None;
    }

    function Label(): (r: string)
      reads this
      ensures |r| > |IdText(id)| + 3 && r[|r| - |IdText(id)| - 3..] == " (" + IdText(id) + ")"
      ensures r[..2] == "**" <==> TruthyStr(name)
      ensures !TruthyStr(name) ==> r == Labelled("*(Unknown Group)*", IdText(id))
    {
      assert "*(Unknown Group)*"[..2] == "*(";
      NamedOr("*(Unknown Group)*", name, id)
    }

    /** roleset_name_string: the stored name, or str(id) for an unknown or empty one; raises before
        the rolesets are known. */
    function RolesetNameString(rolesetId: int, boldName: bool, includeId: bool): (r: Result<string, Error>)
      reads this
      ensures rolesets.None? <==> r.Failure?
      ensures rolesets.Some? && (rolesetId !in rolesets.value || rolesets.value[rolesetId] == "") ==>
                r == Success(IntToString(rolesetId))
      ensures rolesets.Some? && rolesetId in rolesets.value && rolesets.value[rolesetId] != "" ==>
                r == Success(Groups.FormatRoleset(rolesets.value[rolesetId], rolesetId, boldName, includeId))
    {
      if rolesets.None? then Failure(AttributeError("'NoneType' object has no attribute 'get'"))
      else if rolesetId in rolesets.value then
        Success(Groups.FormatRoleset(rolesets.value[rolesetId], rolesetId, boldName, includeId))
      else Success(IntToString(rolesetId))
    }
  }

  /** A group whose details are already known: a sync that fetches its rolesets leaves it
      unsynced, with the rolesets known. */
  method SyncWithDetailsKnown() returns (syncedAfter: bool, rolesetsKnown: bool)
    ensures !syncedAfter && rolesetsKnown
  {
    var g := new LegacyRobloxGroup(IntId(7));
    g.name, g.description, g.memberCount := Some("Group"), Some(""), Some(3);
    var _ := g.Sync(Success([RoleRecord(" Guest ", 0)]), Failure(RobloxAPIError("unused")));
    syncedAfter, rolesetsKnown := g.synced, g.rolesets.Some?;
  }

  /** get_group(id_or_url) of the older variant. */
  method GetGroup(input: EntityId, fetchRoles: Result<seq<RoleRecord>, Error>, fetchInfo: Result<InfoRecord, Error>)
    returns (r: Result<LegacyRobloxGroup, Error>)
    ensures r.Success? ==> fresh(r.value) && r.value.id == StrId(Groups.GroupIdFromInput(IdText(input))) && r.value.synced
    ensures r.Success? <==> fetchRoles.Success? && fetchInfo.Success?
    ensures r.Failure? && fetchRoles.Failure? ==>
              r.error == (if fetchRoles.error.RobloxAPIError? then RobloxNotFound("This group does not exist.") else fetchRoles.error)
    ensures r.Failure? && fetchRoles.Success? ==>
              r.error == (if fetchInfo.error.RobloxAPIError? then RobloxNotFound("This group does not exist.") else fetchInfo.error)
  {
    var group := new LegacyRobloxGroup(StrId(Groups.GroupIdFromInput(IdText(input))));
    var err := group.Sync(fetchRoles, fetchInfo);
    if err.None? {
      r := Success(group);
    } else if err.value.RobloxAPIError? {
      r := Failure(RobloxNotFound("This group does not exist."));
    } else {
      r := Failure(err.value);
    }
  }
}

=== FILE: migration.dfy ===
/** The walks over a legacy (V3) bind document: the one migrate_old_binds performs over the
    stored legacy fields (bloxlink_lib/models/binds.py), and convert_old_to_new, the whole-document
    traversal of test/guildbind_classmethods.py. Both append converted binds to one output list in
    order and let the first converter that raises abort the walk. */
module Migration {
  import opened Wrappers
  import opened Exceptions
  import opened Text
  import opened Utils
  import opened Binds
  import opened Conversions

  /** from_V3 applied to one (id, entry) pair of a section of the given kind. */
  function EntityFn(kind: V3Kind): ((string, LegacyEntry)) -> Result<GuildBind, Error> {
    (p: (string, LegacyEntry)) => FromV3(kind, p.0, p.1)
  }

  /** from_V3_group_rolebind("roleset", groupId, {rankKey: entry}). */
  function RankFn(groupId: string): ((string, LegacyEntry)) -> Result<GuildBind, Error> {
    (p: (string, LegacyEntry)) => FromV3Rank(groupId, p.0, p.1)
  }

  /** from_V3_group_rolebind("range", groupId, entry). */
  function RangeFn(groupId: string): LegacyRange -> Result<GuildBind, Error> {
    r => FromV3Range(groupId, r)
  }

  /** One group of the legacy "groups" section: one roleset bind per rank key, then one range bind
      per range, in order. */
  function GroupBinds(groupId: string, group: LegacyGroupBinds): (r: Result<seq<GuildBind>, Error>)
    ensures r.Success? <==> MapAll(RankFn(groupId), group.binds).Success? &&
                            MapAll(RangeFn(groupId), group.ranges).Success?
    ensures r.Success? ==> |r.value| == |group.binds| + |group.ranges|
    ensures r.Success? ==> forall i :: 0 <= i < |group.binds| ==>
              r.value[i] == FromV3Rank(groupId, group.binds[i].0, group.binds[i].1).value
    ensures r.Success? ==> forall i :: 0 <= i < |group.ranges| ==>
              r.value[|group.binds| + i] == FromV3Range(groupId, group.ranges[i]).value
    ensures r.Success? ==> forall i :: 0 <= i < |r.value| ==>
              r.value[i].Type() == Group && r.value[i].subtype == Some(RoleBind)
  {
    var ranks :- MapAll(RankFn(groupId), group.binds);
    var ranges :- MapAll(RangeFn(groupId), group.ranges);
    Success(ranks + ranges)
  }

  /** GroupBinds step by step: the rank binds' error, else the ranges' error, else both lists. */
  lemma GroupBindsSteps(groupId: string, group: LegacyGroupBinds)
    ensures MapAll(RankFn(groupId), group.binds).Failure? ==>
              GroupBinds(groupId, group) == Failure(MapAll(RankFn(groupId), group.binds).error)
    ensures MapAll(RankFn(groupId), group.binds).Success? && MapAll(RangeFn(groupId), group.ranges).Failure? ==>
              GroupBinds(groupId, group) == Failure(MapAll(RangeFn(groupId), group.ranges).error)
    ensures MapAll(RankFn(groupId), group.binds).Success? && MapAll(RangeFn(groupId), group.ranges).Success? ==>
              GroupBinds(groupId, group) ==
                Success(MapAll(RankFn(groupId), group.binds).value + MapAll(RangeFn(groupId), group.ranges).value)
  {
  }

  function GroupBindsOf(entry: (string, LegacyGroupBinds)): Result<seq<GuildBind>, Error> {
    GroupBinds(entry.0, entry.1)
  }

  /** The number of binds one group of a "groups" section converts to: one per rank key and range. */
  function GroupSize(group: (string, LegacyGroupBinds)): nat {
    |group.1.binds| + |group.1.ranges|
  }

  /** The number of rank keys and ranges of the groups of a "groups" section. */
  function GroupEntryCount(groups: seq<(string, LegacyGroupBinds)>): nat
    decreases |groups|
  {
    if |groups| == 0 then 0
    else GroupEntryCount(groups[..|groups| - 1]) + GroupSize(groups[|groups| - 1])
  }

  /** A converted "groups" section holds one bind per rank key and range, every one of them a
      role bind on a group. */
  lemma {:induction false} GroupsSectionShape(groups: seq<(string, LegacyGroupBinds)>)
    requires FlatMapAll(GroupBindsOf, groups).Success?
    ensures |FlatMapAll(GroupBindsOf, groups).value| == GroupEntryCount(groups)
    ensures forall b :: b in FlatMapAll(GroupBindsOf, groups).value ==>
              b.Type() == Group && b.subtype == Some(RoleBind)
    decreases |groups|
  {
    if |groups| > 0 {
      var init := groups[..|groups| - 1];
      assert forall i :: 0 <= i < |init| ==> init[i] == groups[i];
      GroupsSectionShape(init);
    }
  }

  /** The legacy section an entity section's name stands for; any other name is skipped. */
  function EntityKind(name: string): (k: Option<V3Kind>)
    ensures k == Some(Assets) <==> name == "assets"
    ensures k == Some(Badges) <==> name == "badges"
    ensures k == Some(GamePasses) <==> name == "gamePasses"
    ensures k != Some(GroupIDs)
  {
    if name == "assets" then Some(Assets)
    else if name == "badges" then Some(Badges)
    else if name == "gamePasses" then Some(GamePasses)
    else None
  }

  /** One group's block in a converted "groups" section. */
  lemma GroupSliceAt(groups: seq<(string, LegacyGroupBinds)>, i: nat)
    requires FlatMapAll(GroupBindsOf, groups).Success? && i < |groups|
    ensures GroupEntryCount(groups[..i]) + GroupSize(groups[i]) <= |FlatMapAll(GroupBindsOf, groups).value|
    ensures FlatMapAll(GroupBindsOf, groups).value[GroupEntryCount(groups[..i])..GroupEntryCount(groups[..i]) + GroupSize(groups[i])]
              == GroupBinds(groups[i].0, groups[i].1).value
  {
    FlatMapAllAt(GroupBindsOf, groups, i);
    GroupsSectionShape(groups[..i]);
    MiddleSlice(FlatMapAll(GroupBindsOf, groups[..i]).value, GroupBindsOf(groups[i]).value,
                FlatMapAll(GroupBindsOf, groups[i + 1..]).value);
  }

  /** In a converted "groups" section the binds of each group form one block, at the offset the
      groups before it take up. */
  lemma GroupSlices(groups: seq<(string, LegacyGroupBinds)>)
    requires FlatMapAll(GroupBindsOf, groups).Success?
    ensures forall i :: 0 <= i < |groups| ==>
              GroupEntryCount(groups[..i]) + GroupSize(groups[i]) <= |FlatMapAll(GroupBindsOf, groups).value| &&
              FlatMapAll(GroupBindsOf, groups).value[GroupEntryCount(groups[..i])..GroupEntryCount(groups[..i]) + GroupSize(groups[i])]
                == GroupBinds(groups[i].0, groups[i].1).value
  {
    forall i | 0 <= i < |groups|
      ensures GroupEntryCount(groups[..i]) + GroupSize(groups[i]) <= |FlatMapAll(GroupBindsOf, groups).value|
      ensures FlatMapAll(GroupBindsOf, groups).value[GroupEntryCount(groups[..i])..GroupEntryCount(groups[..i]) + GroupSize(groups[i])]
                == GroupBinds(groups[i].0, groups[i].1).value
    {
      GroupSliceAt(groups, i);
    }
  }

  /** What a "groups" section converts to: it succeeds exactly when every group does, and then
      holds one role bind per rank key and range, each group's binds forming one block at the
      offset the groups before it take up; otherwise the first group that fails decides the
      error. */
  predicate GroupsSectionConverted(groups: seq<(string, LegacyGroupBinds)>, r: Result<seq<GuildBind>, Error>) {
    && (r.Success? <==> forall i :: 0 <= i < |groups| ==> GroupBinds(groups[i].0, groups[i].1).Success?)
    && (r.Success? ==>
          && |r.value| == GroupEntryCount(groups)
          && (forall b :: b in r.value ==> b.Type() == Group && b.subtype == Some(RoleBind))
          && (forall i :: 0 <= i < |groups| ==>
                GroupEntryCount(groups[..i]) + GroupSize(groups[i]) <= |r.value| &&
                r.value[GroupEntryCount(groups[..i])..GroupEntryCount(groups[..i]) + GroupSize(groups[i])]
                  == GroupBinds(groups[i].0, groups[i].1).value))
    && (forall i :: 0 <= i < |groups| && GroupBinds(groups[i].0, groups[i].1).Failure? &&
                    (forall j :: 0 <= j < i ==> GroupBinds(groups[j].0, groups[j].1).Success?) ==>
          r == Failure(GroupBinds(groups[i].0, groups[i].1).error))
  }

  /** The group-by-group walk converts a "groups" section as described. */
  lemma GroupsSectionConversion(groups: seq<(string, LegacyGroupBinds)>)
    ensures GroupsSectionConverted(groups, FlatMapAll(GroupBindsOf, groups))
  {
    if FlatMapAll(GroupBindsOf, groups).Success? {
      GroupsSectionShape(groups);
      GroupSlices(groups);
    }
    forall i | 0 <= i < |groups| && GroupBinds(groups[i].0, groups[i].1).Failure? &&
               (forall j :: 0 <= j < i ==> GroupBinds(groups[j].0, groups[j].1).Success?)
      ensures FlatMapAll(GroupBindsOf, groups) == Failure(GroupBinds(groups[i].0, groups[i].1).error)
    {
      FlatMapAllFirstFailure(GroupBindsOf, groups, i);
    }
  }

  /** What an entity section of a kind converts to: it succeeds exactly when every entry does, and
      then holds one bind of the section's category per entry, in order; otherwise the first entry
      that fails decides the error. */
  predicate EntitySectionConverted(kind: V3Kind, entries: seq<(string, LegacyEntry)>, r: Result<seq<GuildBind>, Error>) {
    && (r.Success? <==> forall i :: 0 <= i < |entries| ==> FromV3(kind, entries[i].0, entries[i].1).Success?)
    && (r.Success? ==>
          |r.value| == |entries| &&
          forall i :: 0 <= i < |entries| ==>
            r.value[i] == FromV3(kind, entries[i].0, entries[i].1).value && r.value[i].Type() == V3Type(kind))
    && (forall i :: 0 <= i < |entries| && FromV3(kind, entries[i].0, entries[i].1).Failure? &&
                    (forall j :: 0 <= j < i ==> FromV3(kind, entries[j].0, entries[j].1).Success?) ==>
          r == Failure(FromV3(kind, entries[i].0, entries[i].1).error))
  }

  /** The entry-by-entry walk converts an entity section as described. */
  lemma EntitySectionConversion(kind: V3Kind, entries: seq<(string, LegacyEntry)>)
    ensures EntitySectionConverted(kind, entries, MapAll(EntityFn(kind), entries))
  {
    if MapAll(EntityFn(kind), entries).Success? {
      ConvertedKinds(kind, entries);
    }
    forall i | 0 <= i < |entries| && FromV3(kind, entries[i].0, entries[i].1).Failure? &&
               (forall j :: 0 <= j < i ==> FromV3(kind, entries[j].0, entries[j].1).Success?)
      ensures MapAll(EntityFn(kind), entries) == Failure(FromV3(kind, entries[i].0, entries[i].1).error)
    {
      MapAllFirstFailure(EntityFn(kind), entries, i);
    }
  }

  /** One section of the roleBinds object, as migrate_old_binds is evidently meant to walk it: a
      section of another name is skipped, an entity section converts entry by entry and the groups
      section group by group. */
  function SectionBinds(section: RoleBindSection): (r: Result<seq<GuildBind>, Error>)
    ensures section.EntitySection? && EntityKind(section.name).None? ==> r == Success([])
    ensures section.EntitySection? && EntityKind(section.name).Some? ==>
              EntitySectionConverted(EntityKind(section.name).value, section.entries, r)
    ensures section.GroupsSection? ==> GroupsSectionConverted(section.groups, r)
  {
    match section
    case EntitySection(name, entries) =>
      if EntityKind(name).Some? then
        EntitySectionConversion(EntityKind(name).value, entries);
        MapAll(EntityFn(EntityKind(name).value), entries)
      else Success([])
    case GroupsSection(groups) =>
      GroupsSectionConversion(groups);
      FlatMapAll(GroupBindsOf, groups)
  }

  /** The binds migrate_old_binds collects: the whole-group binds of groupIDs, then the binds of
      each roleBinds section in the document's order; the first converter error aborts. */
  function Migrated(groupIDs: seq<(string, LegacyEntry)>, sections: seq<RoleBindSection>)
    : (r: Result<seq<GuildBind>, Error>)
    ensures r.Success? <==> MapAll(EntityFn(GroupIDs), groupIDs).Success? &&
                            FlatMapAll(SectionBinds, sections).Success?
    ensures r.Success? ==> |r.value| == |groupIDs| + |FlatMapAll(SectionBinds, sections).value|
    ensures r.Success? ==> forall i :: 0 <= i < |groupIDs| ==>
              r.value[i] == FromV3(GroupIDs, groupIDs[i].0, groupIDs[i].1).value &&
              r.value[i].subtype == Some(FullGroup)
    ensures r.Success? ==> r.value[|groupIDs|..] == FlatMapAll(SectionBinds, sections).value
    ensures MapAll(EntityFn(GroupIDs), groupIDs).Failure? ==>
              r == MapAll(EntityFn(GroupIDs), groupIDs).PropagateFailure()
    ensures MapAll(EntityFn(GroupIDs), groupIDs).Success? && FlatMapAll(SectionBinds, sections).Failure? ==>
              r == Failure(FlatMapAll(SectionBinds, sections).error)
  {
    var whole :- MapAll(EntityFn(GroupIDs), groupIDs);
    var rest :- FlatMapAll(SectionBinds, sections);
    ConvertedKinds(GroupIDs, groupIDs);
    assert (whole + rest)[|groupIDs|..] == rest;
    Success(whole + rest)
  }

  /** Each section's binds sit in the migrated list in the document's order: after the whole-group
      binds and the binds of the sections before it, and before those of the sections after it. */
  lemma MigratedInDocumentOrder(groupIDs: seq<(string, LegacyEntry)>, sections: seq<RoleBindSection>, i: nat)
    requires Migrated(groupIDs, sections).Success? && i < |sections|
    ensures SectionBinds(sections[i]).Success?
    ensures Migrated(groupIDs, sections).value ==
              MapAll(EntityFn(GroupIDs), groupIDs).value + FlatMapAll(SectionBinds, sections[..i]).value +
              SectionBinds(sections[i]).value + FlatMapAll(SectionBinds, sections[i + 1..]).value
  {
    assert Migrated(groupIDs, sections).value ==
             MapAll(EntityFn(GroupIDs), groupIDs).value + FlatMapAll(SectionBinds, sections).value;
    FlatMapAllAtAfter(SectionBinds, MapAll(EntityFn(GroupIDs), groupIDs).value, sections, i);
  }

  /** Once the whole-group binds convert, the first section that fails decides the migration's
      error, whatever the sections after it hold. */
  lemma MigratedFirstFailingSection(groupIDs: seq<(string, LegacyEntry)>, sections: seq<RoleBindSection>, i: nat)
    requires MapAll(EntityFn(GroupIDs), groupIDs).Success?
    requires i < |sections| && SectionBinds(sections[i]).Failure?
    requires forall j :: 0 <= j < i ==> SectionBinds(sections[j]).Success?
    ensures Migrated(groupIDs, sections) == Failure(SectionBinds(sections[i]).error)
  {
    FlatMapAllFirstFailure(SectionBinds, sections, i);
  }

  /** One section of that loop, appending its binds to the output. */
  method CollectSection(section: RoleBindSection, output: seq<GuildBind>) returns (r: Result<seq<GuildBind>, Error>)
    ensures SectionBinds(section).Success? ==> r == Success(output + SectionBinds(section).value)
    ensures SectionBinds(section).Failure? ==> r == Failure(SectionBinds(section).error)
  {
    match section {
      case EntitySection(name, entries) =>
        if EntityKind(name).Some? {
          r := AppendAll(EntityFn(EntityKind(name).value), entries, output);
        } else {
          assert output + [] == output;
          r := Success(output);
        }
      case GroupsSection(groups) =>
        r := AppendGroups(groups, output);
    }
  }

  /** The loop over the roleBinds sections of migrate_old_binds, appending to the output. */
  method CollectSections(sections: seq<RoleBindSection>, output: seq<GuildBind>) returns (r: Result<seq<GuildBind>, Error>)
    ensures FlatMapAll(SectionBinds, sections).Success? ==> r == Success(output + FlatMapAll(SectionBinds, sections).value)
    ensures FlatMapAll(SectionBinds, sections).Failure? ==> r == Failure(FlatMapAll(SectionBinds, sections).error)
  {
    var out := output;
    var i := 0;
    while i < |sections|
      invariant 0 <= i <= |sections|
      invariant FlatMapAll(SectionBinds, sections[..i]).Success?
      invariant out == output + FlatMapAll(SectionBinds, sections[..i]).value
    {
      assert forall j :: 0 <= j < i ==> sections[..i][j] == sections[j];
      var step := CollectSection(sections[i], out);
      if step.Failure? {
        FlatMapAllFirstFailure(SectionBinds, sections, i);
        return Failure(step.error);
      }
      FlatMapAllSnoc(SectionBinds, sections, i);
      Regroup3(output, FlatMapAll(SectionBinds, sections[..i]).value, SectionBinds(sections[i]).value);
      out := step.value;
      i := i + 1;
    }
    assert sections[..i] == sections;
    return Success(out);
  }

  /** The two conversion loops of migrate_old_binds: groupIDs, then the roleBinds sections. */
  method CollectMigrated(groupIDs: seq<(string, LegacyEntry)>, sections: seq<RoleBindSection>)
    returns (r: Result<seq<GuildBind>, Error>)
    ensures r == Migrated(groupIDs, sections)
  {
    var whole := AppendAll(EntityFn(GroupIDs), groupIDs, []);
    if whole.Failure? {
      return Failure(whole.error);
    }
    assert [] + MapAll(EntityFn(GroupIDs), groupIDs).value == MapAll(EntityFn(GroupIDs), groupIDs).value;
    r := CollectSections(sections, whole.value);
  }

  /** The groups branch as written: it asks the groups map itself (keyed by group id) for "binds"
      and "ranges", finds neither, and so converts nothing. A group keyed "binds" or "ranges"
      would send it into the stale variables of the earlier loops, which this member does not
      model. */
  function SectionBindsAsWritten(section: RoleBindSection): (r: Result<seq<GuildBind>, Error>)
    requires section.GroupsSection? ==> forall i :: 0 <= i < |section.groups| ==>
               section.groups[i].0 != "binds" && section.groups[i].0 != "ranges"
    ensures section.EntitySection? ==> r == SectionBinds(section)
    ensures section.GroupsSection? ==> r == Success([])
  {
    match section
    case EntitySection(_, _) => SectionBinds(section)
    case GroupsSection(_) => Success([])
  }

  /** A groups section holding one rank bind: the walk as written collects nothing from it; the
      intended walk collects that bind. */
  lemma GroupRankBindDropped(groupId: string, entry: LegacyEntry)
    requires ParseInt(groupId).Some? && groupId != "binds" && groupId != "ranges"
    ensures SectionBindsAsWritten(GroupsSection([(groupId, LegacyGroupBinds([("all", entry)], []))])) == Success([])
    ensures Migrated([], [GroupsSection([(groupId, LegacyGroupBinds([("all", entry)], []))])]).Success?
    ensures |Migrated([], [GroupsSection([(groupId, LegacyGroupBinds([("all", entry)], []))])]).value| == 1
    ensures Migrated([], [GroupsSection([(groupId, LegacyGroupBinds([("all", entry)], []))])]).value[0].criteria ==
              BindCriteria(Group, ParseInt(groupId), Some(NoConditions.(everyone := true)))
  {
    var groups := [(groupId, LegacyGroupBinds([("all", entry)], []))];
    var sections := [GroupsSection(groups)];
    assert RankFn(groupId)(("all", entry)).Success?;
    assert GroupBindsOf(groups[0]).Success?;
    assert FlatMapAll(GroupBindsOf, groups).value == GroupBinds(groupId, groups[0].1).value by {
      assert groups[..0] == [];
    }
    assert FlatMapAll(SectionBinds, sections).value == SectionBinds(sections[0]).value by {
      assert sections[..0] == [];
    }
  }

  /** The legacy document convert_old_to_new loads: a missing "groupIDs" or "roleBinds" object is
      an empty one, as its `.get(..., {})` reads make it. */
  datatype LegacyDocument = LegacyDocument(groupIDs: seq<(string, LegacyEntry)>, roleBinds: seq<RoleBindSection>)

  /** rolebinds.get(name, {}) for an entity section. */
  function SectionEntries(sections: seq<RoleBindSection>, name: string): (entries: seq<(string, LegacyEntry)>)
    ensures (forall i :: 0 <= i < |sections| ==> !(sections[i].EntitySection? && sections[i].name == name)) ==>
              entries == []
    ensures forall i :: 0 <= i < |sections| && sections[i] == EntitySection(name, entries) &&
                        (forall j :: 0 <= j < i ==> !(sections[j].EntitySection? && sections[j].name == name)) ==>
              entries == sections[i].entries
  {
    match Find((s: RoleBindSection) => s.EntitySection? && s.name == name, sections)
    case Some(s) => s.entries
    case None => []
  }

  /** rolebinds.get("groups", {}). */
  function GroupsOf(sections: seq<RoleBindSection>): (groups: seq<(string, LegacyGroupBinds)>)
    ensures (forall i :: 0 <= i < |sections| ==> !sections[i].GroupsSection?) ==> groups == []
  {
    match Find((s: RoleBindSection) => s.GroupsSection?, sections)
    case Some(s) => s.groups
    case None => []
  }

  /** What convert_old_to_new returns: the whole-group binds, then the assets, badges and
      gamePasses sections, then each group's rank binds followed by its ranges. */
  function Traversal(doc: LegacyDocument): (r: Result<seq<GuildBind>, Error>) {
    var whole :- MapAll(EntityFn(GroupIDs), doc.groupIDs);
    var assets :- MapAll(EntityFn(Assets), SectionEntries(doc.roleBinds, "assets"));
    var badges :- MapAll(EntityFn(Badges), SectionEntries(doc.roleBinds, "badges"));
    var passes :- MapAll(EntityFn(GamePasses), SectionEntries(doc.roleBinds, "gamePasses"));
    var groups :- FlatMapAll(GroupBindsOf, GroupsOf(doc.roleBinds));
    Success(whole + assets + badges + passes + groups)
  }

  /** The groups loop of convert_old_to_new: for each group, its rank binds and then its ranges
      are appended to the output. */
  method AppendGroups(groups: seq<(string, LegacyGroupBinds)>, output: seq<GuildBind>)
    returns (r: Result<seq<GuildBind>, Error>)
    ensures FlatMapAll(GroupBindsOf, groups).Success? ==> r == Success(output + FlatMapAll(GroupBindsOf, groups).value)
    ensures FlatMapAll(GroupBindsOf, groups).Failure? ==> r == Failure(FlatMapAll(GroupBindsOf, groups).error)
  {
    var out := output;
    var i := 0;
    while i < |groups|
      invariant 0 <= i <= |groups|
      invariant FlatMapAll(GroupBindsOf, groups[..i]).Success?
      invariant out == output + FlatMapAll(GroupBindsOf, groups[..i]).value
    {
      var groupId, bindData := groups[i].0, groups[i].1;
      assert forall j :: 0 <= j < i ==> groups[..i][j] == groups[j];
      GroupBindsSteps(groupId, bindData);
      assert GroupBindsOf(groups[i]) == GroupBinds(groupId, bindData);
      var ranks := AppendAll(RankFn(groupId), bindData.binds, out);
      if ranks.Failure? {
        FlatMapAllFirstFailure(GroupBindsOf, groups, i);
        return Failure(ranks.error);
      }
      var ranges := AppendAll(RangeFn(groupId), bindData.ranges, ranks.value);
      if ranges.Failure? {
        FlatMapAllFirstFailure(GroupBindsOf, groups, i);
        return Failure(ranges.error);
      }
      FlatMapAllSnoc(GroupBindsOf, groups, i);
      Regroup(output, FlatMapAll(GroupBindsOf, groups[..i]).value,
              MapAll(RankFn(groupId), bindData.binds).value, MapAll(RangeFn(groupId), bindData.ranges).value);
      out := ranges.value;
      i := i + 1;
    }
    assert groups[..i] == groups;
    return Success(out);
  }

  /** convert_old_to_new: one output list the loops append to in turn. */
  method ConvertOldToNew(doc: LegacyDocument) returns (r: Result<seq<GuildBind>, Error>)
    ensures r == Traversal(doc)
  {
    var output: seq<GuildBind> := [];
    var fullGroups := doc.groupIDs;
    var groupRb := GroupsOf(doc.roleBinds);
    var assetRb := SectionEntries(doc.roleBinds, "assets");
    var badgeRb := SectionEntries(doc.roleBinds, "badges");
    var gamepRb := SectionEntries(doc.roleBinds, "gamePasses");

    var whole := MapAll(EntityFn(GroupIDs), fullGroups);
    var assets := MapAll(EntityFn(Assets), assetRb);
    var badges := MapAll(EntityFn(Badges), badgeRb);
    var passes := MapAll(EntityFn(GamePasses), gamepRb);

    var step := AppendAll(EntityFn(GroupIDs), fullGroups, output);
    if step.Failure? { return Failure(step.error); }
    assert step.value == whole.value;
    output := step.value;
    step := AppendAll(EntityFn(Assets), assetRb, output);
    if step.Failure? { return Failure(step.error); }
    output := step.value;
    step := AppendAll(EntityFn(Badges), badgeRb, output);
    if step.Failure? { return Failure(step.error); }
    output := step.value;
    step := AppendAll(EntityFn(GamePasses), gamepRb, output);
    if step.Failure? { return Failure(step.error); }
    output := step.value;
    assert output == whole.value + assets.value + badges.value + passes.value;
    r := AppendGroups(groupRb, output);
  }

  /** The output order: the conversion succeeds when each of its five parts does, and is then the
      whole-group binds, the assets, badges and gamePasses binds, and the groups' binds, in that
      order. */
  lemma TraversalParts(doc: LegacyDocument)
    ensures Traversal(doc).Success? <==>
              && MapAll(EntityFn(GroupIDs), doc.groupIDs).Success?
              && MapAll(EntityFn(Assets), SectionEntries(doc.roleBinds, "assets")).Success?
              && MapAll(EntityFn(Badges), SectionEntries(doc.roleBinds, "badges")).Success?
              && MapAll(EntityFn(GamePasses), SectionEntries(doc.roleBinds, "gamePasses")).Success?
              && FlatMapAll(GroupBindsOf, GroupsOf(doc.roleBinds)).Success?
    ensures Traversal(doc).Success? ==>
              Traversal(doc).value ==
                MapAll(EntityFn(GroupIDs), doc.groupIDs).value +
                MapAll(EntityFn(Assets), SectionEntries(doc.roleBinds, "assets")).value +
                MapAll(EntityFn(Badges), SectionEntries(doc.roleBinds, "badges")).value +
                MapAll(EntityFn(GamePasses), SectionEntries(doc.roleBinds, "gamePasses")).value +
                FlatMapAll(GroupBindsOf, GroupsOf(doc.roleBinds)).value
  {
  }

  /** A document without legacy fields converts to nothing. */
  lemma EmptyDocumentConvertsToNothing()
    ensures Traversal(LegacyDocument([], [])) == Success([])
  {
    TraversalParts(LegacyDocument([], []));
  }

  /** One bind per whole group, asset, badge, gamepass, rank key and range: the output length is the
      sum of the section entry counts. */
  lemma TraversalLength(doc: LegacyDocument)
    requires Traversal(doc).Success?
    ensures |Traversal(doc).value| ==
              |doc.groupIDs| + |SectionEntries(doc.roleBinds, "assets")| + |SectionEntries(doc.roleBinds, "badges")| +
              |SectionEntries(doc.roleBinds, "gamePasses")| + GroupEntryCount(GroupsOf(doc.roleBinds))
  {
    TraversalParts(doc);
    GroupsSectionShape(GroupsOf(doc.roleBinds));
  }

  /** from_V3 cannot build a badge or gamepass bind, so a document converts only when it has no
      badges and no gamePasses entries. */
  lemma TraversalNeedsNoBadges(doc: LegacyDocument)
    requires Traversal(doc).Success?
    ensures SectionEntries(doc.roleBinds, "badges") == []
    ensures SectionEntries(doc.roleBinds, "gamePasses") == []
  {
    TraversalParts(doc);
  }

  /** Every bind converted from a section has that section's category; the whole-group ones are
      full-group binds. */
  lemma {:induction false} ConvertedKinds(kind: V3Kind, entries: seq<(string, LegacyEntry)>)
    requires MapAll(EntityFn(kind), entries).Success?
    ensures forall i :: 0 <= i < |entries| ==> MapAll(EntityFn(kind), entries).value[i].Type() == V3Type(kind)
    ensures kind == GroupIDs ==>
              forall i :: 0 <= i < |entries| ==> MapAll(EntityFn(kind), entries).value[i].subtype == Some(FullGroup)
    decreases |entries|
  {
    if |entries| > 0 {
      var n := |entries| - 1;
      ConvertedKinds(kind, entries[..n]);
      var last := FromV3(kind, entries[n].0, entries[n].1);
      assert last.value.Type() == V3Type(kind);
      assert kind == GroupIDs ==> last.value.subtype == Some(FullGroup);
    }
  }
}

=== FILE: priority.dfy ===
/** Which bind's nickname applies (bloxlink_lib/models/binds.py): calculate_highest_role memoises
    the highest guild role a bind grants, and get_nickname_template sorts the candidate binds by
    that role's position, binds without one first, and takes the first one's nickname. */
module Priority {
  import opened Wrappers
  import opened Exceptions
  import opened Text
  import opened Binds

  // ---------------------------------------------------------------------------------------------
  // calculate_highest_role
  // ---------------------------------------------------------------------------------------------

  /** The filter's test: a guild role whose id is one of the bind's roles, while the bind has a
      non-empty nickname. */
  predicate Eligible(b: GuildBind, role: Role) {
    IntToString(role.id) in b.roles && TruthyStr(b.nickname)
  }

  /** The position max(..., key=position) picks among the eligible roles: the first of those with
      the highest position, or None when no role is eligible. */
  function HighestIndex(b: GuildBind, roles: seq<Role>): (r: Option<nat>)
    ensures r.Some? ==> r.value < |roles|
    decreases |roles|
  {
    if |roles| == 0 then None
    else
      var h := HighestIndex(b, roles[..|roles| - 1]);
      if Eligible(b, roles[|roles| - 1]) && (h.None? || roles[|roles| - 1].position > roles[h.value].position)
      then Some(|roles| - 1)
      else h
  }

  /** No index exactly when no role is eligible. */
  lemma {:induction false} HighestIndexNone(b: GuildBind, roles: seq<Role>)
    ensures HighestIndex(b, roles).None? <==> forall j :: 0 <= j < |roles| ==> !Eligible(b, roles[j])
    decreases |roles|
  {
    if |roles| > 0 {
      var init := roles[..|roles| - 1];
      HighestIndexNone(b, init);
      assert forall j :: 0 <= j < |init| ==> init[j] == roles[j];
    }
  }

  /** An index found is an eligible role no eligible role is positioned above. */
  lemma {:induction false} HighestIndexIsMaximum(b: GuildBind, roles: seq<Role>)
    ensures HighestIndex(b, roles).Some? ==> Eligible(b, roles[HighestIndex(b, roles).value])
    ensures HighestIndex(b, roles).Some? ==> forall j :: 0 <= j < |roles| && Eligible(b, roles[j]) ==>
              roles[j].position <= roles[HighestIndex(b, roles).value].position
    decreases |roles|
  {
    if |roles| > 0 {
      var n := |roles| - 1;
      var init := roles[..n];
      HighestIndexIsMaximum(b, init);
      HighestIndexNone(b, init);
      var h, r := HighestIndex(b, init), HighestIndex(b, roles);
      if r.Some? {
        forall j | 0 <= j < |roles| && Eligible(b, roles[j]) ensures roles[j].position <= roles[r.value].position {
          if j < n {
            assert init[j] == roles[j];
          }
        }
      }
    }
  }

  /** Every eligible role before the index found is positioned strictly lower: max() keeps the
      first of equal maxima. */
  lemma {:induction false} HighestIndexIsFirst(b: GuildBind, roles: seq<Role>)
    ensures HighestIndex(b, roles).Some? ==> forall j :: 0 <= j < HighestIndex(b, roles).value && Eligible(b, roles[j]) ==>
              roles[j].position < roles[HighestIndex(b, roles).value].position
    decreases |roles|
  {
    if |roles| > 0 {
      var n := |roles| - 1;
      var init := roles[..n];
      HighestIndexIsFirst(b, init);
      HighestIndexIsMaximum(b, init);
      HighestIndexNone(b, init);
      var h, r := HighestIndex(b, init), HighestIndex(b, roles);
      if r.Some? {
        forall j | 0 <= j < r.value && Eligible(b, roles[j]) ensures roles[j].position < roles[r.value].position {
          assert init[j] == roles[j];
          if r.value == n {
            assert h.Some? && roles[j].position <= roles[h.value].position;
          } else {
            assert r == h;
          }
        }
      }
    }
  }

  /** The index is max()'s choice: None exactly when no role is eligible, else an eligible role
      that no eligible role outranks, and the first of the roles at its position. */
  lemma HighestIndexIsFirstMaximum(b: GuildBind, roles: seq<Role>)
    ensures HighestIndex(b, roles).None? <==> forall j :: 0 <= j < |roles| ==> !Eligible(b, roles[j])
    ensures HighestIndex(b, roles).Some? ==> Eligible(b, roles[HighestIndex(b, roles).value])
    ensures HighestIndex(b, roles).Some? ==> forall j :: 0 <= j < |roles| && Eligible(b, roles[j]) ==>
              roles[j].position <= roles[HighestIndex(b, roles).value].position
    ensures HighestIndex(b, roles).Some? ==> forall j :: 0 <= j < HighestIndex(b, roles).value && Eligible(b, roles[j]) ==>
              roles[j].position < roles[HighestIndex(b, roles).value].position
  {
    HighestIndexNone(b, roles);
    HighestIndexIsMaximum(b, roles);
    HighestIndexIsFirst(b, roles);
  }

  /** The role that index stands for. */
  function HighestRoleOf(b: GuildBind, roles: seq<Role>): Option<Role> {
    if HighestIndex(b, roles).Some? then Some(roles[HighestIndex(b, roles).value]) else None
  }

  /** calculate_highest_role as it evidently means to work: a bind with roles and no memoised role
      gets the first eligible guild role of the highest position (none when no role is eligible);
      any other bind is left alone. Only the memo changes. */
  method CalculateHighestRole(b: GuildBind, guildRoles: seq<Role>) returns (r: GuildBind)
    ensures r == b.(highestRole := r.highestRole)
    ensures |b.roles| == 0 || b.highestRole.Some? ==> r == b
    ensures |b.roles| > 0 && b.highestRole.None? ==> r.highestRole == HighestRoleOf(b, guildRoles)
  {
    if |b.roles| == 0 || b.highestRole.Some? {
      return b;
    }
    var best: Option<nat> := None;
    var i := 0;
    while i < |guildRoles|
      invariant 0 <= i <= |guildRoles|
      invariant best == HighestIndex(b, guildRoles[..i])
    {
      assert guildRoles[..i + 1][..i] == guildRoles[..i];
      if Eligible(b, guildRoles[i]) && (best.None? || guildRoles[i].position > guildRoles[best.value].position) {
        best := Some(i);
      }
      i := i + 1;
    }
    assert guildRoles[..i] == guildRoles;
    r := b.(highestRole := if best.Some? then Some(guildRoles[best.value]) else None);
  }

  /** The memoised role is a guild role the bind grants, no eligible role is positioned above it,
      a bind whose roles match no guild role (or that has no nickname) stays without one, and a
      memoised role is never recomputed. */
  lemma HighestRoleIsMaximal(b: GuildBind, guildRoles: seq<Role>, i: nat)
    requires |b.roles| > 0 && b.highestRole.None?
    requires i < |guildRoles| && Eligible(b, guildRoles[i])
    ensures HighestRoleOf(b, guildRoles).Some?
    ensures HighestRoleOf(b, guildRoles).value in guildRoles
    ensures IntToString(HighestRoleOf(b, guildRoles).value.id) in b.roles
    ensures guildRoles[i].position <= HighestRoleOf(b, guildRoles).value.position
  {
    HighestIndexIsFirstMaximum(b, guildRoles);
  }

  /** The ValueError message max() gives for an empty iterable before Python 3.12; later versions
      word it "max() iterable argument is empty". */
  const MaxEmptyMessage: string := "max() arg is an empty sequence"

  /** calculate_highest_role as written: len(list(filtered)) drains the filter iterator, so when a
      role is eligible max() is handed the exhausted iterator and raises; otherwise nothing is
      set. The memo is never set either way. */
  function CalculateHighestRoleAsWritten(b: GuildBind, guildRoles: seq<Role>): (r: Result<GuildBind, Error>)
    ensures r.Success? ==> r.value == b
    ensures r.Failure? <==> |b.roles| > 0 && b.highestRole.None? &&
                            exists j :: 0 <= j < |guildRoles| && Eligible(b, guildRoles[j])
    ensures r.Failure? ==> r.error == ValueError(MaxEmptyMessage)
  {
    HighestIndexIsFirstMaximum(b, guildRoles);
    if |b.roles| > 0 && b.highestRole.None? && HighestIndex(b, guildRoles).Some?
    then Failure(ValueError(MaxEmptyMessage))
    else Success(b)
  }

  /** A bind on role 1 with a nickname, in a guild whose role 1 is at position 5: as written the
      call raises, while the intended one memoises that role. */
  method HighestRoleScenario() returns (asWritten: Result<GuildBind, Error>, intended: GuildBind)
    ensures asWritten == Failure(ValueError(MaxEmptyMessage))
    ensures intended.highestRole == Some(Role(1, "Member", 5))
  {
    var b := GuildBind(Some("{roblox-name}"), ["1"], [], BindCriteria(Verified, None, None), None, None, None, None);
    var roles := [Role(1, "Member", 5)];
    assert IntToString(1) == "1" by { assert NatToString(1) == [DigitChar(1)]; }
    assert Eligible(b, roles[0]);
    asWritten := CalculateHighestRoleAsWritten(b, roles);
    intended := CalculateHighestRole(b, roles);
  }

  // ---------------------------------------------------------------------------------------------
  // The priority order of get_nickname_template
  // ---------------------------------------------------------------------------------------------

  /** The sort key: the highest role's position, or None standing for math.inf. */
  function Key(b: GuildBind): Option<int> {
    if b.highestRole.Some? then Some(b.highestRole.value.position) else None
  }

  /** Key a comes no later than key c in the descending order, infinity first. */
  predicate AtLeast(a: Option<int>, c: Option<int>) {
    a.None? || (c.Some? && a.value >= c.value)
  }

  /** Every bind ranks at least as high as every later one. */
  predicate Sorted(s: seq<GuildBind>) {
    forall i, j :: 0 <= i < j < |s| ==> AtLeast(Key(s[i]), Key(s[j]))
  }

  /** The binds of s whose key is k, in their order. */
  function WithKey(s: seq<GuildBind>, k: Option<int>): seq<GuildBind>
    decreases |s|
  {
    if |s| == 0 then [] else (if Key(s[0]) == k then [s[0]] else []) + WithKey(s[1..], k)
  }

  /** x placed after every bind of the sorted s that ranks at least as high as it. */
  function Insert(x: GuildBind, s: seq<GuildBind>): seq<GuildBind>
    decreases |s|
  {
    if |s| == 0 then [x]
    else if !AtLeast(Key(s[0]), Key(x)) then [x] + s
    else [s[0]] + Insert(x, s[1..])
  }

  /** list.sort(key=..., reverse=True): a stable sort, so binds of equal key keep their order. */
  function SortByPriority(bs: seq<GuildBind>): seq<GuildBind>
    decreases |bs|
  {
    if |bs| == 0 then [] else Insert(bs[|bs| - 1], SortByPriority(bs[..|bs| - 1]))
  }

  lemma {:induction false} InsertPermutes(x: GuildBind, s: seq<GuildBind>)
    ensures multiset(Insert(x, s)) == multiset(s) + multiset{x}
    decreases |s|
  {
    if |s| > 0 && AtLeast(Key(s[0]), Key(x)) {
      assert s == [s[0]] + s[1..];
      InsertPermutes(x, s[1..]);
    }
  }

  lemma {:induction false} InsertSorted(x: GuildBind, s: seq<GuildBind>)
    requires Sorted(s)
    ensures Sorted(Insert(x, s))
    decreases |s|
  {
    if |s| > 0 && AtLeast(Key(s[0]), Key(x)) {
      InsertSorted(x, s[1..]);
      InsertPermutes(x, s[1..]);
      var t := Insert(x, s[1..]);
      forall j | 0 <= j < |t| ensures AtLeast(Key(s[0]), Key(t[j])) {
        assert t[j] in multiset(t);
        assert t[j] == x || t[j] in multiset(s[1..]);
      }
    }
  }

  lemma {:induction false} WithKeyAppend(a: seq<GuildBind>, b: seq<GuildBind>, k: Option<int>)
    ensures WithKey(a + b, k) == WithKey(a, k) + WithKey(b, k)
    decreases |a|
  {
    if |a| == 0 {
      assert a + b == b;
    } else {
      assert (a + b)[1..] == a[1..] + b;
      WithKeyAppend(a[1..], b, k);
    }
  }

  lemma {:induction false} WithKeyNone(s: seq<GuildBind>, k: Option<int>)
    requires forall i :: 0 <= i < |s| ==> Key(s[i]) != k
    ensures WithKey(s, k) == []
    decreases |s|
  {
    if |s| > 0 {
      WithKeyNone(s[1..], k);
    }
  }

  /** When the first bind of a sorted list ranks strictly below x, none of its binds shares x's key. */
  lemma RankedBelow(x: GuildBind, s: seq<GuildBind>)
    requires Sorted(s) && |s| > 0 && !AtLeast(Key(s[0]), Key(x))
    ensures forall i :: 0 <= i < |s| ==> Key(s[i]) != Key(x)
  {
    forall i | 0 < i < |s| ensures Key(s[i]) != Key(x) {
      assert AtLeast(Key(s[0]), Key(s[i]));
    }
  }

  /** Inserting x adds it after the binds of its own key: the binds after it rank strictly lower. */
  lemma {:induction false} InsertWithKey(x: GuildBind, s: seq<GuildBind>, k: Option<int>)
    requires Sorted(s)
    ensures WithKey(Insert(x, s), k) == WithKey(s, k) + (if Key(x) == k then [x] else [])
    decreases |s|
  {
    if |s| == 0 {
    } else if !AtLeast(Key(s[0]), Key(x)) {
      assert ([x] + s)[1..] == s;
      if Key(x) == k {
        RankedBelow(x, s);
        WithKeyNone(s, k);
      }
    } else {
      assert ([s[0]] + Insert(x, s[1..]))[1..] == Insert(x, s[1..]);
      InsertWithKey(x, s[1..], k);
    }
  }

  /** The order get_nickname_template puts the candidates in: a permutation of them, sorted with
      the binds without a highest role first and the rest by position, highest first, and stable:
      the binds of each key keep their relative order. */
  lemma {:induction false} SortByPriorityCorrect(bs: seq<GuildBind>)
    ensures multiset(SortByPriority(bs)) == multiset(bs)
    ensures Sorted(SortByPriority(bs))
    ensures forall k :: WithKey(SortByPriority(bs), k) == WithKey(bs, k)
    decreases |bs|
  {
    if |bs| > 0 {
      var init, x := bs[..|bs| - 1], bs[|bs| - 1];
      assert bs == init + [x];
      SortByPriorityCorrect(init);
      InsertSorted(x, SortByPriority(init));
      InsertPermutes(x, SortByPriority(init));
      forall k ensures WithKey(SortByPriority(bs), k) == WithKey(bs, k) {
        InsertWithKey(x, SortByPriority(init), k);
        WithKeyAppend(init, [x], k);
      }
    }
  }

  /** Where Insert puts x when every bind before index j ranks at least as high as x and the one
      at j does not. */
  lemma {:induction false} InsertAt(x: GuildBind, s: seq<GuildBind>, j: nat)
    requires j <= |s|
    requires forall m :: 0 <= m < j ==> AtLeast(Key(s[m]), Key(x))
    requires j < |s| ==> !AtLeast(Key(s[j]), Key(x))
    ensures Insert(x, s) == s[..j] + [x] + s[j..]
    decreases j
  {
    if j > 0 {
      InsertAt(x, s[1..], j - 1);
      assert s[..j] == [s[0]] + s[1..][..j - 1];
      assert s[j..] == s[1..][j - 1..];
    }
  }

  /** One step of the insertion sort: the bind at index i moves below the binds before it that
      rank strictly lower, which inserts it into the sorted prefix. */
  method InsertInto(a: array<GuildBind>, i: nat)
    requires i < a.Length && Sorted(a[..i])
    modifies a
    ensures a[..i + 1] == Insert(old(a[i]), old(a[..i]))
    ensures a[i + 1..] == old(a[i + 1..])
  {
    ghost var sorted := a[..i];
    var x := a[i];
    var j := i;
    while j > 0 && !AtLeast(Key(a[j - 1]), Key(x))
      invariant 0 <= j <= i
      invariant a[..j] == sorted[..j]
      invariant a[j + 1..i + 1] == sorted[j..]
      invariant a[i + 1..] == old(a[i + 1..])
      invariant forall m :: j <= m < i ==> !AtLeast(Key(sorted[m]), Key(x))
    {
      a[j] := a[j - 1];
      j := j - 1;
    }
    a[j] := x;
    InsertAtGap(x, sorted, j);
    Spliced(sorted, a[..], j, x);
  }

  /** In a sorted list, the binds before a gap whose left neighbour ranks at least as high as x
      all do. */
  lemma InsertAtGap(x: GuildBind, s: seq<GuildBind>, j: nat)
    requires Sorted(s) && j <= |s|
    requires j > 0 ==> AtLeast(Key(s[j - 1]), Key(x))
    requires j < |s| ==> !AtLeast(Key(s[j]), Key(x))
    ensures Insert(x, s) == s[..j] + [x] + s[j..]
  {
    forall m | 0 <= m < j ensures AtLeast(Key(s[m]), Key(x)) {
      assert AtLeast(Key(s[m]), Key(s[j - 1]));
    }
    InsertAt(x, s, j);
  }

  /** A list that agrees with s before j, holds x at j and holds the rest of s after it. */
  lemma Spliced<T>(s: seq<T>, t: seq<T>, j: nat, x: T)
    requires j <= |s| < |t|
    requires t[..j] == s[..j] && t[j] == x && t[j + 1..|s| + 1] == s[j..]
    ensures t[..|s| + 1] == s[..j] + [x] + s[j..]
  {
    assert t[..|s| + 1] == t[..j] + [t[j]] + t[j + 1..|s| + 1];
  }

  /** The in-place sort: an insertion sort, which keeps binds of equal key in their order. */
  method SortPotentialBinds(a: array<GuildBind>)
    modifies a
    ensures a[..] == SortByPriority(old(a[..]))
  {
    var i := 0;
    while i < a.Length
      invariant 0 <= i <= a.Length
      invariant a[..i] == SortByPriority(old(a[..])[..i])
      invariant a[i..] == old(a[..])[i..]
    {
      SortByPriorityCorrect(old(a[..])[..i]);
      assert old(a[..])[..i + 1][..i] == old(a[..])[..i];
      InsertInto(a, i);
      i := i + 1;
    }
    assert old(a[..])[..i] == old(a[..]);
  }

  /** The template a sorted candidate list selects: the first bind's nickname when it is non-empty,
      else the guild's template; the first bind is returned with it. */
  function NicknameTemplate(sorted: seq<GuildBind>, guildTemplate: string): (string, Option<GuildBind>) {
    if |sorted| > 0 && TruthyStr(sorted[0].nickname) then (sorted[0].nickname.value, Some(sorted[0]))
    else (guildTemplate, if |sorted| > 0 then Some(sorted[0]) else None)
  }

  /** get_nickname_template(guild, potential_binds): the candidates are sorted in place, then the
      first one chooses the template. */
  method GetNicknameTemplate(potentialBinds: array<GuildBind>, guildTemplate: string)
    returns (template: string, chosen: Option<GuildBind>)
    modifies potentialBinds
    ensures potentialBinds[..] == SortByPriority(old(potentialBinds[..]))
    ensures (template, chosen) == NicknameTemplate(SortByPriority(old(potentialBinds[..])), guildTemplate)
  {
    SortPotentialBinds(potentialBinds);
    if potentialBinds.Length > 0 && TruthyStr(potentialBinds[0].nickname) {
      template, chosen := potentialBinds[0].nickname.value, Some(potentialBinds[0]);
    } else {
      template := guildTemplate;
      chosen := if potentialBinds.Length > 0 then Some(potentialBinds[0]) else None;
    }
  }

  /** The chosen bind is one of the candidates and ranks at least as high as every candidate: a
      bind without a highest role is chosen whenever there is one, otherwise one of the highest
      position; among binds of that key it is the earliest candidate. Without candidates the guild's
      template applies. */
  lemma {:induction false} ChosenBindRanksHighest(bs: seq<GuildBind>, guildTemplate: string)
    ensures |bs| == 0 <==> NicknameTemplate(SortByPriority(bs), guildTemplate) == (guildTemplate, None)
    ensures |bs| > 0 ==> NicknameTemplate(SortByPriority(bs), guildTemplate).1.Some?
    ensures |bs| > 0 ==> var c := NicknameTemplate(SortByPriority(bs), guildTemplate).1.value;
              && c in bs
              && (forall i :: 0 <= i < |bs| ==> AtLeast(Key(c), Key(bs[i])))
              && |WithKey(bs, Key(c))| > 0 && c == WithKey(bs, Key(c))[0]
  {
    SortByPriorityCorrect(bs);
    var r := SortByPriority(bs);
    if |bs| > 0 {
      assert |r| > 0 by { assert |multiset(r)| == |bs|; }
      assert r[0] in multiset(bs);
      forall i | 0 <= i < |bs| ensures AtLeast(Key(r[0]), Key(bs[i])) {
        assert bs[i] in multiset(r);
        var j :| 0 <= j < |r| && r[j] == bs[i];
      }
      assert WithKey(r, Key(r[0])) == [r[0]] + WithKey(r[1..], Key(r[0]));
      assert WithKey(r, Key(r[0])) == WithKey(bs, Key(r[0]));
    } else {
      assert r == [];
    }
  }
}

=== FILE: repository.dfy ===
/** get_binds and migrate_old_binds (bloxlink_lib/models/binds.py): the guild's binds as the bind
    engine reads them. The legacy document is migrated first; then the stored binds are loaded,
    verified and unverified binds are synthesised from role names when the guild has no verified
    bind, and the list is filtered by category and id. The database is a map from guild id to the
    stored document; a fetch builds a GuildData from the requested fields only, every other field
    taking its declared default, and an update overwrites the fields it names. */
module Repository {
  import opened Wrappers
  import opened Exceptions
  import opened Text
  import opened Utils
  import opened Binds
  import opened Conversions
  import opened Guilds
  import opened Migration

  // ---------------------------------------------------------------------------------------------
  // Extending the bind list with the migrated binds, skipping those already present
  // ---------------------------------------------------------------------------------------------

  /** binds.extend(b for b in incoming if b not in binds): the generator is consumed while the list
      grows, so a bind equal to one appended earlier in the same batch is skipped too. */
  function MergeNew(existing: seq<GuildBind>, incoming: seq<GuildBind>): seq<GuildBind>
    decreases |incoming|
  {
    if |incoming| == 0 then existing
    else MergeNew(if ContainsBind(existing, incoming[0]) then existing else existing + [incoming[0]], incoming[1..])
  }

  /** The existing binds stay an unchanged prefix, and each appended bind is an incoming one that
      equals none of the binds before it. */
  lemma {:induction false} MergeNewAppendsOnlyNew(existing: seq<GuildBind>, incoming: seq<GuildBind>)
    ensures |existing| <= |MergeNew(existing, incoming)|
    ensures MergeNew(existing, incoming)[..|existing|] == existing
    ensures forall k :: |existing| <= k < |MergeNew(existing, incoming)| ==>
              MergeNew(existing, incoming)[k] in incoming &&
              !ContainsBind(MergeNew(existing, incoming)[..k], MergeNew(existing, incoming)[k])
    decreases |incoming|
  {
    if |incoming| > 0 {
      var b := incoming[0];
      var next := if ContainsBind(existing, b) then existing else existing + [b];
      MergeNewAppendsOnlyNew(next, incoming[1..]);
      var r := MergeNew(existing, incoming);
      assert r == MergeNew(next, incoming[1..]);
      assert r[..|next|] == next;
      assert r[..|existing|] == next[..|existing|];
      forall k | |existing| <= k < |r|
        ensures r[k] in incoming && !ContainsBind(r[..k], r[k])
      {
        if k < |next| {
          assert next == existing + [b] && k == |existing|;
          assert r[..k] == existing;
        } else {
          assert r[k] in incoming[1..];
        }
      }
    }
  }

  /** Every incoming bind is present afterwards (itself, or a bind equal to it). */
  lemma {:induction false} MergeNewCovers(existing: seq<GuildBind>, incoming: seq<GuildBind>)
    ensures forall b :: b in existing ==> b in MergeNew(existing, incoming)
    ensures forall b :: b in incoming ==> ContainsBind(MergeNew(existing, incoming), b)
    decreases |incoming|
  {
    if |incoming| > 0 {
      var b := incoming[0];
      var next := if ContainsBind(existing, b) then existing else existing + [b];
      MergeNewCovers(next, incoming[1..]);
      var r := MergeNew(existing, incoming);
      assert ContainsBind(next, b) by {
        if !ContainsBind(existing, b) {
          assert SameBind(next[|existing|], b);
        }
      }
      forall c | c in incoming
        ensures ContainsBind(r, c)
      {
        if c != b {
          assert c in incoming[1..];
        } else {
          var i :| 0 <= i < |next| && SameBind(next[i], b);
          assert next[i] in next;
        }
      }
    }
  }

  /** When every incoming bind is already present the list is left as it is. */
  lemma {:induction false} MergeNewNothingNew(existing: seq<GuildBind>, incoming: seq<GuildBind>)
    requires forall b :: b in incoming ==> ContainsBind(existing, b)
    ensures MergeNew(existing, incoming) == existing
    decreases |incoming|
  {
    if |incoming| > 0 {
      assert incoming[0] in incoming;
      MergeNewNothingNew(existing, incoming[1..]);
    }
  }

  /** Merging the same batch a second time adds nothing. */
  lemma MergeNewIdempotent(existing: seq<GuildBind>, incoming: seq<GuildBind>)
    ensures MergeNew(MergeNew(existing, incoming), incoming) == MergeNew(existing, incoming)
  {
    MergeNewCovers(existing, incoming);
    MergeNewNothingNew(MergeNew(existing, incoming), incoming);
  }

  /** The extend loop, in place on the loaded guild's list. */
  method MergeInto(g: GuildData, incoming: seq<GuildBind>)
    modifies g
    ensures g.binds == MergeNew(old(g.binds), incoming)
    ensures g.verifiedRole == old(g.verifiedRole) && g.unverifiedRole == old(g.unverifiedRole)
    ensures g.roleBinds == old(g.roleBinds) && g.groupIDs == old(g.groupIDs)
    ensures g.convertedBinds == old(g.convertedBinds)
  {
    var i := 0;
    while i < |incoming|
      invariant 0 <= i <= |incoming|
      invariant MergeNew(g.binds, incoming[i..]) == MergeNew(old(g.binds), incoming)
      invariant g.verifiedRole == old(g.verifiedRole) && g.unverifiedRole == old(g.unverifiedRole)
      invariant g.roleBinds == old(g.roleBinds) && g.groupIDs == old(g.groupIDs)
      invariant g.convertedBinds == old(g.convertedBinds)
    {
      assert incoming[i..][1..] == incoming[i + 1..];
      if !ContainsBind(g.binds, incoming[i]) {
        g.binds := g.binds + [incoming[i]];
      }
      i := i + 1;
    }
  }

  // ---------------------------------------------------------------------------------------------
  // The verified and unverified binds synthesised from role names
  // ---------------------------------------------------------------------------------------------

  /** The bind one guild role contributes: a verified bind when verified roles are enabled and the
      role has the verified role's name, else an unverified bind when those are enabled and it has
      the unverified role's name. */
  function PolyfillFor(role: Role, verifiedEnabled: bool, verifiedName: Option<string>,
                       unverifiedEnabled: bool, unverifiedName: Option<string>): (bs: seq<GuildBind>)
    ensures |bs| <= 1
    ensures forall b :: b in bs ==> b.roles == [IntToString(role.id)]
    ensures (exists b :: b in bs && b.Type() == Verified) <==> verifiedEnabled && Some(role.name) == verifiedName
    ensures (exists b :: b in bs && b.Type() == Unverified) <==>
              !(verifiedEnabled && Some(role.name) == verifiedName) && unverifiedEnabled && Some(role.name) == unverifiedName
  {
    if verifiedEnabled && Some(role.name) == verifiedName then [ImplicitBind(Verified, IntToString(role.id))]
    else if unverifiedEnabled && Some(role.name) == unverifiedName then [ImplicitBind(Unverified, IntToString(role.id))]
    else []
  }

  /** The loop over guild_roles.values(): the roles' binds in the roles' order. */
  function Polyfill(roles: seq<Role>, verifiedEnabled: bool, verifiedName: Option<string>,
                    unverifiedEnabled: bool, unverifiedName: Option<string>): seq<GuildBind>
    decreases |roles|
  {
    if |roles| == 0 then []
    else Polyfill(roles[..|roles| - 1], verifiedEnabled, verifiedName, unverifiedEnabled, unverifiedName) +
         PolyfillFor(roles[|roles| - 1], verifiedEnabled, verifiedName, unverifiedEnabled, unverifiedName)
  }

  /** At most one bind per role; every synthesised bind is a verified or unverified bind on the id
      of a role bearing that category's name, with that category enabled. A disabled category
      contributes nothing, and a role whose name matches both names yields the verified bind. */
  lemma {:induction false} PolyfillShape(roles: seq<Role>, verifiedEnabled: bool, verifiedName: Option<string>,
                                         unverifiedEnabled: bool, unverifiedName: Option<string>)
    ensures |Polyfill(roles, verifiedEnabled, verifiedName, unverifiedEnabled, unverifiedName)| <= |roles|
    ensures forall b :: b in Polyfill(roles, verifiedEnabled, verifiedName, unverifiedEnabled, unverifiedName) ==>
              exists r :: r in roles && b.roles == [IntToString(r.id)] &&
                          ((b.Type() == Verified && verifiedEnabled && Some(r.name) == verifiedName) ||
                           (b.Type() == Unverified && unverifiedEnabled && Some(r.name) == unverifiedName &&
                            !(verifiedEnabled && Some(r.name) == verifiedName)))
    decreases |roles|
  {
    if |roles| > 0 {
      var init := roles[..|roles| - 1];
      var last := roles[|roles| - 1];
      PolyfillShape(init, verifiedEnabled, verifiedName, unverifiedEnabled, unverifiedName);
      var bs := PolyfillFor(last, verifiedEnabled, verifiedName, unverifiedEnabled, unverifiedName);
      forall b | b in Polyfill(roles, verifiedEnabled, verifiedName, unverifiedEnabled, unverifiedName)
        ensures exists r :: r in roles && b.roles == [IntToString(r.id)] &&
                            ((b.Type() == Verified && verifiedEnabled && Some(r.name) == verifiedName) ||
                             (b.Type() == Unverified && unverifiedEnabled && Some(r.name) == unverifiedName &&
                              !(verifiedEnabled && Some(r.name) == verifiedName)))
      {
        if b in bs {
          assert last in roles;
          assert b.Type() == Verified || b.Type() == Unverified;
        } else {
          var r :| r in init && b.roles == [IntToString(r.id)] &&
                   ((b.Type() == Verified && verifiedEnabled && Some(r.name) == verifiedName) ||
                    (b.Type() == Unverified && unverifiedEnabled && Some(r.name) == unverifiedName &&
                     !(verifiedEnabled && Some(r.name) == verifiedName)));
          assert r in roles;
        }
      }
    }
  }

  /** Each role bearing the verified role's name yields a verified bind on its id, when verified
      roles are enabled. */
  lemma {:induction false} PolyfillComplete(roles: seq<Role>, verifiedEnabled: bool, verifiedName: Option<string>,
                                            unverifiedEnabled: bool, unverifiedName: Option<string>, i: nat)
    requires i < |roles| && verifiedEnabled && Some(roles[i].name) == verifiedName
    ensures ImplicitBind(Verified, IntToString(roles[i].id)) in
              Polyfill(roles, verifiedEnabled, verifiedName, unverifiedEnabled, unverifiedName)
    decreases |roles|
  {
    if i < |roles| - 1 {
      var init := roles[..|roles| - 1];
      assert init[i] == roles[i];
      PolyfillComplete(init, verifiedEnabled, verifiedName, unverifiedEnabled, unverifiedName, i);
    }
  }

  /** True when a bind of the verified category is present. */
  predicate HasVerifiedBind(binds: seq<GuildBind>) {
    exists i :: 0 <= i < |binds| && binds[i].Type() == Verified
  }

  /** The polyfill loop, appending to the loaded guild's list in place. */
  method PolyfillInto(g: GuildData, roles: seq<Role>, verifiedEnabled: bool, verifiedName: Option<string>,
                      unverifiedEnabled: bool, unverifiedName: Option<string>)
    modifies g
    ensures g.binds == old(g.binds) + Polyfill(roles, verifiedEnabled, verifiedName, unverifiedEnabled, unverifiedName)
  {
    var i := 0;
    while i < |roles|
      invariant 0 <= i <= |roles|
      invariant g.binds == old(g.binds) + Polyfill(roles[..i], verifiedEnabled, verifiedName, unverifiedEnabled, unverifiedName)
    {
      var role := roles[i];
      assert roles[..i + 1][..i] == roles[..i];
      assert Polyfill(roles[..i + 1], verifiedEnabled, verifiedName, unverifiedEnabled, unverifiedName) ==
             Polyfill(roles[..i], verifiedEnabled, verifiedName, unverifiedEnabled, unverifiedName) +
             PolyfillFor(role, verifiedEnabled, verifiedName, unverifiedEnabled, unverifiedName);
      if verifiedEnabled && Some(role.name) == verifiedName {
        g.binds := g.binds + [ImplicitBind(Verified, IntToString(role.id))];
      } else if unverifiedEnabled && Some(role.name) == unverifiedName {
        g.binds := g.binds + [ImplicitBind(Unverified, IntToString(role.id))];
      }
      i := i + 1;
    }
    assert roles[..i] == roles;
  }

  // ---------------------------------------------------------------------------------------------
  // Filtering by category and id
  // ---------------------------------------------------------------------------------------------

  /** The filter's test: the category matches and, when a (truthy) id is asked for, the criteria id
      is that id. */
  predicate Selected(b: GuildBind, category: BindType, bindId: Option<int>) {
    b.Type() == category && (TruthyInt(bindId) ==> b.criteria.id == bindId)
  }

  /** The binds of the given category (and id), in their order. */
  function Keep(binds: seq<GuildBind>, category: BindType, bindId: Option<int>): seq<GuildBind>
    decreases |binds|
  {
    if |binds| == 0 then []
    else Keep(binds[..|binds| - 1], category, bindId) +
         (if Selected(binds[|binds| - 1], category, bindId) then [binds[|binds| - 1]] else [])
  }

  /** A bind is kept exactly when it is in the list and passes the test; the kept binds are no
      more than the list. */
  lemma {:induction false} KeepExactly(binds: seq<GuildBind>, category: BindType, bindId: Option<int>)
    ensures |Keep(binds, category, bindId)| <= |binds|
    ensures forall b :: b in Keep(binds, category, bindId) <==> b in binds && Selected(b, category, bindId)
    decreases |binds|
  {
    if |binds| > 0 {
      var init := binds[..|binds| - 1];
      KeepExactly(init, category, bindId);
      assert binds == init + [binds[|binds| - 1]];
    }
  }

  /** The list get_binds returns: every bind without a category (the id is then ignored), else
      the selected ones. */
  function FilterBinds(binds: seq<GuildBind>, category: Option<BindType>, bindId: Option<int>): (r: seq<GuildBind>)
    ensures category.None? ==> r == binds
    ensures category.Some? ==> forall b :: b in r <==> b in binds && Selected(b, category.value, bindId)
  {
    if category.None? then binds
    else
      KeepExactly(binds, category.value, bindId);
      Keep(binds, category.value, bindId)
  }

  // ---------------------------------------------------------------------------------------------
  // The stored guild document, fetches and updates
  // ---------------------------------------------------------------------------------------------

  /** The stored fields of a guild the bind engine reads; an absent field is at its default.
      hasBinds says whether the binds field is there at all: GuildData declares no default for
      it, so a load without it raises, while the corrected load reads it as the empty list. */
  datatype GuildDocument = GuildDocument(
    hasBinds: bool, binds: seq<GuildBind>,
    verifiedRoleEnabled: bool, verifiedRoleName: Option<string>, verifiedRole: Option<string>,
    unverifiedRoleEnabled: bool, unverifiedRoleName: Option<string>, unverifiedRole: Option<string>,
    nicknameTemplate: string,
    roleBinds: Option<seq<RoleBindSection>>, groupIDs: Option<seq<(string, LegacyEntry)>>,
    convertedBinds: bool)

  /** A guild without a stored document: no binds field, and every other field at GuildData's
      declared default. */
  const Unset: GuildDocument :=
    GuildDocument(false, [], true, Some("Verified"), None, true, Some("Unverified"), None, "{smart-name}", None, None, false)

  /** fetch_item(..., *aspects): the named fields as stored, every other one at its default. */
  function Projected(doc: GuildDocument, aspects: seq<string>): GuildDocument {
    GuildDocument(
      "binds" in aspects && doc.hasBinds,
      if "binds" in aspects then doc.binds else Unset.binds,
      if "verifiedRoleEnabled" in aspects then doc.verifiedRoleEnabled else Unset.verifiedRoleEnabled,
      if "verifiedRoleName" in aspects then doc.verifiedRoleName else Unset.verifiedRoleName,
      if "verifiedRole" in aspects then doc.verifiedRole else Unset.verifiedRole,
      if "unverifiedRoleEnabled" in aspects then doc.unverifiedRoleEnabled else Unset.unverifiedRoleEnabled,
      if "unverifiedRoleName" in aspects then doc.unverifiedRoleName else Unset.unverifiedRoleName,
      if "unverifiedRole" in aspects then doc.unverifiedRole else Unset.unverifiedRole,
      if "nicknameTemplate" in aspects then doc.nicknameTemplate else Unset.nicknameTemplate,
      if "roleBinds" in aspects then doc.roleBinds else Unset.roleBinds,
      if "groupIDs" in aspects then doc.groupIDs else Unset.groupIDs,
      if "converted_binds" in aspects then doc.convertedBinds else Unset.convertedBinds)
  }

  /** The fields migrate_old_binds fetches. */
  const MigrateAspects: seq<string> := ["binds", "roleBinds", "groupIDs", "converted_binds"]

  /** The fetch migrate_old_binds makes reads the stored binds and legacy fields, and no role, so
      the loaded binds are exactly the stored ones. */
  lemma MigrateFetchesWhatItReads(doc: GuildDocument)
    ensures var d := Projected(doc, MigrateAspects);
            && d.binds == doc.binds && d.roleBinds == doc.roleBinds && d.groupIDs == doc.groupIDs
            && d.convertedBinds == doc.convertedBinds
            && d.binds + ImplicitBinds(d.verifiedRole, d.unverifiedRole) == doc.binds
  {
    assert doc.binds + [] == doc.binds;
  }

  /** The fields get_binds fetches as written: "unverifiedRoleEnabled" twice, "verifiedRoleEnabled"
      never. */
  const GetBindsAspectsAsWritten: seq<string> :=
    ["binds", "verifiedRole", "unverifiedRole", "verifiedRoleName", "unverifiedRoleName",
     "unverifiedRoleEnabled", "unverifiedRoleEnabled"]

  /** The fields get_binds evidently means to fetch: both enable flags. */
  const GetBindsAspects: seq<string> :=
    ["binds", "verifiedRole", "unverifiedRole", "verifiedRoleName", "unverifiedRoleName",
     "verifiedRoleEnabled", "unverifiedRoleEnabled"]

  /** The fetch get_binds makes reads every field the polyfill and the filter use as stored. */
  lemma GetBindsFetchesWhatItReads(doc: GuildDocument)
    ensures var d := Projected(doc, GetBindsAspects);
            && d.binds == doc.binds
            && d.verifiedRoleEnabled == doc.verifiedRoleEnabled && d.unverifiedRoleEnabled == doc.unverifiedRoleEnabled
            && d.verifiedRoleName == doc.verifiedRoleName && d.unverifiedRoleName == doc.unverifiedRoleName
            && d.verifiedRole == doc.verifiedRole && d.unverifiedRole == doc.unverifiedRole
  {
  }

  /** As written, the fetch leaves verifiedRoleEnabled at its default: a guild that disabled its
      verified role is read as having it enabled. */
  lemma VerifiedRoleEnabledNotFetched(doc: GuildDocument)
    ensures Projected(doc, GetBindsAspectsAsWritten).verifiedRoleEnabled
    ensures Projected(doc, GetBindsAspectsAsWritten) == Projected(doc, GetBindsAspects).(verifiedRoleEnabled := true)
  {
  }

  /** The binds get_binds works on once the guild is loaded: the stored binds, the post-init's
      binds for a set verified or unverified role, and, when there are guild roles, one of the
      enable flags is set, no verified bind exists and one of the role names is truthy, the binds
      synthesised from the roles' names. */
  function Listing(d: GuildDocument, guildRoles: seq<Role>): seq<GuildBind> {
    var loaded := d.binds + ImplicitBinds(d.verifiedRole, d.unverifiedRole);
    if |guildRoles| > 0 && (d.unverifiedRoleEnabled || d.verifiedRoleEnabled) && !HasVerifiedBind(loaded) &&
       (TruthyStr(d.verifiedRoleName) || TruthyStr(d.unverifiedRoleName))
    then loaded + Polyfill(guildRoles, d.verifiedRoleEnabled, d.verifiedRoleName, d.unverifiedRoleEnabled, d.unverifiedRoleName)
    else loaded
  }

  /** The listing keeps the loaded binds as a prefix and adds verified binds only for roles named
      like the verified role, and only while no verified bind exists and verified roles are
      enabled. */
  lemma ListingShape(d: GuildDocument, guildRoles: seq<Role>)
    ensures |Listing(d, guildRoles)| >= |d.binds + ImplicitBinds(d.verifiedRole, d.unverifiedRole)|
    ensures Listing(d, guildRoles)[..|d.binds + ImplicitBinds(d.verifiedRole, d.unverifiedRole)|] ==
              d.binds + ImplicitBinds(d.verifiedRole, d.unverifiedRole)
    ensures |guildRoles| == 0 ==> Listing(d, guildRoles) == d.binds + ImplicitBinds(d.verifiedRole, d.unverifiedRole)
    ensures HasVerifiedBind(d.binds + ImplicitBinds(d.verifiedRole, d.unverifiedRole)) ==>
              Listing(d, guildRoles) == d.binds + ImplicitBinds(d.verifiedRole, d.unverifiedRole)
    ensures forall k :: |d.binds + ImplicitBinds(d.verifiedRole, d.unverifiedRole)| <= k < |Listing(d, guildRoles)| ==>
              (Listing(d, guildRoles)[k].Type() == Verified ==> d.verifiedRoleEnabled) &&
              (Listing(d, guildRoles)[k].Type() == Unverified ==> d.unverifiedRoleEnabled) &&
              Listing(d, guildRoles)[k].Type() in {Verified, Unverified}
  {
    var loaded := d.binds + ImplicitBinds(d.verifiedRole, d.unverifiedRole);
    var extra := Polyfill(guildRoles, d.verifiedRoleEnabled, d.verifiedRoleName, d.unverifiedRoleEnabled, d.unverifiedRoleName);
    PolyfillShape(guildRoles, d.verifiedRoleEnabled, d.verifiedRoleName, d.unverifiedRoleEnabled, d.unverifiedRoleName);
    forall k | |loaded| <= k < |Listing(d, guildRoles)|
      ensures (Listing(d, guildRoles)[k].Type() == Verified ==> d.verifiedRoleEnabled) &&
              (Listing(d, guildRoles)[k].Type() == Unverified ==> d.unverifiedRoleEnabled) &&
              Listing(d, guildRoles)[k].Type() in {Verified, Unverified}
    {
      assert Listing(d, guildRoles) == loaded + extra;
      assert Listing(d, guildRoles)[k] == extra[k - |loaded|];
      assert extra[k - |loaded|] in extra;
    }
  }

  /** A guild whose verified role is disabled, with a role named "Verified": as written the listing
      gains a verified bind for it; with the flag fetched it gains none. */
  lemma DisabledVerifiedRoleStillSynthesised(roleId: int)
    ensures var doc := Unset.(verifiedRoleEnabled := false);
            var roles := [Role(roleId, "Verified", 1)];
            && Listing(Projected(doc, GetBindsAspectsAsWritten), roles) == [ImplicitBind(Verified, IntToString(roleId))]
            && Listing(Projected(doc, GetBindsAspects), roles) == []
  {
    var doc := Unset.(verifiedRoleEnabled := false);
    var roles := [Role(roleId, "Verified", 1)];
    assert roles[..0] == [];
    assert Projected(doc, GetBindsAspectsAsWritten) == Unset;
    assert Projected(doc, GetBindsAspects) == doc;
    assert ImplicitBinds(None, None) == [];
    assert Polyfill(roles, true, Some("Verified"), true, Some("Unverified")) ==
           [ImplicitBind(Verified, IntToString(roleId))];
    assert Polyfill(roles, false, Some("Verified"), true, Some("Unverified")) == [];
  }

  /** POP_OLD_BINDS: whether a converted guild's legacy fields are dropped. */
  const PopOldBinds: bool := false

  /** What migrate_old_binds does to a stored document: Success(None) when it writes nothing,
      Success(Some(d)) when it leaves d stored, and the converter's error when one raises (nothing
      is written then). A converted guild drops its legacy fields when popOldBinds is set (unsetting
      converted_binds returns it to its default, False) and is left alone otherwise; a guild without
      legacy binds is left alone; otherwise the migrated binds not already present are appended, the
      binds field is written and the guild is marked converted, unless the migration produced no
      binds at all. The fetch is the corrected one: a guild without a binds field is migrated. */
  function MigrationOutcome(doc: GuildDocument, popOldBinds: bool): Result<Option<GuildDocument>, Error> {
    if popOldBinds && doc.convertedBinds then
      Success(Some(doc.(groupIDs := None, roleBinds := None, convertedBinds := false)))
    else if doc.convertedBinds then Success(None)
    else if |doc.groupIDs.GetOr([])| == 0 && |doc.roleBinds.GetOr([])| == 0 then Success(None)
    else
      var migrated :- Migrated(doc.groupIDs.GetOr([]), doc.roleBinds.GetOr([]));
      if |migrated| == 0 then Success(None)
      else Success(Some(doc.(hasBinds := true, binds := MergeNew(doc.binds, migrated), convertedBinds := true)))
  }

  /** The stored documents once a migration outcome is written: a failed or empty outcome writes
      nothing. */
  function Stored(guilds: map<int, GuildDocument>, id: int, outcome: Result<Option<GuildDocument>, Error>)
    : (r: map<int, GuildDocument>)
    ensures outcome.Success? && outcome.value.Some? ==> r == guilds[id := outcome.value.value]
    ensures !(outcome.Success? && outcome.value.Some?) ==> r == guilds
  {
    if outcome.Success? && outcome.value.Some? then guilds[id := outcome.value.value] else guilds
  }

  /** A converted guild is not migrated again, a guild with no legacy binds is left as it is, and
      a converter's error is the outcome's error. */
  lemma MigrationSkips(doc: GuildDocument, popOldBinds: bool)
    ensures !popOldBinds && doc.convertedBinds ==> MigrationOutcome(doc, popOldBinds) == Success(None)
    ensures !doc.convertedBinds && |doc.groupIDs.GetOr([])| == 0 && |doc.roleBinds.GetOr([])| == 0 ==>
              MigrationOutcome(doc, popOldBinds) == Success(None)
    ensures MigrationOutcome(doc, popOldBinds).Failure? <==>
              !doc.convertedBinds && Migrated(doc.groupIDs.GetOr([]), doc.roleBinds.GetOr([])).Failure? &&
              (|doc.groupIDs.GetOr([])| > 0 || |doc.roleBinds.GetOr([])| > 0)
  {
  }

  /** A migration keeps the stored binds as an unchanged prefix, appends only migrated binds that
      equal none before them, leaves every migrated bind present, keeps the legacy fields and marks
      the guild converted. */
  lemma MigrationAppendsOnlyNew(doc: GuildDocument, popOldBinds: bool)
    requires !doc.convertedBinds
    requires MigrationOutcome(doc, popOldBinds).Success? && MigrationOutcome(doc, popOldBinds).value.Some?
    ensures var d := MigrationOutcome(doc, popOldBinds).value.value;
            var migrated := Migrated(doc.groupIDs.GetOr([]), doc.roleBinds.GetOr([])).value;
            && d.convertedBinds && d.groupIDs == doc.groupIDs && d.roleBinds == doc.roleBinds
            && d == doc.(hasBinds := true, binds := d.binds, convertedBinds := true)
            && |doc.binds| <= |d.binds| && d.binds[..|doc.binds|] == doc.binds
            && (forall k :: |doc.binds| <= k < |d.binds| ==> d.binds[k] in migrated && !ContainsBind(d.binds[..k], d.binds[k]))
            && (forall b :: b in migrated ==> ContainsBind(d.binds, b))
  {
    var migrated := Migrated(doc.groupIDs.GetOr([]), doc.roleBinds.GetOr([])).value;
    MergeNewAppendsOnlyNew(doc.binds, migrated);
    MergeNewCovers(doc.binds, migrated);
  }

  /** Running the conversion again on its own result, with the converted flag cleared, stores
      the same document: the second batch finds every migrated bind already present. */
  lemma MigrationRerunIsStable(doc: GuildDocument, d: GuildDocument)
    requires MigrationOutcome(doc, false) == Success(Some(d))
    ensures MigrationOutcome(d, false) == Success(None)
    ensures MigrationOutcome(d.(convertedBinds := false), false) == Success(Some(d))
  {
    var migrated := Migrated(doc.groupIDs.GetOr([]), doc.roleBinds.GetOr([])).value;
    MergeNewIdempotent(doc.binds, migrated);
  }

  /** Once the legacy fields are dropped there is nothing left to migrate: the stored binds stay
      as they are from then on. */
  lemma PopThenNothingToMigrate(doc: GuildDocument)
    requires doc.convertedBinds
    ensures MigrationOutcome(doc, true).Success? && MigrationOutcome(doc, true).value.Some?
    ensures var d := MigrationOutcome(doc, true).value.value;
            && d.binds == doc.binds && d.groupIDs.None? && d.roleBinds.None?
            && MigrationOutcome(d, false) == Success(None)
            && MigrationOutcome(d, true) == Success(None)
  {
  }

  /** The TypeError GuildData(**fields) raises when the fields lack binds. */
  const MissingBindsMessage: string := "GuildData.__init__() missing 1 required positional argument: 'binds'"

  /** The field get_nickname_template fetches. */
  const NicknameAspects: seq<string> := ["nicknameTemplate"]

  /** A loaded guild holds the fetched fields, with the post-init's binds after the stored ones. */
  predicate Loaded(g: GuildData, id: int, d: GuildDocument)
    reads g
  {
    && g.id == id
    && g.binds == d.binds + ImplicitBinds(d.verifiedRole, d.unverifiedRole)
    && g.verifiedRoleEnabled == d.verifiedRoleEnabled && g.verifiedRoleName == d.verifiedRoleName
    && g.verifiedRole == d.verifiedRole
    && g.unverifiedRoleEnabled == d.unverifiedRoleEnabled && g.unverifiedRoleName == d.unverifiedRoleName
    && g.unverifiedRole == d.unverifiedRole
    && g.nicknameTemplate == d.nicknameTemplate
    && g.roleBinds == d.roleBinds && g.groupIDs == d.groupIDs && g.convertedBinds == d.convertedBinds
  }

  /** Which fetches hold binds, and so load as written: never the one get_nickname_template makes,
      which names only the template; those of migrate_old_binds and get_binds exactly when the guild
      stores a binds field, which a guild without a document does not. */
  lemma FetchHoldsBinds(doc: GuildDocument)
    ensures !Projected(doc, NicknameAspects).hasBinds
    ensures Projected(doc, MigrateAspects).hasBinds == doc.hasBinds
    ensures Projected(doc, GetBindsAspectsAsWritten).hasBinds == doc.hasBinds
    ensures Projected(doc, GetBindsAspects).hasBinds == doc.hasBinds
    ensures !Unset.hasBinds
  {
  }

  /** A migration that writes binds stores the binds field; dropping the legacy fields leaves it as
      it was. */
  lemma MigrationStoresBinds(doc: GuildDocument, popOldBinds: bool)
    requires MigrationOutcome(doc, popOldBinds).Success? && MigrationOutcome(doc, popOldBinds).value.Some?
    ensures popOldBinds && doc.convertedBinds ==> MigrationOutcome(doc, popOldBinds).value.value.hasBinds == doc.hasBinds
    ensures !(popOldBinds && doc.convertedBinds) ==> MigrationOutcome(doc, popOldBinds).value.value.hasBinds
  {
  }

  /** The database: the stored document of each guild. */
  class Database {
    var guilds: map<int, GuildDocument>

    constructor (guilds: map<int, GuildDocument>)
      ensures this.guilds == guilds
    {
      this.guilds := guilds;
    }

    /** The stored document of a guild, or the defaults when there is none. */
    function Document(id: int): (d: GuildDocument)
      reads this
      ensures id !in guilds ==> d == Unset
      ensures id in guilds ==> d == guilds[id]
    {
      if id in guilds then guilds[id] else Unset
    }

    /** fetch_guild_data(id, *aspects), corrected: GuildData(**fields) from the named fields only,
        with binds read as the empty list when the fields lack it. */
    method FetchGuildData(id: int, aspects: seq<string>) returns (g: GuildData)
      ensures fresh(g)
      ensures Loaded(g, id, Projected(Document(id), aspects))
    {
      var d := Projected(Document(id), aspects);
      g := new GuildData(id, d.binds, d.verifiedRoleEnabled, d.verifiedRoleName, d.verifiedRole,
                         d.unverifiedRoleEnabled, d.unverifiedRoleName, d.unverifiedRole, d.nicknameTemplate,
                         d.roleBinds, d.groupIDs, d.convertedBinds);
    }

    /** fetch_guild_data(id, *aspects) as written: binds has no default, so the constructor raises
        TypeError whenever the fetched fields lack it; otherwise the guild is loaded as above. */
    method FetchGuildDataAsWritten(id: int, aspects: seq<string>) returns (r: Result<GuildData, Error>)
      ensures r.Failure? <==> !Projected(Document(id), aspects).hasBinds
      ensures r.Failure? ==> r.error == TypeError(MissingBindsMessage)
      ensures r.Success? ==> fresh(r.value) && Loaded(r.value, id, Projected(Document(id), aspects))
    {
      if !Projected(Document(id), aspects).hasBinds {
        return Failure(TypeError(MissingBindsMessage));
      }
      var g := FetchGuildData(id, aspects);
      return Success(g);
    }

    /** migrate_old_binds(id): the fetch of the four fields it reads, the branches of
        MigrationOutcome, the conversion loops, the extend, and the update. */
    method MigrateOldBinds(id: int, popOldBinds: bool) returns (r: Result<(), Error>)
      modifies this
      ensures MigrationOutcome(old(Document(id)), popOldBinds).Failure? ==>
                r == Failure(MigrationOutcome(old(Document(id)), popOldBinds).error)
      ensures MigrationOutcome(old(Document(id)), popOldBinds).Success? ==> r == Success(())
      ensures guilds == Stored(old(guilds), id, MigrationOutcome(old(Document(id)), popOldBinds))
    {
      var stored := Document(id);
      var g := FetchGuildData(id, MigrateAspects);
      MigrateFetchesWhatItReads(stored);
      // What is written back, if anything; a converter's error writes nothing.
      var outcome: Result<Option<GuildDocument>, Error> := Success(None);
      if popOldBinds && g.convertedBinds {
        outcome := Success(Some(stored.(groupIDs := None, roleBinds := None, convertedBinds := false)));
      } else if !g.convertedBinds && (|g.groupIDs.GetOr([])| > 0 || |g.roleBinds.GetOr([])| > 0) {
        var migrated := CollectMigrated(g.groupIDs.GetOr([]), g.roleBinds.GetOr([]));
        if migrated.Failure? {
          outcome := Failure(migrated.error);
        } else if |migrated.value| > 0 {
          MergeInto(g, migrated.value);
          outcome := Success(Some(stored.(hasBinds := true, binds := g.binds, convertedBinds := true)));
        }
      }
      assert outcome == MigrationOutcome(stored, popOldBinds);
      if outcome.Success? && outcome.value.Some? {
        guilds := guilds[id := outcome.value.value];
      }
      r := if outcome.Failure? then Failure(outcome.error) else Success(());
    }

    /** get_binds(id, category, bindId, guildRoles): the migration first, then the listing of the
        freshly fetched guild, filtered. */
    method GetBinds(id: int, category: Option<BindType>, bindId: Option<int>, guildRoles: seq<Role>)
      returns (r: Result<seq<GuildBind>, Error>)
      modifies this
      ensures MigrationOutcome(old(Document(id)), PopOldBinds).Failure? ==>
                r == Failure(MigrationOutcome(old(Document(id)), PopOldBinds).error)
      ensures MigrationOutcome(old(Document(id)), PopOldBinds).Success? ==>
                r == Success(FilterBinds(Listing(Projected(Document(id), GetBindsAspects), guildRoles), category, bindId))
      ensures guilds == Stored(old(guilds), id, MigrationOutcome(old(Document(id)), PopOldBinds))
    {
      var m := MigrateOldBinds(id, PopOldBinds);
      if m.Failure? {
        return Failure(m.error);
      }
      var g := FetchGuildData(id, GetBindsAspects);
      if |guildRoles| > 0 && (g.unverifiedRoleEnabled || g.verifiedRoleEnabled) && !HasVerifiedBind(g.binds) {
        if TruthyStr(g.verifiedRoleName) || TruthyStr(g.unverifiedRoleName) {
          PolyfillInto(g, guildRoles, g.verifiedRoleEnabled, g.verifiedRoleName,
                       g.unverifiedRoleEnabled, g.unverifiedRoleName);
        }
      }
      return Success(FilterBinds(g.binds, category, bindId));
    }
  }
}

=== FILE: sets.dfy ===
/** CoerciveSet[T] and SnowflakeSet: a set that converts every element it is given with one
    coercion before storing it (behaviour fixed by tests/unit/test_sets.py). */
module Sets {
  import opened Wrappers
  import opened Exceptions
  import opened Text

  /** The Python values the sets are fed: ints and strs. */
  datatype PyValue = PyInt(i: int) | PyStr(s: string)

  /** int(v); None where Python raises. */
  function ToInt(v: PyValue): (r: Option<int>)
    ensures v.PyInt? ==> r == Some(v.i)
    ensures v.PyStr? ==> (r.Some? <==> IsIntLiteral(v.s))
  {
    match v
    case PyInt(i) => Some(i)
    case PyStr(s) => ParseInt(s)
  }

  /** str(v); never fails. */
  function ToStr(v: PyValue): (r: Option<string>)
    ensures r.Some?
    ensures v.PyStr? ==> r.value == v.s
    ensures v.PyInt? ==> ParseInt(r.value) == Some(v.i)
  {
    match v
    case PyInt(i) => ParseIntToString(i); Some(IntToString(i))
    case PyStr(s) => Some(s)
  }

  predicate NoDups<T(==)>(s: seq<T>) {
    forall i, j :: 0 <= i < j < |s| ==> s[i] != s[j]
  }

  function Elems<T>(s: seq<T>): set<T> {
    set x | x in s
  }

  lemma ConcatElems<T>(a: seq<T>, b: seq<T>)
    ensures Elems(a + b) == Elems(a) + Elems(b)
  {
    assert forall x :: x in a + b <==> x in a || x in b;
  }

  lemma ConcatNoDups<T>(a: seq<T>, b: seq<T>)
    requires NoDups(a) && NoDups(b) && Elems(a) !! Elems(b)
    ensures NoDups(a + b)
  {
    forall i, j | 0 <= i < j < |a + b|
      ensures (a + b)[i] != (a + b)[j]
    {
      if i < |a| && j >= |a| {
        assert (a + b)[i] in Elems(a) && (a + b)[j] in Elems(b);
      }
    }
  }

  /** s without repeats, keeping the first occurrence of each element. */
  function Dedup<T(==)>(s: seq<T>): (r: seq<T>)
    ensures NoDups(r) && Elems(r) == Elems(s)
    decreases |s|
  {
    if |s| == 0 then []
    else
      var init := Dedup(s[..|s| - 1]);
      assert Elems(s) == Elems(s[..|s| - 1]) + {s[|s| - 1]} by {
        assert s == s[..|s| - 1] + [s[|s| - 1]];
      }
      if s[|s| - 1] in init then init else init + [s[|s| - 1]]
  }

  /** The elements of s that lie in keep, in order. */
  function KeepIn<T(==)>(s: seq<T>, keep: set<T>): (r: seq<T>)
    ensures Elems(r) == Elems(s) * keep
    ensures NoDups(s) ==> NoDups(r)
    ensures forall x :: x in r ==> x in s
    decreases |s|
  {
    if |s| == 0 then []
    else
      var rest := KeepIn(s[1..], keep);
      assert s == [s[0]] + s[1..];
      ConcatElems([s[0]], s[1..]);
      if s[0] in keep then
        ConcatElems([s[0]], rest);
        assert NoDups(s) ==> s[0] !in s[1..];
        if NoDups(s) then ConcatNoDups([s[0]], rest); [s[0]] + rest else [s[0]] + rest
      else rest
  }

  /** The elements of s that lie outside drop, in order. */
  function DropIn<T(==)>(s: seq<T>, drop: set<T>): (r: seq<T>)
    ensures Elems(r) == Elems(s) - drop
    ensures NoDups(s) ==> NoDups(r)
    ensures forall x :: x in r ==> x in s
    decreases |s|
  {
    if |s| == 0 then []
    else
      var rest := DropIn(s[1..], drop);
      assert s == [s[0]] + s[1..];
      ConcatElems([s[0]], s[1..]);
      if s[0] !in drop then
        ConcatElems([s[0]], rest);
        assert NoDups(s) ==> s[0] !in s[1..];
        if NoDups(s) then ConcatNoDups([s[0]], rest); [s[0]] + rest else [s[0]] + rest
      else rest
  }

  /** Coerces every value; None as soon as one value cannot be coerced. */
  function CoerceAll<T>(coerce: PyValue -> Option<T>, vs: seq<PyValue>): (r: Option<seq<T>>)
    ensures r.Some? <==> forall i :: 0 <= i < |vs| ==> coerce(vs[i]).Some?
    ensures r.Some? ==> |r.value| == |vs| && forall i :: 0 <= i < |vs| ==> r.value[i] == coerce(vs[i]).value
    decreases |vs|
  {
    if |vs| == 0 then Some([])
    else
      match coerce(vs[0])
      case None => None
      case Some(x) =>
        match CoerceAll(coerce, vs[1..])
        case None => None
        case Some(rest) => Some([x] + rest)
  }

  /** Deduplicating a repeat-free sequence changes nothing: construction keeps the given order. */
  lemma {:induction false} DedupOfDistinct<T>(s: seq<T>)
    requires NoDups(s)
    ensures Dedup(s) == s
    decreases |s|
  {
    if |s| > 0 {
      var init := s[..|s| - 1];
      assert NoDups(init);
      DedupOfDistinct(init);
      assert s[|s| - 1] !in init;
      assert s == init + [s[|s| - 1]];
    }
  }

  /** A repeat-free sequence has as many distinct elements as entries: len() of the set. */
  lemma {:induction false} DistinctCardinality<T>(s: seq<T>)
    requires NoDups(s)
    ensures |Elems(s)| == |s|
    decreases |s|
  {
    if |s| > 0 {
      var init := s[..|s| - 1];
      assert NoDups(init);
      DistinctCardinality(init);
      assert s == init + [s[|s| - 1]];
      assert Elems(s) == Elems(init) + {s[|s| - 1]};
      assert s[|s| - 1] !in Elems(init);
    }
  }

  function MapSeq<T, U>(f: T -> U, xs: seq<T>): (ys: seq<U>)
    ensures |ys| == |xs| && forall i :: 0 <= i < |xs| ==> ys[i] == f(xs[i])
  {
    if |xs| == 0 then [] else [f(xs[0])] + MapSeq(f, xs[1..])
  }

  /** The rendering str() gives: each element shown, joined with ", ". */
  function Render<T>(show: T -> string, xs: seq<T>): string {
    Join(MapSeq(show, xs), ", ")
  }

  class CoerciveSet<T(==)> {
    /** The conversion applied to every element on the way in. */
    const coerce: PyValue -> Option<T>
    /** The stored elements, kept in insertion order. A Python set iterates in hash order, which
        agrees with insertion order for the small ints the set's own scenarios use; for other
        elements the order of iteration and str() is a modelling choice. */
    var items: seq<T>

    ghost predicate Valid()
      reads this
    {
      NoDups(items)
    }

    function Elements(): set<T>
      reads this
    {
      Elems(items)
    }

    /** CoerciveSet[T]() with no elements. */
    constructor Empty(coerce: PyValue -> Option<T>)
      ensures Valid() && this.coerce == coerce && items == []
    {
      this.coerce := coerce;
      items := [];
    }

    /** CoerciveSet[T](values): TypeError when some value cannot be coerced. */
    static method FromValues(coerce: PyValue -> Option<T>, values: seq<PyValue>)
      returns (r: Result<CoerciveSet<T>, Error>)
      ensures r.Failure? <==> exists i :: 0 <= i < |values| && coerce(values[i]).None?
      ensures r.Failure? ==> r.error.TypeError?
      ensures r.Success? ==> fresh(r.value) && r.value.Valid() && r.value.coerce == coerce
      ensures r.Success? ==> r.value.items == Dedup(CoerceAll(coerce, values).value)
    {
      var coerced := CoerceAll(coerce, values);
      if coerced.None? {
        r := Failure(TypeError("value cannot be coerced"));
      } else {
        var s := new CoerciveSet.Empty(coerce);
        s.items := Dedup(coerced.value);
        r := Success(s);
      }
    }

    /** len(self). */
    function Length(): (n: nat)
      reads this
      requires Valid()
      ensures n == |Elements()|
    {
      DistinctCardinality(items);
      |items|
    }

    /** `v in self`: v is coerced first; a value that cannot be coerced is not a member. */
    function Has(v: PyValue): (b: bool)
      reads this
      ensures b <==> coerce(v).Some? && coerce(v).value in Elements()
    {
      match coerce(v)
      case None => false
      case Some(x) => x in items
    }

    method Add(v: PyValue) returns (err: Option<Error>)
      requires Valid()
      modifies this
      ensures Valid()
      ensures err.Some? <==> coerce(v).None?
      ensures err.None? ==> Elements() == old(Elements()) + {coerce(v).value}
      ensures err.None? && coerce(v).value !in old(Elements()) ==> items == old(items) + [coerce(v).value]
      ensures err.Some? || coerce(v).value in old(Elements()) ==> items == old(items)
    {
      match coerce(v)
      case None =>
        err := Some(TypeError("value cannot be coerced"));
      case Some(x) =>
        err := None;
        if x !in items {
          items := items + [x];
        }
    }

    /** set.remove: KeyError when the coerced value is absent. */
    method Remove(v: PyValue) returns (err: Option<Error>)
      requires Valid()
      modifies this
      ensures Valid()
      ensures err.None? <==> coerce(v).Some? && coerce(v).value in old(Elements())
      ensures err.None? ==> Elements() == old(Elements()) - {coerce(v).value}
      ensures err.None? ==> items == DropIn(old(items), {coerce(v).value})
      ensures err.Some? ==> items == old(items)
    {
      match coerce(v)
      case None =>
        err := Some(TypeError("value cannot be coerced"));
      case Some(x) =>
        if x in items {
          items := DropIn(items, {x});
          err := None;
        } else {
          err := Some(KeyError("element not in set"));
        }
    }

    /** set.discard: removes the coerced value when present, never complains about absence. */
    method Discard(v: PyValue) returns (err: Option<Error>)
      requires Valid()
      modifies this
      ensures Valid()
      ensures err.Some? <==> coerce(v).None?
      ensures err.None? ==> Elements() == old(Elements()) - {coerce(v).value}
      ensures err.None? ==> items == DropIn(old(items), {coerce(v).value})
      ensures err.Some? ==> items == old(items)
    {
      match coerce(v)
      case None =>
        err := Some(TypeError("value cannot be coerced"));
      case Some(x) =>
        items := DropIn(items, {x});
        err := None;
    }

    /** set.update: every value is coerced first; the set grows only if all of them coerce. */
    method Update(vs: seq<PyValue>) returns (err: Option<Error>)
      requires Valid()
      modifies this
      ensures Valid()
      ensures err.Some? <==> CoerceAll(coerce, vs).None?
      ensures err.None? ==> Elements() == old(Elements()) + Elems(CoerceAll(coerce, vs).value)
      ensures err.None? ==> items == old(items) + DropIn(Dedup(CoerceAll(coerce, vs).value), old(Elements()))
      ensures err.Some? ==> items == old(items)
    {
      match CoerceAll(coerce, vs)
      case None =>
        err := Some(TypeError("value cannot be coerced"));
      case Some(xs) =>
        var added := DropIn(Dedup(xs), Elems(items));
        ConcatElems(items, added);
        ConcatNoDups(items, added);
        items := items + added;
        err := None;
    }

    method Intersection(other: CoerciveSet<T>) returns (r: CoerciveSet<T>)
      requires Valid()
      ensures fresh(r) && r.Valid() && r.coerce == coerce
      ensures r.Elements() == Elements() * other.Elements()
      ensures r.items == KeepIn(items, other.Elements())
    {
      r := new CoerciveSet.Empty(coerce);
      r.items := KeepIn(items, other.Elements());
    }

    method Difference(other: CoerciveSet<T>) returns (r: CoerciveSet<T>)
      requires Valid()
      ensures fresh(r) && r.Valid() && r.coerce == coerce
      ensures r.Elements() == Elements() - other.Elements()
      ensures r.items == DropIn(items, other.Elements())
    {
      r := new CoerciveSet.Empty(coerce);
      r.items := DropIn(items, other.Elements());
    }

    method SymmetricDifference(other: CoerciveSet<T>) returns (r: CoerciveSet<T>)
      requires Valid() && other.Valid()
      ensures fresh(r) && r.Valid() && r.coerce == coerce
      ensures r.Elements() == (Elements() - other.Elements()) + (other.Elements() - Elements())
      ensures r.items == DropIn(items, other.Elements()) + DropIn(other.items, Elements())
    {
      r := new CoerciveSet.Empty(coerce);
      var left, right := DropIn(items, other.Elements()), DropIn(other.items, Elements());
      ConcatElems(left, right);
      ConcatNoDups(left, right);
      r.items := left + right;
    }

    method Union(other: CoerciveSet<T>) returns (r: CoerciveSet<T>)
      requires Valid() && other.Valid()
      ensures fresh(r) && r.Valid() && r.coerce == coerce
      ensures r.Elements() == Elements() + other.Elements()
      ensures r.items == items + DropIn(other.items, Elements())
    {
      r := new CoerciveSet.Empty(coerce);
      var extra := DropIn(other.items, Elements());
      ConcatElems(items, extra);
      ConcatNoDups(items, extra);
      r.items := items + extra;
    }

    /** `self == other`: the same elements, whatever the order. */
    predicate SameElements(other: CoerciveSet<T>)
      reads this, other
    {
      Elements() == other.Elements()
    }

    /** str(self): the elements rendered by show, joined with ", " in iteration order. */
    function Str(show: T -> string): string
      reads this
    {
      Render(show, items)
    }
  }

  /** SnowflakeSet(values): the coercive set of ints. */
  method SnowflakeSet(values: seq<PyValue>) returns (r: Result<CoerciveSet<int>, Error>)
    ensures r.Failure? <==> exists i :: 0 <= i < |values| && ToInt(values[i]).None?
    ensures r.Success? ==> fresh(r.value) && r.value.Valid() && r.value.coerce == ToInt
    ensures r.Success? ==> r.value.items == Dedup(CoerceAll(ToInt, values).value)
  {
    r := CoerciveSet.FromValues(ToInt, values);
  }
}

=== FILE: sets_scenarios.dfy ===
/** The behaviour tests/unit/test_sets.py fixes for CoerciveSet[int], CoerciveSet[str] and
    SnowflakeSet, each stated as the outcome a method over the model must produce. */
module SetScenarios {
  import opened Wrappers
  import opened Text
  import opened Sets

  function Ints(xs: seq<int>): (vs: seq<PyValue>)
    ensures |vs| == |xs| && forall i :: 0 <= i < |xs| ==> vs[i] == PyInt(xs[i])
  {
    seq(|xs|, i requires 0 <= i < |xs| => PyInt(xs[i]))
  }

  /** CoerciveSet[int] over distinct ints keeps them all, in the given order. */
  method IntSet(xs: seq<int>) returns (s: CoerciveSet<int>)
    requires NoDups(xs)
    ensures fresh(s) && s.Valid() && s.coerce == ToInt && s.items == xs
  {
    var vs := Ints(xs);
    assert CoerceAll(ToInt, vs).value == xs;
    DedupOfDistinct(xs);
    var r := CoerciveSet.FromValues(ToInt, vs);
    s := r.value;
  }

  method LengthOfFive() returns (n: nat)
    ensures n == 5
  {
    var s := IntSet([1, 2, 3, 4, 5]);
    n := s.Length();
  }

  method AddNew() returns (n: nat)
    ensures n == 6
  {
    var s := IntSet([1, 2, 3, 4, 5]);
    var _ := s.Add(PyInt(6));
    n := s.Length();
  }

  method ContainsPresent() returns (b: bool)
    ensures b
  {
    var s := IntSet([1, 2, 3, 4, 5]);
    b := s.Has(PyInt(3));
  }

  method RemovePresent() returns (n: nat)
    ensures n == 4
  {
    var s := IntSet([1, 2, 3, 4, 5]);
    var _ := s.Remove(PyInt(3));
    n := s.Length();
  }

  method DiscardPresent() returns (n: nat)
    ensures n == 4
  {
    var s := IntSet([1, 2, 3, 4, 5]);
    var _ := s.Discard(PyInt(3));
    n := s.Length();
  }

  method UpdateWithTwo() returns (n: nat)
    ensures n == 7
  {
    var s := IntSet([1, 2, 3, 4, 5]);
    DedupOfDistinct([6, 7]);
    assert CoerceAll(ToInt, [PyInt(6), PyInt(7)]).value == [6, 7];
    assert DropIn([6, 7], Elems([1, 2, 3, 4, 5])) == [6, 7];
    var _ := s.Update([PyInt(6), PyInt(7)]);
    n := s.Length();
  }

  method IntersectionSize() returns (n: nat)
    ensures n == 2
  {
    var a := IntSet([1, 2, 3, 4, 5]);
    var b := IntSet([4, 5, 6, 7, 8]);
    Shared();
    var r := a.Intersection(b);
    n := r.Length();
  }

  method DifferenceSize() returns (n: nat)
    ensures n == 3
  {
    var a := IntSet([1, 2, 3, 4, 5]);
    var b := IntSet([4, 5, 6, 7, 8]);
    LeftOnly();
    var r := a.Difference(b);
    n := r.Length();
  }

  lemma Shared()
    ensures KeepIn([1, 2, 3, 4, 5], Elems([4, 5, 6, 7, 8])) == [4, 5]
  {
    var d := Elems([4, 5, 6, 7, 8]);
    assert 4 in d && 5 in d;
    assert KeepIn([4, 5], d) == [4, 5];
    assert 3 !in d && [3, 4, 5][1..] == [4, 5];
    assert 2 !in d && [2, 3, 4, 5][1..] == [3, 4, 5];
    assert 1 !in d && [1, 2, 3, 4, 5][1..] == [2, 3, 4, 5];
  }

  lemma LeftOnly()
    ensures DropIn([1, 2, 3, 4, 5], Elems([4, 5, 6, 7, 8])) == [1, 2, 3]
  {
    var d := Elems([4, 5, 6, 7, 8]);
    assert 4 in d && 5 in d;
    assert DropIn([4, 5], d) == [];
    assert 3 !in d && [3, 4, 5][1..] == [4, 5];
    assert 2 !in d && [2, 3, 4, 5][1..] == [3, 4, 5];
    assert 1 !in d && [1, 2, 3, 4, 5][1..] == [2, 3, 4, 5];
  }

  lemma RightOnly()
    ensures DropIn([4, 5, 6, 7, 8], Elems([1, 2, 3, 4, 5])) == [6, 7, 8]
  {
    var d := Elems([1, 2, 3, 4, 5]);
    assert 6 !in d && 7 !in d && 8 !in d;
    assert DropIn([6, 7, 8], d) == [6, 7, 8];
    assert 5 in d && [5, 6, 7, 8][1..] == [6, 7, 8];
    assert 4 in d && [4, 5, 6, 7, 8][1..] == [5, 6, 7, 8];
  }

  method SymmetricDifferenceSize() returns (n: nat)
    ensures n == 6
  {
    var a := IntSet([1, 2, 3, 4, 5]);
    var b := IntSet([4, 5, 6, 7, 8]);
    LeftOnly();
    RightOnly();
    var r := a.SymmetricDifference(b);
    n := r.Length();
  }

  method UnionSize() returns (n: nat)
    ensures n == 8
  {
    var a := IntSet([1, 2, 3, 4, 5]);
    var b := IntSet([4, 5, 6, 7, 8]);
    RightOnly();
    var r := a.Union(b);
    n := r.Length();
  }

  method Iteration() returns (xs: seq<int>)
    ensures xs == [1, 2, 3, 4, 5]
  {
    var s := IntSet([1, 2, 3, 4, 5]);
    xs := s.items;
  }

  method Rendering() returns (text: string)
    ensures text == "1, 2, 3, 4, 5"
  {
    var s := IntSet([1, 2, 3, 4, 5]);
    RenderedDigits();
    text := s.Str(IntToString);
  }

  lemma RenderedDigits()
    ensures Join(MapSeq(IntToString, [1, 2, 3, 4, 5]), ", ") == "1, 2, 3, 4, 5"
  {
    ShownDigits();
    JoinedDigits();
  }

  lemma ShownDigits()
    ensures MapSeq(IntToString, [1, 2, 3, 4, 5]) == ["1", "2", "3", "4", "5"]
  {
    assert IntToString(1) == "1" && IntToString(2) == "2" && IntToString(3) == "3";
    assert IntToString(4) == "4" && IntToString(5) == "5";
  }

  lemma JoinedDigits()
    ensures Join(["1", "2", "3", "4", "5"], ", ") == "1, 2, 3, 4, 5"
  {
    var parts := ["1", "2", "3", "4", "5"];
    assert Join(parts[3..], ", ") == "4, 5" by { assert parts[4..] == ["5"]; }
    assert Join(parts[1..], ", ") == "2, 3, 4, 5" by { assert parts[2..][1..] == parts[3..]; }
  }

  /** The numeric strings "1".."5" coerce to the ints 1..5. */
  lemma NumeralsParse()
    ensures CoerceAll(ToInt, Numerals()) == Some([1, 2, 3, 4, 5])
  {
    ParseIntToString(1); ParseIntToString(2); ParseIntToString(3); ParseIntToString(4); ParseIntToString(5);
    assert IntToString(1) == "1" && IntToString(2) == "2" && IntToString(3) == "3";
    assert IntToString(4) == "4" && IntToString(5) == "5";
    var c := CoerceAll(ToInt, Numerals());
    assert c.Some?;
    assert c.value == [1, 2, 3, 4, 5];
  }

  function Numerals(): seq<PyValue> {
    [PyStr("1"), PyStr("2"), PyStr("3"), PyStr("4"), PyStr("5")]
  }

  method CoerceNumericStrings() returns (xs: seq<int>)
    ensures xs == [1, 2, 3, 4, 5]
  {
    NumeralsParse();
    DedupOfDistinct([1, 2, 3, 4, 5]);
    var r := CoerciveSet.FromValues(ToInt, Numerals());
    xs := r.value.items;
  }

  method CoerceFailures() returns (letters: bool, trailing: bool)
    ensures letters && trailing
  {
    var r1 := CoerciveSet.FromValues(ToInt, [PyStr("a"), PyStr("b"), PyStr("c"), PyStr("d"), PyStr("e")]);
    var r2 := CoerciveSet.FromValues(ToInt, [PyStr("1"), PyStr("2"), PyStr("3"), PyStr("4"), PyStr("5"), PyStr("a")]);
    letters := r1.Failure? && r1.error.TypeError?;
    trailing := r2.Failure? && r2.error.TypeError?;
  }

  /** str() of the ints 1..5 and of the strings "1".."5" give the same strings. */
  lemma StrNumerals()
    ensures CoerceAll(ToStr, Ints([1, 2, 3, 4, 5])) == CoerceAll(ToStr, Numerals())
  {
    var a, b := CoerceAll(ToStr, Ints([1, 2, 3, 4, 5])), CoerceAll(ToStr, Numerals());
    assert IntToString(1) == "1" && IntToString(2) == "2" && IntToString(3) == "3";
    assert IntToString(4) == "4" && IntToString(5) == "5";
    assert a.value == b.value;
  }

  method StrSetsAgree() returns (same: bool)
    ensures same
  {
    StrNumerals();
    var r1 := CoerciveSet.FromValues(ToStr, Ints([1, 2, 3, 4, 5]));
    var r2 := CoerciveSet.FromValues(ToStr, Numerals());
    same := r1.value.SameElements(r2.value);
  }

  method SnowflakeCoerce() returns (xs: seq<int>)
    ensures xs == [1, 2, 3, 4, 5]
  {
    NumeralsParse();
    DedupOfDistinct([1, 2, 3, 4, 5]);
    var r := SnowflakeSet(Numerals());
    xs := r.value.items;
  }

  method SnowflakeEmpty() returns (n: nat)
    ensures n == 0
  {
    var r := SnowflakeSet([]);
    n := r.value.Length();
  }
}

=== FILE: templates.dfy ===
/** parse_template (bloxlink_lib/models/binds.py): the nickname template language. A template is
    chosen (given, or the nickname of the highest-priority bind, or the guild's template), the
    {group-rank-<id>} placeholders are replaced, and then every {name} or {modifier:name}
    placeholder, in the order they occur, is replaced by its value. The result is clipped to 32
    characters. The group entity's sync, a network call, is replaced by the name it fetches. */
module Templates {
  import opened Wrappers
  import opened Exceptions
  import opened Text
  import opened Utils
  import opened Base
  import opened Binds
  import opened Groups
  import opened Priority

  // ---------------------------------------------------------------------------------------------
  // The placeholder scan: re.findall(r"\{(.*?)\}") and re.findall(r"\{group-rank-(.*?)\}")
  // ---------------------------------------------------------------------------------------------

  /** The index of the first '}' at or after i, provided no line break comes first ('.' does not
      match a newline). */
  function CloseFrom(s: string, i: nat): (r: Option<nat>)
    ensures r.Some? ==> i <= r.value < |s| && s[r.value] == '}'
    ensures r.Some? ==> forall m :: i <= m < r.value ==> s[m] != '}' && s[m] != '\n'
    decreases |s| - i
  {
    if i >= |s| then None
    else if s[i] == '}' then Some(i)
    else if s[i] == '\n' then None
    else CloseFrom(s, i + 1)
  }

  /** re.findall(prefix + r"(.*?)\}", s) for a literal prefix: at the first place the prefix
      occurs, the text up to the nearest '}' on the same line is a match and the scan resumes
      after it; a prefix with no such '}' is passed over. */
  function FindAll(s: string, prefix: string): (r: seq<string>)
    requires |prefix| > 0
    ensures forall i :: 0 <= i < |r| ==> '}' !in r[i] && '\n' !in r[i]
    decreases |s|
  {
    if |s| == 0 then []
    else if prefix <= s && CloseFrom(s, |prefix|).Some? then
      var k := CloseFrom(s, |prefix|).value;
      assert forall m :: 0 <= m < k - |prefix| ==> s[|prefix|..k][m] == s[|prefix| + m];
      [s[|prefix|..k]] + FindAll(s[k + 1..], prefix)
    else FindAll(s[1..], prefix)
  }

  /** A text without the prefix's first character holds no match. */
  lemma {:induction false} FindAllMissing(s: string, prefix: string)
    requires |prefix| > 0 && prefix[0] !in s
    ensures FindAll(s, prefix) == []
    decreases |s|
  {
    if |s| > 0 {
      assert !(prefix <= s) by { assert s[0] in s; }
      FindAllMissing(s[1..], prefix);
    }
  }

  /** The scan stops at the first '}' after i when nothing before it on the way is a line break. */
  lemma {:induction false} CloseFromFinds(s: string, i: nat, k: nat)
    requires i <= k < |s| && s[k] == '}'
    requires forall m :: i <= m < k ==> s[m] != '}' && s[m] != '\n'
    ensures CloseFrom(s, i) == Some(k)
    decreases k - i
  {
    if i < k {
      CloseFromFinds(s, i + 1, k);
    }
  }

  /** A template that is one placeholder holds exactly that placeholder. */
  lemma SinglePlaceholder(inner: string)
    requires '}' !in inner && '\n' !in inner
    ensures FindAll("{" + inner + "}", "{") == [inner]
  {
    var s := "{" + inner + "}";
    assert "{" <= s;
    forall m | 1 <= m < |inner| + 1 ensures s[m] != '}' && s[m] != '\n' {
      assert s[m] == inner[m - 1];
    }
    CloseFromFinds(s, 1, |inner| + 1);
    assert s[1..|inner| + 1] == inner;
    assert s[|inner| + 2..] == [];
  }

  // ---------------------------------------------------------------------------------------------
  // Placeholder values
  // ---------------------------------------------------------------------------------------------

  /** The synced Roblox account the template reads; after a sync the display name falls back to
      the username, so it is always a string. */
  datatype RobloxProfile = RobloxProfile(
    id: int, username: string, displayName: string, ageDays: Option<int>, groups: map<int, UserGroup>)

  /** What the placeholder loop reads besides the template. */
  datatype Context = Context(
    guildName: string, member: Member, user: Option<RobloxProfile>, smartName: string,
    groupRank: string, groupBind: Option<GuildBind>, groupName: string)

  const SmartNameLimit: nat := 32

  /** {smart-name}: "display (@username)" when the two differ and that fits in 32 characters,
      else the username. */
  function SmartName(u: RobloxProfile): (r: string)
    ensures r == u.username || (|r| <= SmartNameLimit && u.displayName != u.username)
    ensures u.displayName == u.username ==> r == u.username
    ensures r != u.username ==> r == u.displayName + " (@" + u.username + ")"
  {
    if u.displayName != u.username then
      var full := u.displayName + " (@" + u.username + ")";
      if |full| > SmartNameLimit then u.username else full
    else u.username
  }

  /** The page address of the group entity a group bind's post-init creates from its id. */
  function GroupUrl(b: GuildBind): string {
    GroupUrlPrefix + IdText(CriteriaEntityId(b.criteria.id))
  }

  /** The first match: the Roblox placeholders, when there is a Roblox account. */
  function RobloxValue(ctx: Context, name: string): (v: string)
    requires ctx.user.Some?
  {
    var u := ctx.user.value;
    match name
    case "roblox-name" => u.username
    case "display-name" => u.displayName
    case "smart-name" => ctx.smartName
    case "roblox-id" => IntToString(u.id)
    case "roblox-age" => OptIntToString(u.ageDays)
    case "group-rank" => ctx.groupRank
    case _ => name
  }

  /** The second match, applied to whatever the first one left. */
  function DiscordValue(ctx: Context, name: string): (v: string) {
    match name
    case "discord-name" => ctx.member.username
    case "discord-nick" => if TruthyStr(ctx.member.nickname) then ctx.member.nickname.value else ctx.member.username
    case "discord-mention" => ctx.member.mention
    case "discord-id" => IntToString(ctx.member.id)
    case "server-name" => ctx.guildName
    case "prefix" => "/"
    case "group-url" => if ctx.groupBind.Some? then GroupUrl(ctx.groupBind.value) else ""
    case "group-name" => if ctx.groupBind.Some? then ctx.groupName else ""
    case "smart-name" => ctx.smartName
    case "verify-url" => "https://blox.link/verify"
    case _ => name
  }

  /** The value of a placeholder name: both matches in turn. */
  function Resolve(ctx: Context, name: string): string {
    DiscordValue(ctx, if ctx.user.Some? then RobloxValue(ctx, name) else name)
  }

  /** One pass of the loop: `modifier:name` (only the first two ':'-separated parts count); allC
      and allL upper- and lower-case the value, any other modifier drops the braces and keeps the
      text, and a placeholder without a modifier becomes its value (its own name when unknown).
      Every occurrence in the current template is replaced. */
  function Substitute(ctx: Context, t: string, outer: string): string {
    var parts := Split(outer, ':');
    var modifier := if |parts| > 1 then parts[0] else "";
    var value := Resolve(ctx, if |parts| > 1 then parts[1] else parts[0]);
    var pat := "{" + outer + "}";
    if modifier != "" then
      if modifier == "allC" then ReplaceAll(t, pat, Upper(value))
      else if modifier == "allL" then ReplaceAll(t, pat, Lower(value))
      else ReplaceAll(t, pat, outer)
    else ReplaceAll(t, pat, value)
  }

  /** The loop over the matches, each replaced in the template the previous ones left. */
  function SubstituteAll(ctx: Context, t: string, matches: seq<string>): string
    decreases |matches|
  {
    if |matches| == 0 then t else SubstituteAll(ctx, Substitute(ctx, t, matches[0]), matches[1..])
  }

  /** The placeholder loop, reassigning the template. */
  method ReplacePlaceholders(ctx: Context, template: string) returns (r: string)
    ensures r == SubstituteAll(ctx, template, FindAll(template, "{"))
  {
    var matches := FindAll(template, "{");
    r := template;
    var i := 0;
    while i < |matches|
      invariant 0 <= i <= |matches|
      invariant SubstituteAll(ctx, r, matches[i..]) == SubstituteAll(ctx, template, matches)
    {
      assert matches[i..][1..] == matches[i + 1..];
      r := Substitute(ctx, r, matches[i]);
      i := i + 1;
    }
  }

  /** Splitting "m:name" with both parts free of ':' gives the modifier and the name. */
  lemma {:induction false} SplitModifier(modifier: string, name: string)
    requires ':' !in modifier && ':' !in name
    ensures Split(modifier + ":" + name, ':') == [modifier, name]
    decreases |modifier|
  {
    var s := modifier + ":" + name;
    if |modifier| == 0 {
      assert s[1..] == name;
    } else {
      assert s[1..] == modifier[1..] + ":" + name;
      SplitModifier(modifier[1..], name);
      assert s[0] == modifier[0] && [s[0]] + modifier[1..] == modifier;
    }
  }

  /** What one placeholder becomes, alone in a template: allC and allL case the name's value, any
      other modifier loses only its braces, and a plain name becomes its value. */
  lemma PlaceholderValue(ctx: Context, modifier: string, name: string)
    requires ':' !in modifier && ':' !in name
    ensures var outer := modifier + ":" + name;
            Substitute(ctx, "{" + outer + "}", outer) ==
              if modifier == "" then Resolve(ctx, name)
              else if modifier == "allC" then Upper(Resolve(ctx, name))
              else if modifier == "allL" then Lower(Resolve(ctx, name))
              else outer
    ensures Substitute(ctx, "{" + name + "}", name) == Resolve(ctx, name)
  {
    SplitModifier(modifier, name);
    var outer := modifier + ":" + name;
    ReplaceWhole("{" + outer + "}", Upper(Resolve(ctx, name)));
    ReplaceWhole("{" + outer + "}", Lower(Resolve(ctx, name)));
    ReplaceWhole("{" + outer + "}", outer);
    ReplaceWhole("{" + outer + "}", Resolve(ctx, name));
    assert ':' !in name;
    ReplaceWhole("{" + name + "}", Resolve(ctx, name));
  }

  /** An unknown name without a modifier just loses its braces. */
  lemma UnknownNameLosesBraces(ctx: Context, name: string)
    requires ':' !in name
    requires name !in {"roblox-name", "display-name", "smart-name", "roblox-id", "roblox-age", "group-rank",
                       "discord-name", "discord-nick", "discord-mention", "discord-id", "server-name",
                       "prefix", "group-url", "group-name", "verify-url"}
    ensures Substitute(ctx, "{" + name + "}", name) == name
  {
    PlaceholderValue(ctx, "", name);
  }

  /** The second match reads the first one's value: a Roblox account named "prefix" renders
      {roblox-name} as "/". */
  lemma RobloxNameReadAsPlaceholder(ctx: Context)
    requires ctx.user.Some? && ctx.user.value.username == "prefix"
    ensures Resolve(ctx, "roblox-name") == "/"
  {
  }

  // ---------------------------------------------------------------------------------------------
  // {group-rank-<id>}
  // ---------------------------------------------------------------------------------------------

  const GroupRankPrefix: string := "{group-rank-"

  /** A Python dict key: the user's groups are keyed by int, the captured id is a str. */
  datatype Key = IntKey(n: int) | StrKey(s: string)

  /** roblox_user.groups as the dict it is: int keys. */
  function GroupsByKey(groups: map<int, UserGroup>): (m: map<Key, UserGroup>)
    ensures forall k :: k in m ==> k.IntKey? && k.n in groups
  {
    map k | k in groups :: IntKey(k) := groups[k]
  }

  /** dict.get(k): the value under k, if any. */
  function Get<K, V>(m: map<K, V>, k: K): (r: Option<V>)
    ensures r.Some? <==> k in m
    ensures r.Some? ==> r.value == m[k]
  {
    if k in m then Some(m[k]) else None
  }

  /** groups.get(group_id) as written, with the captured str: it never matches an int key, so
      every {group-rank-<id>} becomes "Guest". */
  function GroupRankNameAsWritten(groups: map<int, UserGroup>, groupId: string): (r: string)
    ensures r == "Guest"
  {
    match Get(GroupsByKey(groups), StrKey(groupId))
    case Some(g) => g.role.name
    case None => "Guest"
  }

  /** The lookup evidently meant: the id as an int, the user's rank name in that group, "Guest"
      when the user is not in it (or the id is not a number). */
  function GroupRankName(groups: map<int, UserGroup>, groupId: string): (r: string)
    ensures ParseInt(groupId).Some? && ParseInt(groupId).value in groups ==>
              r == groups[ParseInt(groupId).value].role.name
    ensures ParseInt(groupId).None? || ParseInt(groupId).value !in groups ==> r == "Guest"
  {
    match ParseInt(groupId)
    case Some(n) => (match Get(GroupsByKey(groups), IntKey(n)) case Some(g) => g.role.name case None => "Guest")
    case None => "Guest"
  }

  /** The {group-rank-<id>} loop, each id replaced in the template the previous ones left. */
  function GroupRanksReplaced(groups: map<int, UserGroup>, t: string, ids: seq<string>): string
    decreases |ids|
  {
    if |ids| == 0 then t
    else GroupRanksReplaced(groups, ReplaceAll(t, GroupRankPrefix + ids[0] + "}", GroupRankName(groups, ids[0])), ids[1..])
  }

  /** The loop as written. */
  function GroupRanksReplacedAsWritten(groups: map<int, UserGroup>, t: string, ids: seq<string>): string
    decreases |ids|
  {
    if |ids| == 0 then t
    else GroupRanksReplacedAsWritten(groups, ReplaceAll(t, GroupRankPrefix + ids[0] + "}", GroupRankNameAsWritten(groups, ids[0])), ids[1..])
  }

  /** The {group-rank-<id>} loop, reassigning the template. */
  method ReplaceGroupRanks(groups: map<int, UserGroup>, template: string) returns (r: string)
    ensures r == GroupRanksReplaced(groups, template, FindAll(template, GroupRankPrefix))
  {
    var ids := FindAll(template, GroupRankPrefix);
    r := template;
    var i := 0;
    while i < |ids|
      invariant 0 <= i <= |ids|
      invariant GroupRanksReplaced(groups, r, ids[i..]) == GroupRanksReplaced(groups, template, ids)
    {
      assert ids[i..][1..] == ids[i + 1..];
      r := ReplaceAll(r, GroupRankPrefix + ids[i] + "}", GroupRankName(groups, ids[i]));
      i := i + 1;
    }
  }

  /** A member ranked "Admin" in group 7: as written {group-rank-7} renders "Guest", as meant
      "Admin". */
  lemma GroupRankLookupMisses(role: GroupRoleset)
    ensures var groups := map[7 := UserGroup(7, role)];
            && GroupRanksReplacedAsWritten(groups, "{group-rank-7}", ["7"]) == "Guest"
            && GroupRanksReplaced(groups, "{group-rank-7}", ["7"]) == role.name
  {
    var groups := map[7 := UserGroup(7, role)];
    assert ParseInt("7") == Some(7) by { assert DigitsValue("7") == 7; }
    ReplaceWhole("{group-rank-7}", "Guest");
    ReplaceWhole("{group-rank-7}", role.name);
    assert GroupRankPrefix + "7" + "}" == "{group-rank-7}";
  }

  // ---------------------------------------------------------------------------------------------
  // parse_template
  // ---------------------------------------------------------------------------------------------

  const MissingArgsMessage: string := "Guild ID and potential binds must be provided if no template is given."
  const NotIterableMessage: string := "'NoneType' object is not iterable"
  const NotSubscriptableMessage: string := "'NoneType' object is not subscriptable"
  const IndexMessage: string := "list index out of range"
  const DisableNicknaming: string := "{disable-nicknaming}"
  const NicknameLimit: nat := 32

  predicate IsGroupBind(b: GuildBind) {
    b.Type() == Group
  }

  /** The group bind a "group-" template reads: the highest-priority bind when it is a group bind,
      else the first group bind among the candidates (iterating None raises). */
  function GroupBindFor(t: string, chosen: Option<GuildBind>, binds: Option<seq<GuildBind>>)
    : (r: Result<Option<GuildBind>, Error>)
    ensures !Contains(t, "group-") ==> r == Success(None)
    ensures r.Success? && r.value.Some? ==> r.value.value.Type() == Group
    ensures r.Success? && r.value.Some? && r.value != chosen ==> binds.Some? && r.value.value in binds.value
  {
    if !Contains(t, "group-") then Success(None)
    else if chosen.Some? && chosen.value.Type() == Group then Success(chosen)
    else if binds.None? then Failure(TypeError(NotIterableMessage))
    else Success(Find(IsGroupBind, binds.value))
  }

  /** The rank names the user holds across their groups. */
  function RankNames(groups: map<int, UserGroup>): set<string> {
    set g | g in groups.Values :: g.role.name
  }

  /** groups[id].role.name, raising KeyError for an id the user's groups lack. */
  function RankNameAt(groups: map<int, UserGroup>, id: Option<int>): (r: Result<string, Error>)
    ensures r.Success? <==> id.Some? && id.value in groups
    ensures r.Success? ==> r.value == groups[id.value].role.name
    ensures r.Success? ==> r.value in RankNames(groups)
  {
    if id.Some? && id.value in groups then
      assert groups[id.value] in groups.Values;
      Success(groups[id.value].role.name)
    else Failure(KeyError(OptIntToString(id)))
  }

  /** {group-rank}: when the template asks for it and the user is in the group bind's group, the
      rank name in the group of the highest-priority bind (else of the first candidate); "Guest"
      otherwise. */
  function GroupRankFor(u: RobloxProfile, t: string, chosen: Option<GuildBind>, binds: Option<seq<GuildBind>>,
                        groupBind: Option<GuildBind>): (r: Result<string, Error>)
    ensures !Contains(t, "group-rank") ==> r == Success("Guest")
    ensures groupBind.None? ==> r == Success("Guest")
    ensures r.Failure? ==> Contains(t, "group-rank") && groupBind.Some?
    ensures r.Success? ==> r.value == "Guest" || r.value in RankNames(u.groups)
  {
    if Contains(t, "group-rank") && groupBind.Some? && groupBind.value.criteria.id.Some? &&
       groupBind.value.criteria.id.value in u.groups then
      if chosen.Some? then RankNameAt(u.groups, chosen.value.criteria.id)
      else if binds.None? then Failure(TypeError(NotSubscriptableMessage))
      else if |binds.value| == 0 then Failure(IndexError(IndexMessage))
      else RankNameAt(u.groups, binds.value[0].criteria.id)
    else Success("Guest")
  }

  /** When the highest-priority bind is a group bind of a group the user is in, {group-rank} reads
      the user's rank name in that group. */
  lemma GroupRankOfChosenGroupBind(u: RobloxProfile, t: string, chosen: GuildBind, binds: Option<seq<GuildBind>>)
    requires Contains(t, "group-rank") && chosen.Type() == Group
    requires chosen.criteria.id.Some? && chosen.criteria.id.value in u.groups
    ensures GroupBindFor(t, Some(chosen), binds) == Success(Some(chosen))
    ensures GroupRankFor(u, t, Some(chosen), binds, Some(chosen)) == Success(u.groups[chosen.criteria.id.value].role.name)
  {
    GroupPrefixOfRank(t);
  }

  /** Everything after the template is chosen: disable-nicknaming, the group bind, the smart name
      and group rank, the {group-rank-<id>} loop, the placeholder loop and the clip. */
  function Rendered(t: string, chosen: Option<GuildBind>, binds: Option<seq<GuildBind>>, guildName: string,
                    member: Member, user: Option<RobloxProfile>, groupName: string, maxLength: bool)
    : (r: Result<Option<string>, Error>)
  {
    if t == DisableNicknaming then Success(None)
    else
      var groupBind :- GroupBindFor(t, chosen, binds);
      var smart := if user.Some? then SmartName(user.value) else "";
      var rank :- if user.Some? then GroupRankFor(user.value, t, chosen, binds, groupBind) else Success("Guest");
      var t2 := if user.Some? then GroupRanksReplaced(user.value.groups, t, FindAll(t, GroupRankPrefix)) else t;
      var ctx := Context(guildName, member, user, smart, rank, groupBind, groupName);
      var t3 := SubstituteAll(ctx, t2, FindAll(t2, "{"));
      Success(Some(if maxLength then Clip(t3, NicknameLimit) else t3))
  }

  /** parse_template(...), with the candidates as a value: an empty template needs a guild id and
      candidates, whose priority order and guild template then choose it. */
  function ParsedTemplate(guildId: int, guildName: string, member: Member, template: Option<string>,
                          potentialBinds: Option<seq<GuildBind>>, guildTemplate: string,
                          user: Option<RobloxProfile>, groupName: string, maxLength: bool)
    : (r: Result<Option<string>, Error>)
  {
    if !TruthyStr(template) then
      if guildId == 0 || potentialBinds.None? then Failure(ValueError(MissingArgsMessage))
      else
        var sorted := SortByPriority(potentialBinds.value);
        var chosen := NicknameTemplate(sorted, guildTemplate);
        Rendered(chosen.0, chosen.1, Some(sorted), guildName, member, user, groupName, maxLength)
    else Rendered(template.value, None, potentialBinds, guildName, member, user, groupName, maxLength)
  }

  /** The rendering steps, with the two replacement loops. */
  method Render(t: string, chosen: Option<GuildBind>, binds: Option<seq<GuildBind>>, guildName: string,
                member: Member, user: Option<RobloxProfile>, groupName: string, maxLength: bool)
    returns (r: Result<Option<string>, Error>)
    ensures r == Rendered(t, chosen, binds, guildName, member, user, groupName, maxLength)
  {
    if t == DisableNicknaming {
      return Success(None);
    }
    var groupBind := GroupBindFor(t, chosen, binds);
    if groupBind.Failure? {
      return Failure(groupBind.error);
    }
    var smart := "";
    var rank := "Guest";
    var template := t;
    if user.Some? {
      smart := SmartName(user.value);
      var found := GroupRankFor(user.value, t, chosen, binds, groupBind.value);
      if found.Failure? {
        return Failure(found.error);
      }
      rank := found.value;
      template := ReplaceGroupRanks(user.value.groups, template);
    }
    var ctx := Context(guildName, member, user, smart, rank, groupBind.value, groupName);
    template := ReplacePlaceholders(ctx, template);
    if maxLength {
      template := Clip(template, NicknameLimit);
    }
    return Success(Some(template));
  }

  /** parse_template(...). The candidate list (null for None) is sorted in place when it chooses
      the template. */
  method ParseTemplate(guildId: int, guildName: string, member: Member, template: Option<string>,
                       potentialBinds: array?<GuildBind>, guildTemplate: string,
                       user: Option<RobloxProfile>, groupName: string, maxLength: bool)
    returns (r: Result<Option<string>, Error>)
    modifies potentialBinds
    ensures r == ParsedTemplate(guildId, guildName, member, template,
                                if potentialBinds == null then None else Some(old(potentialBinds[..])),
                                guildTemplate, user, groupName, maxLength)
    ensures potentialBinds != null ==>
              potentialBinds[..] == if !TruthyStr(template) && guildId != 0 then SortByPriority(old(potentialBinds[..]))
                                    else old(potentialBinds[..])
  {
    if !TruthyStr(template) {
      if guildId == 0 || potentialBinds == null {
        return Failure(ValueError(MissingArgsMessage));
      }
      var t, chosen := GetNicknameTemplate(potentialBinds, guildTemplate);
      r := Render(t, chosen, Some(potentialBinds[..]), guildName, member, user, groupName, maxLength);
    } else {
      var binds := if potentialBinds == null then None else Some(potentialBinds[..]);
      r := Render(template.value, None, binds, guildName, member, user, groupName, maxLength);
    }
  }

  // ---------------------------------------------------------------------------------------------
  // Properties
  // ---------------------------------------------------------------------------------------------

  /** "{disable-nicknaming}" disables nicknaming whatever else is given. */
  lemma DisableNicknamingGivesNone(guildId: int, guildName: string, member: Member,
                                   potentialBinds: Option<seq<GuildBind>>, guildTemplate: string,
                                   user: Option<RobloxProfile>, groupName: string, maxLength: bool)
    ensures ParsedTemplate(guildId, guildName, member, Some(DisableNicknaming), potentialBinds, guildTemplate,
                           user, groupName, maxLength) == Success(None)
  {
  }

  /** With max_length a nickname never exceeds 32 characters. */
  lemma NicknameFitsLimit(guildId: int, guildName: string, member: Member, template: Option<string>,
                          potentialBinds: Option<seq<GuildBind>>, guildTemplate: string,
                          user: Option<RobloxProfile>, groupName: string)
    ensures var r := ParsedTemplate(guildId, guildName, member, template, potentialBinds, guildTemplate,
                                    user, groupName, true);
            r.Success? && r.value.Some? ==> |r.value.value| <= NicknameLimit
  {
  }

  /** A template with no placeholder and no group reference comes out as it is (clipped). */
  lemma PlainTextUnchanged(t: string, guildName: string, member: Member, potentialBinds: Option<seq<GuildBind>>,
                           user: Option<RobloxProfile>, groupName: string, maxLength: bool)
    requires t != "" && '{' !in t && !Contains(t, "group-")
    ensures Rendered(t, None, potentialBinds, guildName, member, user, groupName, maxLength) ==
              Success(Some(if maxLength then Clip(t, NicknameLimit) else t))
  {
    FindAllMissing(t, "{");
    FindAllMissing(t, GroupRankPrefix);
    GroupPrefixOfRank(t);
  }

  /** Containing "group-rank" means containing "group-". */
  lemma {:induction false} GroupPrefixOfRank(t: string)
    ensures Contains(t, "group-rank") ==> Contains(t, "group-")
    decreases |t|
  {
    if "group-rank" <= t {
      assert t[..6] == "group-rank"[..6] == "group-";
    } else if |t| > 0 {
      GroupPrefixOfRank(t[1..]);
    }
  }

  /** A whole template "{allC:<name>}" or "{allL:<name>}", given as the template, renders the
      name's value upper- or lower-cased. */
  lemma CaseModifiers(ctx: Context, name: string, guildName: string, member: Member,
                      binds: Option<seq<GuildBind>>, groupName: string)
    requires ':' !in name && '}' !in name && '\n' !in name && '{' !in name
    requires !Contains(name, "group-")
    ensures SubstituteAll(ctx, "{allC:" + name + "}", FindAll("{allC:" + name + "}", "{")) == Upper(Resolve(ctx, name))
    ensures SubstituteAll(ctx, "{allL:" + name + "}", FindAll("{allL:" + name + "}", "{")) == Lower(Resolve(ctx, name))
  {
    assert "{allC:" + name + "}" == "{" + ("allC" + ":" + name) + "}";
    assert "{allL:" + name + "}" == "{" + ("allL" + ":" + name) + "}";
    SinglePlaceholder("allC" + ":" + name);
    SinglePlaceholder("allL" + ":" + name);
    PlaceholderValue(ctx, "allC", name);
    PlaceholderValue(ctx, "allL", name);
  }
}

=== FILE: text.dfy ===
/** Python string and integer behaviour the core relies on: str(int), int(str), truthiness of
    optional values, str.upper/lower (ASCII), `in` on strings, str.replace, str.split, str.strip
    and slicing `s[:n]`. */
module Text {
  import opened Wrappers

  // ---------------------------------------------------------------- truthiness

  /** Python truthiness of an optional int: None and 0 are both false. */
  predicate TruthyInt(o: Option<int>) {
    o.Some? && o.value != 0
  }

  /** Python truthiness of an optional str: None and "" are both false. */
  predicate TruthyStr(o: Option<string>) {
    o.Some? && o.value != ""
  }

  // ---------------------------------------------------------------- str(int) and int(str)

  predicate IsDigit(c: char) {
    '0' <= c <= '9'
  }

  /** A non-empty run of ASCII decimal digits (str.isdigit restricted to ASCII). */
  predicate IsDigits(s: string) {
    |s| > 0 && forall i :: 0 <= i < |s| ==> IsDigit(s[i])
  }

  function DigitChar(d: nat): (c: char)
    requires d < 10
    ensures IsDigit(c) && c as int - '0' as int == d
  {
    ('0' as int + d) as char
  }

  /** Decimal rendering of a natural number, most significant digit first. */
  function NatToString(n: nat): (s: string)
    ensures IsDigits(s)
    ensures |s| > 1 ==> s[0] != '0'
    decreases n
  {
    if n < 10 then [DigitChar(n)] else NatToString(n / 10) + [DigitChar(n % 10)]
  }

  /** Python's str() of an int. */
  function IntToString(i: int): (s: string)
    ensures |s| > 0
    ensures s[0] == '-' <==> i < 0
  {
    if i < 0 then "-" + NatToString(-i) else NatToString(i)
  }

  /** The value of a run of digits (may be empty, then 0). */
  function DigitsValue(s: string): nat
    requires forall i :: 0 <= i < |s| ==> IsDigit(s[i])
    decreases |s|
  {
    if |s| == 0 then 0
    else
      var last := s[|s| - 1];
      assert IsDigit(last);
      DigitsValue(s[..|s| - 1]) * 10 + (last as int - '0' as int)
  }

  /** The literals int() accepts in this model: an optional sign followed by digits. */
  predicate IsIntLiteral(s: string) {
    IsDigits(s) || (|s| > 1 && (s[0] == '-' || s[0] == '+') && IsDigits(s[1..]))
  }

  /** Python's int() of a str; None where Python raises ValueError. */
  function ParseInt(s: string): (r: Option<int>)
    ensures r.Some? <==> IsIntLiteral(s)
    ensures r.Some? && IsDigits(s) ==> r.value >= 0
  {
    if IsDigits(s) then Some(DigitsValue(s))
    else if |s| > 1 && s[0] == '-' && IsDigits(s[1..]) then Some(0 - DigitsValue(s[1..]))
    else if |s| > 1 && s[0] == '+' && IsDigits(s[1..]) then Some(DigitsValue(s[1..]))
    else None
  }

  lemma {:induction false} DigitsValueOfNatToString(n: nat)
    ensures DigitsValue(NatToString(n)) == n
    decreases n
  {
    var s := NatToString(n);
    if n >= 10 {
      DigitsValueOfNatToString(n / 10);
      assert s[..|s| - 1] == NatToString(n / 10);
    }
  }

  /** int(str(n)) == n: reading back a rendered int gives the int. */
  lemma ParseIntToString(n: int)
    ensures ParseInt(IntToString(n)) == Some(n)
  {
    if n < 0 {
      DigitsValueOfNatToString(-n);
      assert IntToString(n)[1..] == NatToString(-n);
    } else {
      DigitsValueOfNatToString(n);
    }
  }

  /** Distinct ints render as distinct strings. */
  lemma IntToStringInjective(a: int, b: int)
    requires IntToString(a) == IntToString(b)
    ensures a == b
  {
    ParseIntToString(a);
    ParseIntToString(b);
  }

  /** Python's str() of an optional int: None renders as "None". */
  function OptIntToString(o: Option<int>): (s: string)
    ensures o.Some? ==> ParseInt(s) == o
    ensures o.None? ==> s == "None"
  {
    match o
    case None => "None"
    case Some(i) => ParseIntToString(i); IntToString(i)
  }

  // ---------------------------------------------------------------- case mapping

  function UpperChar(c: char): char {
    if 'a' <= c <= 'z' then (c as int - 32) as char else c
  }

  function LowerChar(c: char): char {
    if 'A' <= c <= 'Z' then (c as int + 32) as char else c
  }

  /** str.upper() on ASCII letters; every other character is kept. */
  function Upper(s: string): (r: string)
    ensures |r| == |s|
    ensures forall i :: 0 <= i < |r| ==> !('a' <= r[i] <= 'z')
    ensures forall i :: 0 <= i < |s| && !('a' <= s[i] <= 'z') ==> r[i] == s[i]
  {
    seq(|s|, i requires 0 <= i < |s| => UpperChar(s[i]))
  }

  /** str.lower() on ASCII letters; every other character is kept. */
  function Lower(s: string): (r: string)
    ensures |r| == |s|
    ensures forall i :: 0 <= i < |r| ==> !('A' <= r[i] <= 'Z')
    ensures forall i :: 0 <= i < |s| && !('A' <= s[i] <= 'Z') ==> r[i] == s[i]
  {
    seq(|s|, i requires 0 <= i < |s| => LowerChar(s[i]))
  }

  lemma UpperIdempotent(s: string)
    ensures Upper(Upper(s)) == Upper(s)
  {
  }

  /** Upper-casing then lower-casing is the same as lower-casing. */
  lemma LowerOfUpper(s: string)
    ensures Lower(Upper(s)) == Lower(s)
  {
    var a, b := Lower(Upper(s)), Lower(s);
    forall i | 0 <= i < |s| ensures a[i] == b[i] {
      assert Upper(s)[i] == UpperChar(s[i]);
    }
  }

  // ---------------------------------------------------------------- searching and rewriting

  /** Python's `sub in s`. */
  predicate Contains(s: string, sub: string)
    decreases |s|
  {
    sub <= s || (|s| > 0 && Contains(s[1..], sub))
  }

  lemma {:induction false} ContainsAt(s: string, sub: string, k: nat)
    requires k + |sub| <= |s| && s[k..k + |sub|] == sub
    ensures Contains(s, sub)
    decreases k
  {
    if k > 0 {
      assert s[1..][k - 1..k - 1 + |sub|] == sub;
      ContainsAt(s[1..], sub, k - 1);
    }
  }

  /** A string that lacks one of sub's characters cannot contain sub. */
  lemma {:induction false} NotContainsMissingChar(s: string, sub: string, c: char)
    requires c in sub && c !in s
    ensures !Contains(s, sub)
    decreases |s|
  {
    var k :| 0 <= k < |sub| && sub[k] == c;
    if |sub| <= |s| {
      assert s[k] in s;
      assert s[..|sub|][k] != sub[k];
    }
    if |s| > 0 {
      NotContainsMissingChar(s[1..], sub, c);
    }
  }

  /** Python's s.replace(pat, rep): every non-overlapping occurrence, scanning left to right. */
  function ReplaceAll(s: string, pat: string, rep: string): (r: string)
    requires |pat| > 0
    ensures !Contains(s, pat) ==> r == s
    decreases |s|
  {
    if |s| < |pat| then s
    else if pat <= s then rep + ReplaceAll(s[|pat|..], pat, rep)
    else [s[0]] + ReplaceAll(s[1..], pat, rep)
  }

  /** Replacing a string that is exactly the searched text yields the replacement. */
  lemma ReplaceWhole(pat: string, rep: string)
    requires |pat| > 0
    ensures ReplaceAll(pat, pat, rep) == rep
  {
    assert pat[|pat|..] == [];
  }

  /** Python's s[:n] for n >= 0. */
  function Clip(s: string, n: nat): (r: string)
    ensures |r| <= n && r <= s
    ensures |s| <= n ==> r == s
  {
    if |s| <= n then s else s[..n]
  }

  /** Joins parts with a separator between consecutive parts (Python's sep.join(parts)). */
  function Join(parts: seq<string>, sep: string): string
    decreases |parts|
  {
    if |parts| == 0 then ""
    else if |parts| == 1 then parts[0]
    else parts[0] + sep + Join(parts[1..], sep)
  }

  /** Python's s.split(sep) for a one-character separator. */
  function Split(s: string, sep: char): (parts: seq<string>)
    ensures |parts| >= 1
    ensures forall i :: 0 <= i < |parts| ==> sep !in parts[i]
    ensures Join(parts, [sep]) == s
    ensures sep !in s ==> parts == [s]
    decreases |s|
  {
    if |s| == 0 then [""]
    else
      var rest := Split(s[1..], sep);
      if s[0] == sep then
        assert Join([""] + rest, [sep]) == "" + [sep] + Join(rest, [sep]);
        [""] + rest
      else
        var parts := [[s[0]] + rest[0]] + rest[1..];
        assert Join(parts, [sep]) == [s[0]] + Join(rest, [sep]) by {
          if |rest| > 1 {
            assert parts[1..] == rest[1..];
          }
        }
        parts
  }

  // ---------------------------------------------------------------- strip

  /** The characters Python's str.isspace() accepts (str.strip() removes them). */
  predicate IsSpace(c: char) {
    c == ' ' || ('\t' <= c <= '\r') || ('\U{1C}' <= c <= '\U{1F}') || c == '\U{85}' || c == '\U{A0}'
    || c == '\U{1680}' || ('\U{2000}' <= c <= '\U{200A}') || c == '\U{2028}' || c == '\U{2029}'
    || c == '\U{202F}' || c == '\U{205F}' || c == '\U{3000}'
  }

  /** The index of the first non-whitespace character of s at or after i (|s| if none). */
  function SkipSpaceFrom(s: string, i: nat): (n: nat)
    requires i <= |s|
    ensures i <= n <= |s|
    ensures forall k :: i <= k < n ==> IsSpace(s[k])
    ensures n < |s| ==> !IsSpace(s[n])
    decreases |s| - i
  {
    if i < |s| && IsSpace(s[i]) then SkipSpaceFrom(s, i + 1) else i
  }

  /** The end of s[lo..j] once trailing whitespace is dropped. */
  function DropSpaceBefore(s: string, lo: nat, j: nat): (n: nat)
    requires lo <= j <= |s|
    ensures lo <= n <= j
    ensures forall k :: n <= k < j ==> IsSpace(s[k])
    ensures n > lo ==> !IsSpace(s[n - 1])
    decreases j
  {
    if j > lo && IsSpace(s[j - 1]) then DropSpaceBefore(s, lo, j - 1) else j
  }

  /** Every character of t is whitespace. */
  predicate AllSpace(t: string) {
    forall k :: 0 <= k < |t| ==> IsSpace(t[k])
  }

  /** r is s with some whitespace cut from each end. */
  ghost predicate IsStripOf(s: string, r: string) {
    exists i :: 0 <= i && i + |r| <= |s| && AllSpace(s[..i]) && r == s[i..i + |r|] && AllSpace(s[i + |r|..])
  }

  /** Python's s.strip(): a slice of s with no whitespace at either end. */
  function Strip(s: string): (r: string)
    ensures IsStripOf(s, r)
    ensures |r| > 0 ==> !IsSpace(r[0]) && !IsSpace(r[|r| - 1])
  {
    var i := SkipSpaceFrom(s, 0);
    var j := DropSpaceBefore(s, i, |s|);
    var r := s[i..j];
    assert AllSpace(s[..i]);
    assert AllSpace(s[j..]) by {
      forall k | 0 <= k < |s| - j ensures IsSpace(s[j..][k]) {
        assert s[j..][k] == s[j + k];
      }
    }
    assert s[i + |r|..] == s[j..];
    r
  }
}

=== FILE: users.dfy ===
/** Roblox users (bloxlink_lib/models/users.py): which scopes a sync asks for, how a response is
    merged into the local object, the account-age label, and the decisions made when looking a
    user up. The requests themselves are parameters. */
module Users {
  import opened Wrappers
  import opened Exceptions
  import opened Text
  import Groups

  /** One entry of an includes list: a scope name, a bool, or None. */
  datatype IncludeItem = Scope(name: string) | Flag(b: bool) | NoneItem

  /** The includes argument: None, a bool, or a list. */
  datatype IncludeArg = NoIncludes | IncludeFlag(all: bool) | IncludeList(items: seq<IncludeItem>)

  /** VALID_INFO_SERVER_SCOPES. */
  const ValidScopes: seq<string> := ["groups", "badges"]

  /** The values line 142 lets through: the two scopes, True and None. */
  predicate Allowed(x: IncludeItem) {
    x == Scope("groups") || x == Scope("badges") || x == Flag(true) || x == NoneItem
  }

  /** xs without its first occurrence of x (list.remove once x is known to be present). */
  function RemoveFirst<T(==)>(xs: seq<T>, x: T): (r: seq<T>)
    ensures x in xs ==> |r| == |xs| - 1 && multiset(r) == multiset(xs) - multiset{x}
    ensures x !in xs ==> r == xs
  {
    if |xs| == 0 then []
    else if xs[0] == x then
      assert xs == [xs[0]] + xs[1..];
      xs[1..]
    else
      var rest := RemoveFirst(xs[1..], x);
      assert xs == [xs[0]] + xs[1..];
      [xs[0]] + rest
  }

  /** list.remove(x) deletes exactly the first occurrence of x. */
  lemma {:induction false} RemoveFirstAt<T>(xs: seq<T>, x: T, k: nat)
    requires k < |xs| && xs[k] == x && x !in xs[..k]
    ensures RemoveFirst(xs, x) == xs[..k] + xs[k + 1..]
    decreases k
  {
    if k > 0 {
      assert xs[0] in xs[..k];
      assert xs[1..][..k - 1] == xs[1..k];
      RemoveFirstAt(xs[1..], x, k - 1);
      assert xs[..k] == [xs[0]] + xs[1..k];
      assert xs[1..][k..] == xs[k + 1..];
    }
  }

  /** The cache pruning: a scope whose data is already loaded is not asked for again. */
  function Prune<T(==)>(xs: seq<T>, groupsItem: T, badgesItem: T, cache: bool, haveGroups: bool, haveBadges: bool): (r: seq<T>)
    ensures !cache ==> r == xs
    ensures cache && haveGroups && !haveBadges ==> r == RemoveFirst(xs, groupsItem)
    ensures cache && !haveGroups && haveBadges ==> r == RemoveFirst(xs, badgesItem)
    ensures multiset(r) <= multiset(xs)
  {
    var afterGroups := if cache && haveGroups then RemoveFirst(xs, groupsItem) else xs;
    assert multiset(afterGroups) <= multiset(xs);
    if cache && haveBadges then RemoveFirst(afterGroups, badgesItem) else afterGroups
  }

  /** Whether every entry is a scope name, so that ",".join can render the list. */
  predicate AllScopes(xs: seq<IncludeItem>) {
    forall i :: 0 <= i < |xs| ==> xs[i].Scope?
  }

  function ScopeNames(xs: seq<IncludeItem>): (r: seq<string>)
    requires AllScopes(xs)
    ensures |r| == |xs| && forall i :: 0 <= i < |xs| ==> r[i] == xs[i].name
  {
    if |xs| == 0 then [] else [xs[0].name] + ScopeNames(xs[1..])
  }

  /** The includes check on line 142 as written: it iterates the argument, so a bool raises
      TypeError before anything else happens. */
  function CheckIncludesAsWritten(includes: IncludeArg): (r: Option<Error>)
    ensures includes.IncludeFlag? ==> r.Some? && r.value.TypeError?
    ensures includes.NoIncludes? ==> r.None?
    ensures includes.IncludeList? ==>
              (r.Some? <==> exists i :: 0 <= i < |includes.items| && !Allowed(includes.items[i]))
  {
    match includes
    case NoIncludes => None
    case IncludeFlag(_) => Some(TypeError("'bool' object is not iterable"))
    case IncludeList(xs) =>
      if exists i :: 0 <= i < |xs| && !Allowed(xs[i]) then Some(ValueError("Invalid includes provided.")) else None
  }

  /** The scopes a sync asks for, as documented: None asks for nothing, True for every scope
      (on a copy of the scope list), a list for its own entries; every entry must be allowed;
      with cache, scopes already loaded are dropped; the rest must be names to be joined. */
  function RequestedScopes(includes: IncludeArg, cache: bool, haveGroups: bool, haveBadges: bool): (r: Result<seq<string>, Error>)
    ensures includes.NoIncludes? ==> r == Success([])
    ensures includes == IncludeFlag(true) ==>
              r == Success(Prune(ValidScopes, "groups", "badges", cache, haveGroups, haveBadges))
    ensures includes == IncludeFlag(false) ==> r.Failure? && r.error.TypeError?
    ensures includes.IncludeList? && (exists i :: 0 <= i < |includes.items| && !Allowed(includes.items[i])) ==>
              r == Failure(ValueError("Invalid includes provided."))
    ensures includes.IncludeList? && r.Success? ==>
              AllScopes(Prune(includes.items, Scope("groups"), Scope("badges"), cache, haveGroups, haveBadges)) &&
              r.value == ScopeNames(Prune(includes.items, Scope("groups"), Scope("badges"), cache, haveGroups, haveBadges))
  {
    match includes
    case NoIncludes => Success([])
    case IncludeFlag(all) =>
      if all then Success(Prune(ValidScopes, "groups", "badges", cache, haveGroups, haveBadges))
      else Failure(TypeError("argument of type 'bool' is not iterable"))
    case IncludeList(xs) =>
      if exists i :: 0 <= i < |xs| && !Allowed(xs[i]) then Failure(ValueError("Invalid includes provided."))
      else
        var pruned := Prune(xs, Scope("groups"), Scope("badges"), cache, haveGroups, haveBadges);
        if AllScopes(pruned) then Success(ScopeNames(pruned))
        else Failure(TypeError("sequence item: expected str instance"))
  }

  /** Only the two scopes are ever asked for. */
  lemma RequestedWithinValid(includes: IncludeArg, cache: bool, haveGroups: bool, haveBadges: bool)
    ensures var r := RequestedScopes(includes, cache, haveGroups, haveBadges);
            r.Success? ==> forall i :: 0 <= i < |r.value| ==> r.value[i] in ValidScopes
  {
    var r := RequestedScopes(includes, cache, haveGroups, haveBadges);
    if r.Success? {
      match includes
      case NoIncludes =>
      case IncludeFlag(_) =>
        var p := r.value;
        assert multiset(p) <= multiset(ValidScopes);
        forall i | 0 <= i < |p|
          ensures p[i] in ValidScopes
        {
          assert p[i] in multiset(ValidScopes);
        }
      case IncludeList(xs) =>
        var pruned := Prune(xs, Scope("groups"), Scope("badges"), cache, haveGroups, haveBadges);
        forall i | 0 <= i < |r.value|
          ensures r.value[i] in ValidScopes
        {
          assert pruned[i] in multiset(xs);
          assert pruned[i] in xs;
          var k :| 0 <= k < |xs| && xs[k] == pruned[i];
          assert Allowed(xs[k]);
        }
    }
  }

  lemma NameOfScope(xs: seq<IncludeItem>, n: string)
    requires AllScopes(xs) && n in ScopeNames(xs)
    ensures Scope(n) in xs
  {
    var names := ScopeNames(xs);
    var i :| 0 <= i < |names| && names[i] == n;
    assert xs[i] == Scope(n);
  }

  /** With cache, loaded groups are not asked for again (unless the list names them twice). */
  lemma LoadedGroupsNotRequested(xs: seq<IncludeItem>, haveBadges: bool)
    requires multiset(xs)[Scope("groups")] <= 1
    ensures var r := RequestedScopes(IncludeList(xs), true, true, haveBadges);
            r.Success? ==> "groups" !in r.value
  {
    var r := RequestedScopes(IncludeList(xs), true, true, haveBadges);
    if r.Success? {
      var afterGroups := RemoveFirst(xs, Scope("groups"));
      var pruned := Prune(xs, Scope("groups"), Scope("badges"), true, true, haveBadges);
      assert pruned == (if haveBadges then RemoveFirst(afterGroups, Scope("badges")) else afterGroups);
      assert multiset(afterGroups)[Scope("groups")] == 0;
      assert Scope("groups") !in pruned by {
        if haveBadges {
          assert multiset(pruned) <= multiset(afterGroups);
        }
      }
      if "groups" in r.value {
        NameOfScope(pruned, "groups");
      }
    }
  }

  lemma LoadedGroupsNotRequestedForAll(haveBadges: bool)
    ensures RequestedScopes(IncludeFlag(true), true, true, haveBadges).value == (if haveBadges then [] else ["badges"])
  {
    assert RemoveFirst(ValidScopes, "groups") == ["badges"];
  }

  /** The documented call sync(True) is refused as written but accepted as intended. */
  lemma IncludeAllRefusedAsWritten(cache: bool, haveGroups: bool, haveBadges: bool)
    ensures CheckIncludesAsWritten(IncludeFlag(true)) == Some(TypeError("'bool' object is not iterable"))
    ensures RequestedScopes(IncludeFlag(true), cache, haveGroups, haveBadges).Success?
  {
  }

  /** The module-level scope list as the shared mutable list it is. */
  class ScopeList {
    var items: seq<string>

    constructor ()
      ensures items == ValidScopes
    {
      items := ValidScopes;
    }

    /** includes.remove(x) when x is present. */
    method Remove(x: string)
      requires x in items
      modifies this
      ensures items == RemoveFirst(old(items), x)
    {
      items := RemoveFirst(items, x);
    }
  }

  /** Lines 148-158 as written, for includes=True: includes is the module's list itself, so the
      cache pruning removes scopes from the list every later sync(True) starts from. As written
      line 142 raises for True before this point, so the aliasing is latent: it takes effect once
      that check admits True, as RequestedScopes does. Returns the scopes requested. */
  method PruneSharedScopes(shared: ScopeList, cache: bool, haveGroups: bool, haveBadges: bool)
    returns (requested: seq<string>)
    modifies shared
    ensures requested == shared.items
    ensures requested == Prune(old(shared.items), "groups", "badges", cache, haveGroups, haveBadges)
  {
    if cache {
      if haveGroups && "groups" in shared.items {
        shared.Remove("groups");
      }
      if haveBadges && "badges" in shared.items {
        shared.Remove("badges");
      }
    }
    requested := shared.items;
  }

  /** Two users synced with includes=True in a row, the first with its groups already loaded, once
      the includes check admits True: with lines 148-158 as written, the second (which has no
      groups yet) no longer asks for them. */
  method SharedScopesLeak() returns (secondAsWritten: seq<string>, secondIntended: seq<string>)
    ensures secondAsWritten == ["badges"]
    ensures secondIntended == ["groups", "badges"]
  {
    var shared := new ScopeList();
    var _ := PruneSharedScopes(shared, true, true, false);
    secondAsWritten := PruneSharedScopes(shared, true, false, false);
    secondIntended := RequestedScopes(IncludeFlag(true), true, false, false).value;
  }

  /** A list, dict or string counts as set when it is present and non-empty. */
  predicate Nonempty<T>(x: Option<seq<T>>) {
    x.Some? && |x.value| > 0
  }

  /** `remote or local`: the response's value when it is set, else the value held. */
  function Prefer<T>(isSet: Option<T> -> bool, remote: Option<T>, local: Option<T>): (r: Option<T>)
    ensures isSet(remote) ==> r == remote
    ensures !isSet(remote) ==> r == local
  {
    if isSet(remote) then remote else local
  }

  /** Merging the same response twice leaves what merging it once did. */
  lemma PreferIdempotent<T>(isSet: Option<T> -> bool, remote: Option<T>, local: Option<T>)
    ensures Prefer(isSet, remote, Prefer(isSet, remote, local)) == Prefer(isSet, remote, local)
  {
  }

  /** A response with the value unset keeps the local one; the merge never erases a set value. */
  lemma PreferKeepsSet<T>(isSet: Option<T> -> bool, remote: Option<T>, local: Option<T>)
    requires isSet(local)
    ensures isSet(Prefer(isSet, remote, local))
  {
  }

  predicate SetInt(x: Option<int>) { TruthyInt(x) }
  predicate SetStr(x: Option<string>) { TruthyStr(x) }
  predicate SetBadges(x: Option<seq<string>>) { Nonempty(x) }
  predicate SetGroups(x: Option<map<int, Groups.UserGroup>>) { x.Some? && |x.value| > 0 }
  predicate Present<T>(x: Option<T>) { x.Some? }

  /** The Bloxlink info server's answer about a user; created is a day number. */
  datatype RemoteUser = RemoteUser(
    id: Option<int>, username: Option<string>, banned: bool, description: Option<string>,
    badges: Option<seq<string>>, displayName: Option<string>, created: Option<int>,
    avatar: Option<string>, profileLink: Option<string>, groups: Option<map<int, Groups.UserGroup>>)

  /** math.floor(days / 365): the whole years in an age of at least a year. */
  function YearsOf(days: int): (ys: int)
    requires days >= 365
    ensures ys >= 1 && 365 * ys <= days < 365 * (ys + 1)
  {
    days / 365
  }

  /** "<count> <unit> ago": the account age as years once it is at least 365 days, else days;
      the unit takes an "s" when the count is 0 or above 1. */
  function AgeString(days: int): (r: string)
    ensures days >= 365 ==> r == IntToString(YearsOf(days)) + " " + (if YearsOf(days) == 1 then "yr" else "yrs") + " ago"
    ensures days < 365 ==> r == IntToString(days) + " " + (if days > 1 || days == 0 then "days" else "day") + " ago"
  {
    if days >= 365 then
      var years := YearsOf(days);
      IntToString(years) + " yr" + (if years > 1 || years == 0 then "s" else "") + " ago"
    else
      IntToString(days) + " day" + (if days > 1 || days == 0 then "s" else "") + " ago"
  }

  /** The count an age label starts with reads back as the years or days it stands for. */
  lemma AgeStringCount(days: int)
    ensures days < 365 ==> ParseInt(AgeString(days)[..|IntToString(days)|]) == Some(days)
    ensures days >= 365 ==> ParseInt(AgeString(days)[..|IntToString(YearsOf(days))|]) == Some(YearsOf(days))
  {
    if days < 365 {
      ParseIntToString(days);
      assert AgeString(days)[..|IntToString(days)|] == IntToString(days);
    } else {
      ParseIntToString(YearsOf(days));
      assert AgeString(days)[..|IntToString(YearsOf(days))|] == IntToString(YearsOf(days));
    }
  }

  /** The fields a sync may change, as one value. */
  datatype UserState = UserState(
    id: Option<int>, username: Option<string>, banned: bool, ageDays: Option<int>,
    groups: Option<map<int, Groups.UserGroup>>, avatar: Option<string>, description: Option<string>,
    profileLink: Option<string>, displayName: Option<string>, created: Option<int>,
    badges: Option<seq<string>>, shortAgeString: Option<string>)

  /** The merge of lines 169-178: the response's value where it is set, else the held one; the
      display name falls back to the (merged) username. */
  function MergeResponse(s: UserState, u: RemoteUser): (t: UserState)
    ensures t.ageDays == s.ageDays && t.shortAgeString == s.shortAgeString
    ensures t.banned <==> u.banned || s.banned
    ensures SetStr(t.username) ==> SetStr(t.displayName)
    // A set (truthy) value of the server replaces the local one; otherwise the local one stays.
    ensures SetInt(u.id) ==> t.id == u.id
    ensures !SetInt(u.id) ==> t.id == s.id
    ensures SetStr(u.description) ==> t.description == u.description
    ensures !SetStr(u.description) ==> t.description == s.description
    ensures SetStr(u.username) ==> t.username == u.username
    ensures !SetStr(u.username) ==> t.username == s.username
    ensures SetBadges(u.badges) ==> t.badges == u.badges
    ensures !SetBadges(u.badges) ==> t.badges == s.badges
    ensures u.created.Some? ==> t.created == u.created
    ensures u.created.None? ==> t.created == s.created
    ensures u.avatar.Some? ==> t.avatar == u.avatar
    ensures u.avatar.None? ==> t.avatar == s.avatar
    ensures SetStr(u.profileLink) ==> t.profileLink == u.profileLink
    ensures !SetStr(u.profileLink) ==> t.profileLink == s.profileLink
    ensures SetGroups(u.groups) ==> t.groups == u.groups
    ensures !SetGroups(u.groups) ==> t.groups == s.groups
    // The display name: the server's, else the local one, else the username just merged.
    ensures SetStr(u.displayName) ==> t.displayName == u.displayName
    ensures !SetStr(u.displayName) && SetStr(s.displayName) ==> t.displayName == s.displayName
    ensures !SetStr(u.displayName) && !SetStr(s.displayName) ==> t.displayName == t.username
  {
    var username := Prefer(SetStr, u.username, s.username);
    s.(id := Prefer(SetInt, u.id, s.id),
       description := Prefer(SetStr, u.description, s.description),
       username := username,
       banned := u.banned || s.banned,
       badges := Prefer(SetBadges, u.badges, s.badges),
       displayName := Prefer(SetStr, Prefer(SetStr, u.displayName, s.displayName), username),
       created := Prefer(Present, u.created, s.created),
       avatar := Prefer(Present, u.avatar, s.avatar),
       profileLink := Prefer(SetStr, u.profileLink, s.profileLink),
       groups := Prefer(SetGroups, u.groups, s.groups))
  }

  /** parse_age on a state: once, and only with a creation date; an existing label is kept. */
  function AgeParsed(s: UserState, elapsedDays: int): (t: UserState)
    ensures s.ageDays.Some? || s.created.None? ==> t == s
    ensures s.ageDays.None? && s.created.Some? ==> t.ageDays == Some(elapsedDays)
    ensures TruthyStr(s.shortAgeString) ==> t.shortAgeString == s.shortAgeString
    ensures s.ageDays.None? && s.created.Some? && !TruthyStr(s.shortAgeString) ==> t.shortAgeString == Some(AgeString(elapsedDays))
    ensures t.(ageDays := s.ageDays, shortAgeString := s.shortAgeString) == s
  {
    if s.ageDays.Some? || s.created.None? then s
    else s.(ageDays := Some(elapsedDays),
            shortAgeString := if TruthyStr(s.shortAgeString) then s.shortAgeString else Some(AgeString(elapsedDays)))
  }

  /** Syncing twice against the same answer ends where syncing once did. */
  lemma MergeIdempotent(s: UserState, u: RemoteUser)
    ensures MergeResponse(MergeResponse(s, u), u) == MergeResponse(s, u)
  {
  }

  /** The age is computed once: a second parse changes nothing, whatever day it runs. */
  lemma AgeParsedOnce(s: UserState, d1: int, d2: int)
    ensures AgeParsed(AgeParsed(s, d1), d2) == AgeParsed(s, d1)
  {
  }

  /** A field the local object has set stays set after any merge. */
  lemma MergeKeepsSetFields(s: UserState, u: RemoteUser)
    ensures SetStr(s.username) ==> SetStr(MergeResponse(s, u).username)
    ensures SetStr(s.description) ==> SetStr(MergeResponse(s, u).description)
    ensures SetInt(s.id) ==> SetInt(MergeResponse(s, u).id)
    ensures SetGroups(s.groups) ==> SetGroups(MergeResponse(s, u).groups)
  {
  }

  class RobloxUser {
    var id: Option<int>
    var username: Option<string>
    var banned: bool
    var ageDays: Option<int>
    var groups: Option<map<int, Groups.UserGroup>>
    var avatar: Option<string>
    var description: Option<string>
    var profileLink: Option<string>
    var displayName: Option<string>
    /** The creation date as a day number. */
    var created: Option<int>
    var badges: Option<seq<string>>
    var shortAgeString: Option<string>
    /** Set when every scope was asked for. */
    var complete: bool

    function State(): UserState
      reads this
    {
      UserState(id, username, banned, ageDays, groups, avatar, description, profileLink, displayName,
                created, badges, shortAgeString)
    }

    method SetState(t: UserState)
      modifies this
      ensures State() == t && complete == old(complete)
    {
      id, username, banned, ageDays, groups, avatar := t.id, t.username, t.banned, t.ageDays, t.groups, t.avatar;
      description, profileLink, displayName, created := t.description, t.profileLink, t.displayName, t.created;
      badges, shortAgeString := t.badges, t.shortAgeString;
    }

    constructor (id: Option<int>, username: Option<string>)
      ensures State() == UserState(id, username, false, None, None, None, None, None, None, None, None, None)
      ensures !complete
    {
      this.id := id;
      this.username := username;
      banned := false;
      ageDays := None;
      groups := None;
      avatar := None;
      description := None;
      profileLink := None;
      displayName := None;
      created := None;
      badges := None;
      shortAgeString := None;
      complete := false;
    }

    /** parse_age(): once, and only for an account with a creation date, records its age and, unless
        a label is already there, the label for it. elapsedDays stands for today minus created. */
    method ParseAge(elapsedDays: int)
      modifies this
      ensures State() == AgeParsed(old(State()), elapsedDays) && complete == old(complete)
    {
      if ageDays.Some? || created.None? {
        return;
      }
      ageDays := Some(elapsedDays);
      if !TruthyStr(shortAgeString) {
        shortAgeString := Some(AgeString(elapsedDays));
      }
    }

    /** sync(includes, cache): works out the scopes to ask for, then merges a successful answer and
        derives the age. fetched is the answer: an error raised by the request, None for a non-OK
        status, or the user. */
    method Sync(includes: IncludeArg, cache: bool, fetched: Result<Option<RemoteUser>, Error>, elapsedDays: int)
      returns (err: Option<Error>, requested: seq<string>)
      modifies this
      ensures var scopes := RequestedScopes(includes, cache, old(groups).Some?, old(badges).Some?);
              (scopes.Failure? ==> err == Some(scopes.error) && State() == old(State())) &&
              (scopes.Success? ==> requested == scopes.value)
      ensures err.None? <==> RequestedScopes(includes, cache, old(groups).Some?, old(badges).Some?).Success? && fetched.Success?
      ensures fetched.Failure? || fetched == Success(None) ==> State() == old(State())
      ensures err.None? && fetched.value.Some? ==>
                State() == AgeParsed(MergeResponse(old(State()), fetched.value.value), elapsedDays)
      ensures complete == (old(complete) || includes == IncludeFlag(true))
    {
      requested := [];
      var scopes := RequestedScopes(includes, cache, groups.Some?, badges.Some?);
      if includes == IncludeFlag(true) {
        complete := true;
      }
      if scopes.Failure? {
        return Some(scopes.error), requested;
      }
      requested := scopes.value;
      if fetched.Failure? {
        return Some(fetched.error), requested;
      }
      err := None;
      if fetched.value.None? {
        return;
      }
      SetState(MergeResponse(State(), fetched.value.value));
      ParseAge(elapsedDays);
    }
  }

  /** owns_asset: the inventory endpoint's text is "true" exactly when the user owns the asset; a
      RobloxAPIError counts as not owned, any other error propagates. */
  function OwnsAsset(response: Result<string, Error>): (r: Result<bool, Error>)
    ensures response.Success? ==> r == Success(response.value == "true")
    ensures response.Failure? && response.error.RobloxAPIError? ==> r == Success(false)
    ensures response.Failure? && !response.error.RobloxAPIError? ==> r == Failure(response.error)
    ensures r == Success(true) <==> response == Success("true")
  {
    match response
    case Success(text) => Success(text == "true")
    case Failure(e) => if e.RobloxAPIError? then Success(false) else Failure(e)
  }

  /** get_user_account: the account linked for this guild when there is one, else the primary
      account; with neither, UserNotVerified or None. guildAccounts is robloxAccounts["guilds"]
      (None when absent), keyed by the guild id as text; account ids are text. */
  function GetUserAccount(guildId: Option<int>, guildAccounts: Option<map<string, string>>,
                          robloxId: Option<string>, raiseErrors: bool): (r: Result<Option<string>, Error>)
    ensures r.Success? && r.value.Some? ==> r.value.value != ""
    ensures TruthyInt(guildId) && guildAccounts.Some? && IntToString(guildId.value) in guildAccounts.value &&
            guildAccounts.value[IntToString(guildId.value)] != "" ==>
              r == Success(Some(guildAccounts.value[IntToString(guildId.value)]))
    ensures r.Success? && r.value.Some? && r.value != robloxId ==>
              TruthyInt(guildId) && guildAccounts.Some? && IntToString(guildId.value) in guildAccounts.value
    ensures r.Failure? <==>
              raiseErrors && !TruthyStr(robloxId) &&
              !(TruthyInt(guildId) && guildAccounts.Some? && IntToString(guildId.value) in guildAccounts.value &&
                guildAccounts.value[IntToString(guildId.value)] != "")
    ensures r.Failure? ==> r.error == UserNotVerified
    ensures raiseErrors ==> r != Success(None)
  {
    var guildAccount :=
      if TruthyInt(guildId) && guildAccounts.Some? && IntToString(guildId.value) in guildAccounts.value
      then Some(guildAccounts.value[IntToString(guildId.value)]) else None;
    if TruthyStr(guildAccount) then Success(guildAccount)
    else if TruthyStr(robloxId) then Success(robloxId)
    else if raiseErrors then Failure(UserNotVerified)
    else Success(None)
  }

  /** How get_user looks an account up once its arguments are accepted. */
  datatype Lookup = ByLinkedAccount | ByIdentity(username: Option<string>, id: Option<int>)

  /** get_user's argument check: an id and a username together, or a Discord user together with
      either, are refused; a user is looked up through the linked account. */
  function GetUserRequest(hasUser: bool, robloxUsername: Option<string>, robloxId: Option<int>): (r: Result<Lookup, Error>)
    ensures r.Failure? <==> (TruthyInt(robloxId) && TruthyStr(robloxUsername)) ||
                            (hasUser && (TruthyStr(robloxUsername) || TruthyInt(robloxId)))
    ensures r.Failure? ==> r.error.ValueError?
    ensures r.Success? ==> (r.value == ByLinkedAccount <==> hasUser)
    ensures r.Success? && !hasUser ==> r.value == ByIdentity(robloxUsername, robloxId)
  {
    if TruthyInt(robloxId) && TruthyStr(robloxUsername) then
      Failure(ValueError("You cannot provide both a roblox_id and a roblox_username."))
    else if hasUser && (TruthyStr(robloxUsername) || TruthyInt(robloxId)) then
      Failure(ValueError("You cannot provide both a user and a roblox_id or roblox_username."))
    else if hasUser then Success(ByLinkedAccount)
    else Success(ByIdentity(robloxUsername, robloxId))
  }

  /** What a completed lookup yields: the synced user's id and username. */
  datatype FoundUser = FoundUser(id: Option<int>, username: Option<string>)

  /** get_user_from_string(target): an all-digit target is first tried as an id (a not-found or API
      error falls through to the username lookup); a not-found username lookup becomes RobloxNotFound;
      a user missing its id or username is not found either. byId and byName are the two lookups. */
  function GetUserFromString(target: string, byId: Result<FoundUser, Error>, byName: Result<FoundUser, Error>): (r: Result<FoundUser, Error>)
    ensures r.Success? ==> r.value.id.Some? && r.value.username.Some?
    ensures r.Success? ==> (IsDigits(target) && byId.Success? && r == byId) || byName == r
    ensures IsDigits(target) && byId.Success? && byId.value.id.Some? && byId.value.username.Some? ==> r == byId
    ensures !IsDigits(target) && byName.Success? && byName.value.id.Some? && byName.value.username.Some? ==> r == byName
    ensures IsDigits(target) && byId.Failure? && !byId.error.RobloxNotFound? && !byId.error.RobloxAPIError? ==> r == byId
    ensures r.Failure? && r.error.RobloxAPIError? ==> (IsDigits(target) && byId == r) || byName == r
  {
    var first := IdLookup(target, byId);
    if first.Failure? then Failure(first.error)
    else
      var account := if first.value.Some? then Success(first.value.value) else NameLookup(byName);
      if account.Failure? then account
      else if account.value.id.None? || account.value.username.None? then
        Failure(RobloxNotFound("The Roblox user you were searching for does not exist."))
      else account
  }

  /** The id attempt of get_user_from_string: None when it is skipped or falls through. */
  function IdLookup(target: string, byId: Result<FoundUser, Error>): (r: Result<Option<FoundUser>, Error>)
    ensures !IsDigits(target) ==> r == Success(None)
    ensures IsDigits(target) && byId.Success? ==> r == Success(Some(byId.value))
    ensures IsDigits(target) && byId.Failure? ==>
              r == if byId.error.RobloxNotFound? || byId.error.RobloxAPIError? then Success(None) else Failure(byId.error)
  {
    if IsDigits(target) then
      match byId
      case Success(u) => Success(Some(u))
      case Failure(e) => if e.RobloxNotFound? || e.RobloxAPIError? then Success(None) else Failure(e)
    else Success(None)
  }

  /** The username attempt: a not-found lookup is reported with the search message. */
  function NameLookup(byName: Result<FoundUser, Error>): (r: Result<FoundUser, Error>)
    ensures byName.Success? || !byName.error.RobloxNotFound? ==> r == byName
    ensures byName.Failure? && byName.error.RobloxNotFound? ==>
              r == Failure(RobloxNotFound("The Roblox user you were searching for does not exist! Please check the input you gave and try again!"))
  {
    match byName
    case Success(u) => byName
    case Failure(e) =>
      if e.RobloxNotFound? then
        Failure(RobloxNotFound("The Roblox user you were searching for does not exist! Please check the input you gave and try again!"))
      else byName
  }
}

=== FILE: utils.dfy ===
/** The `find` helper the bind engine imports (the first element satisfying a predicate), and the
    list comprehension over a constructor that may raise. */
module Utils {
  import opened Wrappers

  /** The index of the first element of s satisfying p, if any. */
  function FindIndex<T>(p: T -> bool, s: seq<T>): (r: Option<nat>)
    ensures r.Some? ==> r.value < |s| && p(s[r.value])
    ensures r.Some? ==> forall j :: 0 <= j < r.value ==> !p(s[j])
    ensures r.None? ==> forall j :: 0 <= j < |s| ==> !p(s[j])
    decreases |s|
  {
    if |s| == 0 then None
    else if p(s[0]) then Some(0)
    else
      match FindIndex(p, s[1..])
      case None => None
      case Some(k) => Some(k + 1)
  }

  /** The first element of s satisfying p, or None when no element does. */
  function Find<T>(p: T -> bool, s: seq<T>): (r: Option<T>)
    ensures r.Some? ==> exists i :: 0 <= i < |s| && s[i] == r.value && p(s[i]) && forall j :: 0 <= j < i ==> !p(s[j])
    ensures r.None? <==> forall j :: 0 <= j < |s| ==> !p(s[j])
  {
    match FindIndex(p, s)
    case None => None
    case Some(i) => Some(s[i])
  }

  /** [f(x) for x in xs] where f may raise: the results in order, or the error of the first
      element f fails on. */
  function MapAll<A, B, E>(f: A -> Result<B, E>, xs: seq<A>): (r: Result<seq<B>, E>)
    ensures r.Success? <==> forall i :: 0 <= i < |xs| ==> f(xs[i]).Success?
    ensures r.Success? ==> |r.value| == |xs| && forall i :: 0 <= i < |xs| ==> r.value[i] == f(xs[i]).value
    ensures r.Failure? ==> exists i :: 0 <= i < |xs| && f(xs[i]) == Failure(r.error) &&
                                        forall j :: 0 <= j < i ==> f(xs[j]).Success?
    decreases |xs|
  {
    if |xs| == 0 then Success([])
    else
      var init := xs[..|xs| - 1];
      var done := MapAll(f, init);
      assert forall i :: 0 <= i < |init| ==> init[i] == xs[i];
      if done.Failure? then done
      else
        match f(xs[|xs| - 1])
        case Failure(e) => Failure(e)
        case Success(y) => Success(done.value + [y])
  }

  /** The element that fails first decides the error, whatever follows it. */
  lemma {:induction false} MapAllFirstFailure<A, B, E>(f: A -> Result<B, E>, xs: seq<A>, i: nat)
    requires i < |xs| && f(xs[i]).Failure?
    requires forall j :: 0 <= j < i ==> f(xs[j]).Success?
    ensures MapAll(f, xs) == Failure(f(xs[i]).error)
    decreases |xs|
  {
    var init := xs[..|xs| - 1];
    if i < |xs| - 1 {
      assert init[i] == xs[i];
      assert forall j :: 0 <= j < i ==> init[j] == xs[j];
      MapAllFirstFailure(f, init, i);
    } else {
      assert forall j :: 0 <= j < |init| ==> init[j] == xs[j];
    }
  }

  /** Extending the input by one element extends a successful result by f of that element. */
  lemma MapAllSnoc<A, B, E>(f: A -> Result<B, E>, xs: seq<A>, i: nat)
    requires i < |xs| && MapAll(f, xs[..i]).Success? && f(xs[i]).Success?
    ensures MapAll(f, xs[..i + 1]) == Success(MapAll(f, xs[..i]).value + [f(xs[i]).value])
  {
    assert xs[..i + 1][..i] == xs[..i];
  }

  /** The concatenation of f(x) for x in xs, in order, where f may raise: the error of the first
      element f fails on. */
  function FlatMapAll<A, B, E>(f: A -> Result<seq<B>, E>, xs: seq<A>): (r: Result<seq<B>, E>)
    ensures r.Success? <==> forall i :: 0 <= i < |xs| ==> f(xs[i]).Success?
    ensures r.Failure? ==> exists i :: 0 <= i < |xs| && f(xs[i]) == Failure(r.error) &&
                                        forall j :: 0 <= j < i ==> f(xs[j]).Success?
    decreases |xs|
  {
    if |xs| == 0 then Success([])
    else
      var init := xs[..|xs| - 1];
      var done := FlatMapAll(f, init);
      assert forall i :: 0 <= i < |init| ==> init[i] == xs[i];
      if done.Failure? then done
      else
        match f(xs[|xs| - 1])
        case Failure(e) => Failure(e)
        case Success(ys) => Success(done.value + ys)
  }

  lemma {:induction false} FlatMapAllFirstFailure<A, B, E>(f: A -> Result<seq<B>, E>, xs: seq<A>, i: nat)
    requires i < |xs| && f(xs[i]).Failure?
    requires forall j :: 0 <= j < i ==> f(xs[j]).Success?
    ensures FlatMapAll(f, xs) == Failure(f(xs[i]).error)
    decreases |xs|
  {
    var init := xs[..|xs| - 1];
    if i < |xs| - 1 {
      assert init[i] == xs[i];
      assert forall j :: 0 <= j < i ==> init[j] == xs[j];
      FlatMapAllFirstFailure(f, init, i);
    } else {
      assert forall j :: 0 <= j < |init| ==> init[j] == xs[j];
    }
  }

  lemma FlatMapAllSnoc<A, B, E>(f: A -> Result<seq<B>, E>, xs: seq<A>, i: nat)
    requires i < |xs| && FlatMapAll(f, xs[..i]).Success? && f(xs[i]).Success?
    ensures FlatMapAll(f, xs[..i + 1]) == Success(FlatMapAll(f, xs[..i]).value + f(xs[i]).value)
  {
    assert xs[..i + 1][..i] == xs[..i];
  }

  /** Over a concatenation: the first half's error, else the second half's error, else the two
      results joined in order. */
  lemma {:induction false} FlatMapAllAppend<A, B, E>(f: A -> Result<seq<B>, E>, xs: seq<A>, ys: seq<A>)
    ensures FlatMapAll(f, xs).Failure? ==> FlatMapAll(f, xs + ys) == FlatMapAll(f, xs)
    ensures FlatMapAll(f, xs).Success? && FlatMapAll(f, ys).Failure? ==>
              FlatMapAll(f, xs + ys) == Failure(FlatMapAll(f, ys).error)
    ensures FlatMapAll(f, xs).Success? && FlatMapAll(f, ys).Success? ==>
              FlatMapAll(f, xs + ys) == Success(FlatMapAll(f, xs).value + FlatMapAll(f, ys).value)
    decreases |ys|
  {
    if |ys| == 0 {
      assert xs + ys == xs;
      if FlatMapAll(f, xs).Success? {
        assert FlatMapAll(f, xs).value + [] == FlatMapAll(f, xs).value;
      }
    } else {
      var init := ys[..|ys| - 1];
      FlatMapAllAppend(f, xs, init);
      assert (xs + ys)[..|xs + ys| - 1] == xs + init;
      assert (xs + ys)[|xs + ys| - 1] == ys[|ys| - 1];
      if FlatMapAll(f, xs).Success? && FlatMapAll(f, ys).Success? {
        assert FlatMapAll(f, xs).value + FlatMapAll(f, init).value + f(ys[|ys| - 1]).value ==
               FlatMapAll(f, xs).value + (FlatMapAll(f, init).value + f(ys[|ys| - 1]).value);
      }
    }
  }

  /** A one-element input gives exactly f of that element. */
  lemma FlatMapAllSingle<A, B, E>(f: A -> Result<seq<B>, E>, x: A)
    ensures FlatMapAll(f, [x]) == f(x)
  {
    assert [x][..0] == [];
    if f(x).Success? {
      assert [] + f(x).value == f(x).value;
    }
  }

  /** Around one element: the results before it, its own, and those after it. */
  lemma FlatMapAllAround<A, B, E>(f: A -> Result<seq<B>, E>, before: seq<A>, x: A, after: seq<A>)
    requires FlatMapAll(f, before + [x] + after).Success?
    ensures FlatMapAll(f, before).Success? && f(x).Success? && FlatMapAll(f, after).Success?
    ensures FlatMapAll(f, before + [x] + after).value ==
              FlatMapAll(f, before).value + f(x).value + FlatMapAll(f, after).value
  {
    FlatMapAllSingle(f, x);
    FlatMapAllAppend(f, before, [x]);
    FlatMapAllAppend(f, before + [x], after);
  }

  /** Every element's results sit in place in a successful result: after the results of the
      elements before it and before the results of those after it. */
  lemma FlatMapAllAt<A, B, E>(f: A -> Result<seq<B>, E>, xs: seq<A>, i: nat)
    requires i < |xs| && FlatMapAll(f, xs).Success?
    ensures FlatMapAll(f, xs[..i]).Success? && f(xs[i]).Success? && FlatMapAll(f, xs[i + 1..]).Success?
    ensures FlatMapAll(f, xs).value ==
              FlatMapAll(f, xs[..i]).value + f(xs[i]).value + FlatMapAll(f, xs[i + 1..]).value
  {
    SplitAt(xs, i);
    FlatMapAllAround(f, xs[..i], xs[i], xs[i + 1..]);
  }

  /** The same, behind a prefix of earlier results. */
  lemma FlatMapAllAtAfter<A, B, E>(f: A -> Result<seq<B>, E>, prefix: seq<B>, xs: seq<A>, i: nat)
    requires i < |xs| && FlatMapAll(f, xs).Success?
    ensures FlatMapAll(f, xs[..i]).Success? && f(xs[i]).Success? && FlatMapAll(f, xs[i + 1..]).Success?
    ensures prefix + FlatMapAll(f, xs).value ==
              prefix + FlatMapAll(f, xs[..i]).value + f(xs[i]).value + FlatMapAll(f, xs[i + 1..]).value
  {
    FlatMapAllAt(f, xs, i);
    Regroup3(prefix, FlatMapAll(f, xs[..i]).value + f(xs[i]).value, FlatMapAll(f, xs[i + 1..]).value);
    Regroup3(prefix, FlatMapAll(f, xs[..i]).value, f(xs[i]).value);
  }

  /** for x in xs: output.append(f(x)), where f may raise: the extended output, or the error of
      the first element f fails on. */
  method AppendAll<A, B, E>(f: A -> Result<B, E>, xs: seq<A>, output: seq<B>) returns (r: Result<seq<B>, E>)
    ensures MapAll(f, xs).Success? ==> r == Success(output + MapAll(f, xs).value)
    ensures MapAll(f, xs).Failure? ==> r == Failure(MapAll(f, xs).error)
  {
    var out := output;
    var i := 0;
    while i < |xs|
      invariant 0 <= i <= |xs|
      invariant MapAll(f, xs[..i]).Success?
      invariant out == output + MapAll(f, xs[..i]).value
    {
      var y := f(xs[i]);
      if y.Failure? {
        assert forall j :: 0 <= j < i ==> xs[..i][j] == xs[j];
        MapAllFirstFailure(f, xs, i);
        return Failure(y.error);
      }
      MapAllSnoc(f, xs, i);
      out := out + [y.value];
      i := i + 1;
    }
    assert xs[..i] == xs;
    return Success(out);
  }

  lemma Regroup<T>(w: seq<T>, x: seq<T>, y: seq<T>, z: seq<T>)
    ensures ((w + x) + y) + z == w + (x + (y + z))
  {
  }

  lemma ConcatIndex<T>(a: seq<T>, b: seq<T>, i: nat)
    requires i < |a| + |b|
    ensures (a + b)[i] == if i < |a| then a[i] else b[i - |a|]
  {
  }

  lemma MiddleSlice<T>(a: seq<T>, b: seq<T>, c: seq<T>)
    ensures (a + b + c)[|a|..|a| + |b|] == b
  {
  }

  lemma SplitAt<T>(xs: seq<T>, i: nat)
    requires i < |xs|
    ensures xs == xs[..i] + [xs[i]] + xs[i + 1..]
  {
  }

  lemma Regroup3<T>(w: seq<T>, x: seq<T>, y: seq<T>)
    ensures (w + x) + y == w + (x + y)
  {
  }
}

=== FILE: wrappers.dfy ===
/** Option and Result, the failure-compatible wrappers used throughout the model. */
module Wrappers {

  datatype Option<+T> = None | Some(value: T) {
    predicate IsFailure() { None? }

    function PropagateFailure<U>(): Option<U>
      requires None?
    {
      None
    }

    function Extract(): T
      requires Some?
    {
      value
    }

    function GetOr(default: T): T {
      match this
      case Some(v) => v
      case None => default
    }
  }

  datatype Result<+R, +E> = Success(value: R) | Failure(error: E) {
    predicate IsFailure() { Failure? }

    function PropagateFailure<U>(): Result<U, E>
      requires Failure?
    {
      Failure(error)
    }

    function Extract(): R
      requires Success?
    {
      value
    }
  }
}
